=== FILE: README.md ===
# Aether Audio Archivist: a Dafny model of the ingestion core

The Aether Audio Archivist harvests a playlist page and downloads one audio
file per selected track. This project models the decision and bookkeeping
rules at its core. Every operation is a pure function over immutable
datatypes, and the properties the program relies on are proved as contracts
and lemmas.

The modules follow the program's structure:

- `Wrappers`: the `Option` datatype. It stands for Python's `None`, a missing
  key or a raised exception, as each use documents.
- `PyText`: the Python primitives the program leans on. These are
  `str.strip`, `str.split(sep)`, the built-in `int(text)` and its inverse
  `str(n)`. Two whitespace sets are kept apart: `str.isspace`, used by
  `strip` and by the pattern `\s`, and C's `isspace`, the only whitespace
  `int` skips.
- `Duration`: `Archivist.parse_duration` and its copies in the scripts. Also
  the duration-shape pattern `^\d{1,2}:\d{2}(:\d{2})?$` as a hand-written
  recogniser (Python's `$` also matches before a final newline), the
  pattern-screened test loop, and the `M:SS` label of the resolution screen
  as the parser's round-trip partner.
- `DurationText`: the extended parser of `test_duration_parsing.py`, with its
  case-insensitive free-text search for "N minutes M seconds".
- `Filename`: the per-character filename sanitiser. `str.isalnum` is a
  parameter.
- `Matching`: the worker's match selection:
  - the four fallback queries;
  - the first query that found something;
  - the closest-duration choice, which raises on a null duration;
  - routing to a match, to the user, to NO MATCH or to FAILED;
  - reading the resolution screen's buttons and the choice they write.
- `Report`: `save_mission_report` without the file access. It covers the
  insertion-ordered `track_sizes` dictionary, the average, the largest
  download and its title, one row per track, and the history append.
- `Harvest`: the dedup rule of the playlist harvest, a fold over the rows
  read in each scroll pass.
- `Launch`: `Launchpad.start_archivist` validation.
- `Ingest`: the archivist screen as a transition system on the single event
  loop. A step is one stretch of code between two `await`s. The steps are
  harvested rows, the selection keys, the start, and each worker's
  semaphore acquisition, search, poll of the user's decision and download.
  The state also holds the stack of screens pushed above the archivist.

Entry durations follow the code rather than a simpler reading. A result's
`duration` key may be:

- absent: `get` gives 0, and the entry is passed over;
- JSON null: `None > 0` raises `TypeError`, and the worker counts the track
  as FAILED;
- a possibly fractional number of seconds.

## Model

| member | source | states |
|---|---|---|
| PyText.StripSpec | Aether_Audio_Archivist_Pro.py:217 | `str.strip` removes exactly the surrounding whitespace. The result is a contiguous piece of the input that starts and ends with non-whitespace, and every character cut on either side is whitespace. |
| PyText.StripIdempotent | test_regex.py:17 | Stripping an already stripped text changes nothing. |
| PyText.StripPadded | test_regex.py:17 | Whitespace on both sides of a trimmed non-empty text is exactly what the strip removes. |
| PyText.StripNonBlank | Aether_Audio_Archivist_Pro.py:217 | A text holding any non-whitespace character does not strip to the empty string. |
| PyText.SplitCount | Aether_Audio_Archivist_Pro.py:456 | `split(":")` yields one more piece than there are colons, so the field count is fixed by the colons alone. |
| PyText.JoinSplit | Aether_Audio_Archivist_Pro.py:456 | Splitting loses nothing: joining the pieces with the separator gives back the input. |
| PyText.SplitJoin | Aether_Audio_Archivist_Pro.py:456 | Separator-free pieces come back unchanged when their join is split, which is the inverse direction of the round trip. |
| PyText.Split | Aether_Audio_Archivist_Pro.py:456 | There is always at least one piece, and no piece contains the separator. |
| PyText.ParseShowInt | Aether_Audio_Archivist_Pro.py:97-100 | `int(str(n)) == n` for every integer whose decimal spelling has at most 4300 digits, negative ones included. |
| PyText.ParseDigits | reproduction_script.py:7-8 | A field of at most 4300 plain digits converts to its decimal value. |
| PyText.ParseDigitsRange | Aether_Audio_Archivist_Pro.py:98 | On unsigned digits `int` returns their value when there are at most 4300 of them, and raises when there are more. |
| PyText.ParseTooLong | Aether_Audio_Archivist_Pro.py:98 | More than 4300 digits make `int` raise, with or without a '-' in front, whatever their value. |
| PyText.ParseNegative | reproduction_script.py:7-8 | A leading '-' before digits is accepted and negates their value. |
| PyText.ParsePadded | Aether_Audio_Archivist_Pro.py:98 | C whitespace on either side of a literal does not change what `int` returns. |
| PyText.ParseRejectsSeparator | Aether_Audio_Archivist_Pro.py:98 | The separator 0x1C is whitespace to `strip` but not to `int`, so `int("\x1c5")` raises although the text strips to "5". |
| PyText.ParseInt | Aether_Audio_Archivist_Pro.py:98 | `int` succeeds only on text that is not blank once C whitespace is stripped. |
| Duration.ParseTwoFields | Aether_Audio_Archivist_Pro.py:455-459 | Two colon-free fields give minutes × 60 + seconds when `int` accepts both, and 0 through the bare `except` when it refuses either. |
| Duration.ParseThreeFields | Aether_Audio_Archivist_Pro.py:455-459 | Three fields give hours × 3600 + minutes × 60 + seconds when `int` accepts all of them, and 0 when it refuses any. |
| Duration.ParseOtherFieldCount | Aether_Audio_Archivist_Pro.py:456-460 | With any number of colons other than one or two, a bare "45" included, the result is 0. |
| Duration.ParseUnsignedMinutes | reproduction_script.py:4-10 | Unsigned digit fields give their weighted sum, which is never negative. |
| Duration.ParseNegatedMinutes | reproduction_script.py:7 | The sign `int` accepts reaches the result: the minutes value enters negated, −m·60 + s, which is negative whenever m·60 > s and not otherwise ("-0:30" gives 30). |
| Duration.ParseTooLongMinutes | Aether_Audio_Archivist_Pro.py:455-459 | A minutes field of more than 4300 digits makes `int` raise inside the `try`, so the duration is 0 whatever the seconds field holds. |
| Duration.ExampleMinutes | reproduction_script.py:16-17 | "3:45" gives 225. |
| Duration.ExampleHours | reproduction_script.py:19-20 | "1:02:30" gives 3750. |
| Duration.ExampleNotANumber | reproduction_script.py:25-26 | "3:xx" gives 0 and does not raise. |
| Duration.ExampleNoColon | reproduction_script.py:22-33 | "invalid", "", "45" and `None` all give 0. |
| Duration.ExampleNegatedZero | reproduction_script.py:7-8 | "-0:30" gives 30: a negated minutes field does not make the result negative when the seconds outweigh it. |
| Duration.ExampleNegative | reproduction_script.py:7-8 | "-1:00" gives -60, so results are not guaranteed non-negative. |
| Duration.Pad2 | Aether_Audio_Archivist_Pro.py:532 | `{n:02d}` for n below 100 is two digits whose value is n. |
| Duration.ParseFormatMinSec | Aether_Audio_Archivist_Pro.py:532 | The parser reads the `M:SS` label of a whole number of seconds back as that number. |
| Duration.LeadWidth | Aether_Audio_Archivist_Pro.py:163 | `\d{1,2}` takes as many leading digits as there are, up to two. |
| Duration.ShapeMatchIffFields | test_regex.py:3 | The pattern accepts a string exactly when the string, less one final newline, is two or three colon-separated digit fields of widths 1–2, 2 and 2. |
| Duration.ShapeAccepts | test_regex.py:5-13 | "3:43", "03:43", "1:03:43", "12:34" and "3:43\n" have the shape. |
| Duration.ShapeRejects | test_regex.py:5-13 | "3 minutes 43 seconds", "invalid", "123:45" and "3:4" do not have the shape. |
| Duration.ShapeStripped | test_regex.py:17 | "   3:43   " is rejected as it stands and accepted once stripped. |
| Duration.ShapedParse | test_regex.py:20-26 | Every accepted string takes the parser's arithmetic path. Its value is between 0 and 99:99:99 (fields are not checked against 60), and a final newline does not change it. |
| Duration.FieldsBounded | test_regex.py:23-24 | Two or three fields of at most two digits give a value from 0 to 99 × 3600 + 99 × 60 + 99. |
| Duration.LastFieldNewline | test_regex.py:20-26 | A newline after the last digit field does not change the parsed duration, because `int` skips it. |
| Duration.ScreenedDurations | test_regex.py:28-31 | The screened loop prints at most one line per input. |
| Duration.ScreenedSpec | test_regex.py:28-31 | The printed inputs are exactly those whose stripped text has the shape, and every printed duration is in the shape's range. |
| DurationText.SkipDigits | test_duration_parsing.py:13 | `\d+` runs greedily to the first non-digit. |
| DurationText.SkipSpaces | test_duration_parsing.py:13 | `\s*` runs greedily to the first non-whitespace character. |
| DurationText.UnitEnd | test_duration_parsing.py:13 | A unit word is found exactly when "min" starts there in any case. It ends where the letters spell "min", "mins", "minute" or "minutes", it reaches past "minute" whenever that is spelled, and an unplural end is never followed by an 's'. |
| DurationText.UnitEndAt | test_duration_parsing.py:13 | A unit word spelled out up to a non-letter, or to the end, is exactly where the alternation stops. |
| DurationText.MatchAt | test_duration_parsing.py:13 | The anchored pattern yields groups exactly when digits, optional whitespace and a unit word start at that position. The minutes group is the whole digit run there, and the seconds group, when present, is non-empty digits. |
| DurationText.Search | test_duration_parsing.py:13 | `re.search` returns a position at or after the start where the pattern matches. |
| DurationText.SearchLeftmost | test_duration_parsing.py:13 | No match starts before the one `re.search` returns, and when it returns nothing no position matches. |
| DurationText.FreeText | test_duration_parsing.py:13-17 | The free-text branch never gives a negative result, because both groups are unsigned digits. |
| DurationText.ParseWords | test_duration_parsing.py:13-17 | For every text made of minutes digits, whitespace, a unit word in any case, whitespace, optional seconds digits and a colon-free rest that cannot extend a part, the parser gives minutes × 60 + seconds. |
| DurationText.FreeTextAt | test_duration_parsing.py:13-17 | The same, with the parts given by the positions where they end. |
| DurationText.ExtAgreesOnFields | test_duration_parsing.py:7-10 | On a colon text with two or three fields the extended parser and the plain parser agree. |
| DurationText.ExtFallsThrough | test_duration_parsing.py:7-13 | With any other colon count the extended parser uses the free-text search, where the plain parser gives 0. |
| DurationText.NoUnitNoDuration | test_duration_parsing.py:19-20 | Without a colon and without "min" in any case, the result is 0. |
| DurationText.FreeTextIgnoresCase | test_duration_parsing.py:13 | Lower-casing the text does not change the free-text result. |
| DurationText.ExampleWords | test_duration_parsing.py:24 | "3 minutes 43 seconds" gives 223. |
| DurationText.ExampleShortWords | test_duration_parsing.py:25 | "3 mins 43 secs" gives 223. |
| DurationText.ExampleMinutesOnly | test_duration_parsing.py:26 | "3 min" gives 180, because a missing seconds group reads as 0. |
| DurationText.ExampleUpperCase | test_duration_parsing.py:13 | "3 MIN" gives 180. |
| DurationText.ExampleColonFields | test_duration_parsing.py:27 | "1:03:43" gives 3823. |
| DurationText.ExampleLabelled | test_duration_parsing.py:7-10 | "Length: 3 min" gives 0. The colon sends it down the colon branch, where `int` refuses the label. |
| Filename.Sanitise | Aether_Audio_Archivist_Pro.py:385 | The result has the input's length. Every character is alphanumeric or one of " -_.", allowed characters are kept in place, and every other character becomes '_'. |
| Filename.FinalName | Aether_Audio_Archivist_Pro.py:385 | The name is seven characters longer than artist and title together, and holds only allowed characters. |
| Filename.SanitiseFixed | Aether_Audio_Archivist_Pro.py:385 | Sanitising leaves a name unchanged exactly when it has no disallowed character. |
| Filename.SanitiseIdempotent | Aether_Audio_Archivist_Pro.py:385 | Sanitising twice gives the same name as sanitising once. |
| Filename.SanitiseAppend | Aether_Audio_Archivist_Pro.py:385 | The sanitiser distributes over concatenation. |
| Filename.FinalNameParts | Aether_Audio_Archivist_Pro.py:385 | The final name is the sanitised artist, " - ", the sanitised title and ".mp3". |
| Filename.FinalNameExtension | Aether_Audio_Archivist_Pro.py:385 | The final name still ends in ".mp3". |
| Filename.NoSeparator | Aether_Audio_Archivist_Pro.py:385-386 | No '/' reaches the file name joined to the library directory. |
| Matching.Queries | Aether_Audio_Archivist_Pro.py:332-337 | There is one query per suffix, four in all. |
| Matching.QueriesShape | Aether_Audio_Archivist_Pro.py:332-337 | Every query starts with "artist title", the last one is exactly that, and no query repeats another. |
| Matching.FirstHit | Aether_Audio_Archivist_Pro.py:339-349 | The results are empty exactly when no query found anything. Otherwise they are those of the first query that returned a non-empty list without raising. |
| Matching.RunQueries | Aether_Audio_Archivist_Pro.py:339-349 | The loop as written computes the first hit. It issues no query after the first hit, and every query it issued before the last found nothing. |
| Matching.Gap | Aether_Audio_Archivist_Pro.py:358 | `abs(duration - spotify_dur)` is the non-negative difference. |
| Matching.BestCorrect | Aether_Audio_Archivist_Pro.py:351-360 | The scan raises exactly when some entry's duration is null. Otherwise the chosen entry has a positive duration less than 30 seconds off the target, none is strictly closer, ties go to the first, and there is no choice exactly when nothing qualifies. |
| Matching.BestUnique | Aether_Audio_Archivist_Pro.py:351-360 | Any outcome that meets the choice specification is the scan's. |
| Matching.FractionalQualifies | Aether_Audio_Archivist_Pro.py:356-359 | A fractional duration 29.5 seconds off the target qualifies, and one 30 seconds off does not. |
| Matching.RouteSpec | Aether_Audio_Archivist_Pro.py:351-382 | The worker fails exactly when a result has a null duration. Otherwise it matches exactly when some entry qualifies, and it matches the best one. With results and no match it shows the first (at most three) results in order. With no results the track is unmatched. |
| Matching.Get | Aether_Audio_Archivist_Pro.py:547-548 | `entry.get(key)` gives a value exactly when the key is there and not null, and then the value stored. |
| Matching.EntryPick | Aether_Audio_Archivist_Pro.py:385-403 | The automatic match gets as far as the download exactly when the entry has an `id` key and a non-null `url`. It then downloads that url under the id, or under `None` for a null id. Otherwise the worker raises. |
| Matching.ReadOptionId | Aether_Audio_Archivist_Pro.py:533-542 | Every generated button id `opt-k` reads back as option k. |
| Matching.ApplyChoice | Aether_Audio_Archivist_Pro.py:543-548 | Option 0 clears the url and nothing else. Option k from 1 to the number shown sets url and id from result k−1. Any other k changes nothing. |
| Matching.ChoosingEndsWait | Aether_Audio_Archivist_Pro.py:368-372 | Picking a shown result that has a non-empty url ends the wait, and the worker downloads exactly that url under the result's id. Where the automatic match would have worked on that entry it is the same pick. On an entry without an `id` key the manual pick works where the automatic match raises. |
| Matching.ChoosingNoUrl | Aether_Audio_Archivist_Pro.py:545-548 | Picking a shown result whose url is missing or null stores no url, so the wait goes on. |
| Matching.SkipKeepsWaiting | Aether_Audio_Archivist_Pro.py:543-544 | Skipping clears the url but leaves the status awaiting a decision, so the wait does not end. |
| Matching.OutOfRangeNoEffect | Aether_Audio_Archivist_Pro.py:545-548 | An option number outside the shown range leaves the track unchanged. |
| Report.Lookup | Aether_Audio_Archivist_Pro.py:493-494 | `get` returns the value stored under the key, or the default when the key is absent. |
| Report.StoreLookupSame | Aether_Audio_Archivist_Pro.py:424-425 | After `track_sizes[index] = size` the index reads as that size. |
| Report.StoreLookupOther | Aether_Audio_Archivist_Pro.py:424-425 | Storing one index leaves every other index's size alone. |
| Report.StoreKeys | Aether_Audio_Archivist_Pro.py:424-425 | Storing an existing index keeps the key order. A new index goes to the end, which is completion order. |
| Report.StoreDistinct | Aether_Audio_Archivist_Pro.py:424-425 | The dictionary never holds an index twice. |
| Report.AverageTime | Aether_Audio_Archivist_Pro.py:467 | The average times `max(complete, 1)` gives the total time back, so there is no division by zero and a mission with nothing archived averages to the total. |
| Report.LargestSize | Aether_Audio_Archivist_Pro.py:468 | The result is the largest recorded size, one of the recorded sizes, or 0 when none is recorded. |
| Report.FirstWithSize | Aether_Audio_Archivist_Pro.py:470-474 | The scan with `break` stops at the first recorded pair that holds the size. |
| Report.LargestSongSpec | Aether_Audio_Archivist_Pro.py:468-474 | There is a largest song exactly when some size is positive. It is the title of the first recorded track of the largest size. |
| Report.RowsUpTo | Aether_Audio_Archivist_Pro.py:487-496 | There is one row per track in index order, with title, artist and status copied and a missing time or size reading as 0. |
| Report.SaveReport | Aether_Audio_Archivist_Pro.py:499-504 | The history gains exactly one entry, the report, at the end, and the earlier entries are unchanged. |
| Report.ExampleReport | tests/test_mission_report.py:44-77 | 600 s over three archived tracks of five averages 200 s. The largest file, 7 MB, is "Track 2", and there are five rows. |
| Report.ExampleNothingArchived | tests/test_mission_report.py:79-94 | With nothing archived, 100 s averages to 100 s. |
| Harvest.KeyNonEmpty | Aether_Audio_Archivist_Pro.py:217-218 | The `track_id` test never fails, because '_' is not whitespace. |
| Harvest.FallbackDuration | Aether_Audio_Archivist_Pro.py:222-231 | The duration without a cell is "0:00" or one of the row's texts, stripped. |
| Harvest.FallbackShaped | Aether_Audio_Archivist_Pro.py:226-231 | The fallback duration always has the duration shape, so the parser reads it as a value from 0 to 99:99:99. |
| Harvest.VisitSpec | Aether_Audio_Archivist_Pro.py:217-241 | A row with an unseen key is marked seen and, unless its duration read raises, appends one track at the next index. A row with a seen key changes nothing. |
| Harvest.VisitInv | Aether_Audio_Archivist_Pro.py:217-241 | Every track's key stays seen and no two tracks share a key. |
| Harvest.HarvestInv | Aether_Audio_Archivist_Pro.py:206-243 | Over all passes the tracks carry distinct seen keys, and the track list and the seen set only grow. |
| Harvest.VisitNoneLost | Aether_Audio_Archivist_Pro.py:218-241 | While no duration read raises, every seen key is a track's. |
| Harvest.HarvestNoneLost | Aether_Audio_Archivist_Pro.py:206-243 | A harvest in which no duration read raises leaves no key seen without its track. |
| Harvest.LostForever | Aether_Audio_Archivist_Pro.py:218-243 | A row whose duration read raises is seen but never becomes a track, on that pass or any later one. |
| Harvest.HarvestCovers | Aether_Audio_Archivist_Pro.py:206-219 | After the harvest every row's key has been seen. |
| Harvest.HarvestSeen | Aether_Audio_Archivist_Pro.py:217-218 | Rows whose keys were all seen add nothing. |
| Harvest.HarvestAgain | Aether_Audio_Archivist_Pro.py:206-243 | Scrolling back over rows already read adds no duplicates, so a second pass over the same rows changes nothing. |
| Launch.StartArchivist | Aether_Audio_Archivist_Pro.py:86-102 | The form is refused exactly when the url is empty. An opened screen carries url, library and engine unchanged. |
| Launch.ThreadsPassThrough | Aether_Audio_Archivist_Pro.py:97-124 | Any integer of at most 4300 digits typed in `int`'s spelling reaches the archivist unchanged when it is not negative. A negative one makes `asyncio.Semaphore` raise, so no screen opens. |
| Launch.ThreadsTooLong | Aether_Audio_Archivist_Pro.py:97-100 | A count of more than 4300 digits, signed or not, is refused by `int`, so the screen opens with 36 workers. |
| Launch.ThreadsPadded | Aether_Audio_Archivist_Pro.py:98 | Spaces and a newline around the count are accepted. |
| Launch.ExampleEmptyUrl | tests/test_launchpad_validation.py:83-104 | An empty url is refused. |
| Launch.ExampleBadThreads | tests/test_launchpad_validation.py:106-134 | "not_a_number" opens the screen with 36 workers. |
| Launch.ExampleGoodThreads | tests/test_launchpad_validation.py:136-164 | "42" opens the screen with 42 workers and the other settings as typed. |
| Launch.ExampleNegativeThreads | Aether_Audio_Archivist_Pro.py:124 | "-1" raises instead of opening the screen. |
| Ingest.AllQueued | Aether_Audio_Archivist_Pro.py:254-260 | When the harvest ends every track becomes QUEUED, and nothing else about it changes. |
| Ingest.Toggle | Aether_Audio_Archivist_Pro.py:277-286 | Space flips the flag of the row under the cursor and changes nothing else about that row. Every other track and the rest of the screen are unchanged, and a cursor outside the list changes nothing. |
| Ingest.ToggleTwice | Aether_Audio_Archivist_Pro.py:283 | Toggling the same row twice restores the state. |
| Ingest.SelectAll | Aether_Audio_Archivist_Pro.py:288-304 | 'a' and 'n' set every flag to true or false and change nothing else. |
| Ingest.Selected | Aether_Audio_Archivist_Pro.py:311 | The selection is the flagged indices, all of them, in ascending order. |
| Ingest.StartIngest | Aether_Audio_Archivist_Pro.py:306-320 | During the harvest, or with nothing selected, nothing changes. Otherwise the counters become {total = selected, 0, 0, 0}, pending becomes the number selected, and one worker per selected index is added. Nothing else changes: the tracks, the screens, the history and the recorded times and sizes carry over. |
| Ingest.MatchedKeys | Aether_Audio_Archivist_Pro.py:385-436 | An automatic match downloads the entry's url under its id when the `id` key is there and the url is given. A missing `id` or `url` key (KeyError) or a null url (TypeError from the subprocess call) counts the track as FAILED and the worker as done. |
| Ingest.ReportCarriesMetrics | Aether_Audio_Archivist_Pro.py:437-443 | The report the last worker saves has one row per track carrying the time and size recorded for it so far, whichever mission recorded them, and its largest size bounds every recorded size. |
| Ingest.MetricsPersist | Aether_Audio_Archivist_Pro.py:421-425 | No run of steps forgets a recorded time or size, so a track archived in an earlier mission and not again shows its old metrics in every later report. |
| Ingest.StartWorkers | Aether_Audio_Archivist_Pro.py:319-320 | An accepted start launches exactly one worker for each selected track, in ascending order, and none for any other. |
| Ingest.Finally | Aether_Audio_Archivist_Pro.py:437-443 | `finally` counts pending down once and removes exactly worker p, keeping the tracks, counters, times and sizes. It appends the mission's report and pushes the statistics screen exactly when that worker was the last. |
| Ingest.ConcludeSpec | Aether_Audio_Archivist_Pro.py:326-443 | A worker that ends sets one terminal status on its own track, increments exactly the matching counter and counts pending down once. |
| Ingest.InitInv | Aether_Audio_Archivist_Pro.py:115-131 | The screen as constructed satisfies the accounting invariant. |
| Ingest.SearchInv | Aether_Audio_Archivist_Pro.py:332-382 | The search, choice and routing keep the accounting invariant on every route. |
| Ingest.PollInv | Aether_Audio_Archivist_Pro.py:368-377 | The waiting loop keeps the accounting invariant. |
| Ingest.FinishInv | Aether_Audio_Archivist_Pro.py:421-443 | The download's end keeps the invariant, including when the completion log raises after the track was counted complete and `failed` is counted as well. |
| Ingest.StepInv | Aether_Audio_Archivist_Pro.py:306-443 | Every step keeps the invariant: complete + no match + failed + pending = total (plus the tracks counted twice), pending equals the live workers, live workers belong to distinct tracks, and every finished mission has produced a report. |
| Ingest.StepReports | Aether_Audio_Archivist_Pro.py:437-443 | A step saves at most one report. It saves one exactly when it counts the last worker down, and the history only grows. |
| Ingest.RunReports | Aether_Audio_Archivist_Pro.py:437-443 | Over any interleaving of worker steps, every mission that ended produced exactly one report, and the history grows only by those reports. |
| Ingest.StepBounded | Aether_Audio_Archivist_Pro.py:324 | Every step keeps at most `threads` workers past the semaphore. |
| Ingest.RunBounded | Aether_Audio_Archivist_Pro.py:124 | Over any interleaving, no more than `threads` workers run at once. |
| Ingest.ZeroThreadsStall | Aether_Audio_Archivist_Pro.py:124 | With a thread count of 0 no worker passes the semaphore, pending stays positive and no report is ever saved. |
| Ingest.AnswerWrites | Aether_Audio_Archivist_Pro.py:539-549 | A press writes the choice into the resolution keys of the top screen's track and pops that screen. It looks at no worker and changes no other track. |
| Ingest.StaleUrlReused | Aether_Audio_Archivist_Pro.py:362-372 | A url left on the track by an earlier mission ends the new wait at once. The worker downloads the old pick while the new screen stays up. |
| Ingest.SkipStalls | Aether_Audio_Archivist_Pro.py:368-369 | Skipping on the last screen of a waiting worker's track leaves that worker polling forever. |
| Ingest.StuckForever | Aether_Audio_Archivist_Pro.py:368-369 | Once a worker is stuck no orderly step frees it. Pending stays positive, and the mission never saves its report. |
| Ingest.RestartUndercounts | Aether_Audio_Archivist_Pro.py:316-317 | A start while workers still run resets pending below the number of live workers. |

## Left out

- PyText.ParseInt: only the ASCII subset of `int()` is modelled: C whitespace, an optional sign, ASCII digits with single underscores, and the 4300-digit limit. Unicode digits and Unicode whitespace are not modelled. The pattern's `\d` and `\s` are likewise ASCII-only.
- PyText.Strip: `str.strip` and `\s` are modelled on ASCII whitespace only. Unicode whitespace such as U+00A0 or U+2003 is not stripped by the model.
- PyText.ShowInt: `str(n)` raises beyond 4300 digits; the model spells every integer, and the lemmas about it require at most 4300 digits.
- DurationText.Lower: IGNORECASE is modelled for ASCII letters only. Python's Unicode case folds are not, so 'ı' (U+0131) matching 'i' and 'ſ' (U+017F) matching 's' are not covered.
- Duration.FormatMinSec: covers whole, non-negative durations only. The screen label applies `int(duration // 60)` to possibly fractional or missing values. The label is modelled only as the parser's round-trip partner.
- Report.BuildReport: the timestamp, the md5 playlist id and `round(…, 2)` are left out. Times are kept as exact reals.
- History file access is left out: the history is an in-memory sequence. A corrupt or unreadable `mission_history.json` raises inside `finally` (line 442); that case is not modelled.
- The statistics screen's rendering, and the table and log updates the workers post, are left out because they are display only.
- A button id "opt-x" whose number `int` refuses makes the handler raise (`Matching.ReadPress` gives `Raises`). What Textual does with that exception is not modelled.
- A result whose title is null raises while the resolution screen is composed (line 530); a missing title shows 'Unknown'. Screen composition is display code and is not modelled.
- Playwright scraping, scrolling and the stability loop are left out. A failed scrape is not modelled, and the harvest rule sees each row as the texts read from it.
- Ingest.Search: delivering the `ResolveFailed` message is merged into the search step, so the screen is on the stack when the worker starts waiting. The 0.5 s and 0.2 s sleeps only space out the polls.
- Ingest.Next: the selection keys and the start are admitted while a resolution screen is on top. In the program that screen has the focus, so those keys do not reach the archivist; the model admits more interleavings than the program has.
- Ingest.Begin: any spawned worker may take a free slot. asyncio's FIFO wake-up order is not modelled, so the interleavings the model admits are a superset of the program's.
- Ingest.StepInv: the invariant is proved for starts made once the previous mission has ended. A start while workers run is covered only by `Ingest.RestartUndercounts`, which shows the accounting breaks.
- `mission_start` is taken when the screen is created, and the clock is a parameter (`totalTime`) of each step that may end a mission.
- The library directory's `mkdir`, the download and tagging subprocesses (yt_dlp, ffmpeg) and the temporary files are left out. Their effect is an `Outcome` parameter: archived with elapsed time and optional size, completion log raised, or crashed.
- Filename.Sanitise: `str.isalnum` is a parameter, because Unicode's alphanumeric classes are not modelled. Lemmas that need a fact about it require it.
- Matching.RunQueries: a query that raises is an outcome parameter. The yt_dlp search subprocess and JSON decoding are not modelled.
- The dependency bootstrap, the maintenance and patch scripts, and the benchmarks are not part of this model.

=== FILE: duration.dfy ===
/** `Archivist.parse_duration` and the duration-shape pattern
    `^\d{1,2}:\d{2}(:\d{2})?$` used to pick a duration cell while harvesting.

    `parse_duration` splits its argument on ':' and, for two or three fields,
    converts each with `int`; a field `int` refuses, or a `None` argument
    (whose missing `split` raises), is caught by the bare `except` and gives 0,
    and every other field count gives 0. The sign `int` accepts is kept, so
    "-1:00" gives -60. */
module Duration {
  import opened Wrappers
  import opened PyText

  const MaxShapedSeconds: int := 99 * 3600 + 99 * 60 + 99

  /** `parse_duration(d_str)`; `None` is Python's None. */
  function ParseDuration(d: Option<string>): int {
    match d
    case None => 0
    case Some(s) => FieldsValue(Split(s, ':'))
  }

  /** The arithmetic on the ':'-separated fields: minutes and seconds, or
      hours, minutes and seconds, 0 when a field is not an integer (the
      `ValueError` the bare `except` absorbs), 0 for any other field count. */
  function FieldsValue(parts: seq<string>): int {
    Combine(Ints(parts))
  }

  /** `int` applied to each field. */
  function Ints(parts: seq<string>): seq<Option<int>> {
    seq(|parts|, i requires 0 <= i < |parts| => ParseInt(parts[i]))
  }

  /** The weighted sum of two or three converted fields. */
  function Combine(v: seq<Option<int>>): int {
    if |v| == 2 then
      if v[0].Some? && v[1].Some? then v[0].value * 60 + v[1].value else 0
    else if |v| == 3 then
      if v[0].Some? && v[1].Some? && v[2].Some? then v[0].value * 3600 + v[1].value * 60 + v[2].value else 0
    else 0
  }

  /** Two fields give minutes * 60 + seconds when both are integers and 0
      when either is not. */
  lemma {:induction false} ParseTwoFields(a: string, b: string)
    requires ':' !in a && ':' !in b
    ensures ParseInt(a).Some? && ParseInt(b).Some? ==>
              ParseDuration(Some(a + ":" + b)) == ParseInt(a).value * 60 + ParseInt(b).value
    ensures ParseInt(a).None? || ParseInt(b).None? ==> ParseDuration(Some(a + ":" + b)) == 0
  {
    SplitTwo(a, b, ':');
    TwoFieldsValue(a, b);
  }

  lemma {:induction false} TwoFieldsValue(a: string, b: string)
    requires Split(a + ":" + b, ':') == [a, b]
    ensures ParseInt(a).Some? && ParseInt(b).Some? ==>
              ParseDuration(Some(a + ":" + b)) == ParseInt(a).value * 60 + ParseInt(b).value
    ensures ParseInt(a).None? || ParseInt(b).None? ==> ParseDuration(Some(a + ":" + b)) == 0
  {
    var parts := [a, b];
    var v := Ints(parts);
    assert ParseDuration(Some(a + ":" + b)) == Combine(v);
    assert |v| == 2 && v[0] == ParseInt(a) && v[1] == ParseInt(b);
  }

  /** Three fields give hours * 3600 + minutes * 60 + seconds when all are
      integers and 0 when any is not. */
  lemma {:induction false} ParseThreeFields(a: string, b: string, c: string)
    requires ':' !in a && ':' !in b && ':' !in c
    ensures ParseInt(a).Some? && ParseInt(b).Some? && ParseInt(c).Some? ==>
              ParseDuration(Some(a + ":" + b + ":" + c))
                == ParseInt(a).value * 3600 + ParseInt(b).value * 60 + ParseInt(c).value
    ensures ParseInt(a).None? || ParseInt(b).None? || ParseInt(c).None? ==>
              ParseDuration(Some(a + ":" + b + ":" + c)) == 0
  {
    SplitThree(a, b, c, ':');
    ThreeFieldsValue(a, b, c);
  }

  lemma {:induction false} ThreeFieldsValue(a: string, b: string, c: string)
    requires Split(a + ":" + b + ":" + c, ':') == [a, b, c]
    ensures ParseInt(a).Some? && ParseInt(b).Some? && ParseInt(c).Some? ==>
              ParseDuration(Some(a + ":" + b + ":" + c))
                == ParseInt(a).value * 3600 + ParseInt(b).value * 60 + ParseInt(c).value
    ensures ParseInt(a).None? || ParseInt(b).None? || ParseInt(c).None? ==>
              ParseDuration(Some(a + ":" + b + ":" + c)) == 0
  {
    var parts := [a, b, c];
    var v := Ints(parts);
    assert ParseDuration(Some(a + ":" + b + ":" + c)) == Combine(v);
    assert |v| == 3 && v[0] == ParseInt(a) && v[1] == ParseInt(b) && v[2] == ParseInt(c);
  }

  /** Any number of colons other than one or two, a bare "45" included,
      gives 0. */
  lemma {:induction false} ParseOtherFieldCount(s: string)
    requires Count(s, ':') != 1 && Count(s, ':') != 2
    ensures ParseDuration(Some(s)) == 0
  {
    SplitCount(s, ':');
  }

  /** Unsigned digit fields give a non-negative result. */
  lemma {:induction false} ParseUnsignedMinutes(m: string, sec: string)
    requires m != [] && AllDigits(m) && sec != [] && AllDigits(sec)
    requires |m| <= MaxStrDigits && |sec| <= MaxStrDigits
    ensures ParseDuration(Some(m + ":" + sec)) == DigitsValue(m) * 60 + DigitsValue(sec) >= 0
  {
    ParseDigits(m);
    ParseDigits(sec);
    NoColonInDigits(m);
    NoColonInDigits(sec);
    ParseTwoFields(m, sec);
  }

  /** A leading '-' on the minutes is accepted by `int`, so the minutes
      value enters negated: -m * 60 + s, which is negative whenever
      m * 60 > s ("-0:30" gives 30). */
  lemma {:induction false} ParseNegatedMinutes(m: string, sec: string)
    requires m != [] && AllDigits(m) && sec != [] && AllDigits(sec)
    requires |m| <= MaxStrDigits && |sec| <= MaxStrDigits
    ensures ParseDuration(Some("-" + m + ":" + sec)) == -(DigitsValue(m) as int) * 60 + DigitsValue(sec)
  {
    ParseDigits(sec);
    ParseNegative(m, DigitsValue(m));
    NoColonInDigits(m);
    NoColonInDigits(sec);
    ParseTwoFields("-" + m, sec);
  }

  /** A field of more than 4300 digits makes `int` raise, and the duration
      falls back to 0 whatever the other field holds. */
  lemma {:induction false} ParseTooLongMinutes(m: string, sec: string)
    requires AllDigits(m) && |m| > MaxStrDigits && ':' !in sec
    ensures ParseDuration(Some(m + ":" + sec)) == 0
  {
    ParseTooLong(m);
    NoColonInDigits(m);
    ParseTwoFields(m, sec);
  }

  lemma NoColonInDigits(s: string)
    requires AllDigits(s)
    ensures ':' !in s
  {
    forall i | 0 <= i < |s| ensures s[i] != ':' {
      assert IsDigit(s[i]);
    }
  }

  // ---------------------------------------------------------------------------
  // Examples stated by the copies of the parser and their unit tests
  // ---------------------------------------------------------------------------

  lemma ExampleMinutes()
    ensures ParseDuration(Some("3:45")) == 225
  {
    var s := "3:45";
    MinutesShape(s);
  }

  lemma ExampleMinutes2()
    ensures ParseDuration(Some("3:43")) == 223
  {
    var s := "3:43";
    MinutesShape(s);
  }

  /** `M:SS` with one minutes digit and two seconds digits. */
  lemma {:induction false} MinutesShape(s: string)
    requires |s| == 4 && s[1] == ':' && IsDigit(s[0]) && IsDigit(s[2]) && IsDigit(s[3])
    ensures ParseDuration(Some(s)) == DigitValue(s[0]) * 60 + DigitValue(s[2]) * 10 + DigitValue(s[3])
  {
    var m, sec := s[..1], s[2..];
    assert s == m + ":" + sec;
    MinutesExample(m, sec);
  }

  lemma {:induction false} MinutesExample(m: string, sec: string)
    requires |m| == 1 && AllDigits(m) && |sec| == 2 && AllDigits(sec)
    ensures ParseDuration(Some(m + ":" + sec)) == DigitValue(m[0]) * 60 + DigitValue(sec[0]) * 10 + DigitValue(sec[1])
  {
    ParseUnsignedMinutes(m, sec);
    TwoDigits(sec);
    OneDigit(m);
  }

  lemma {:induction false} OneDigit(s: string)
    requires |s| == 1 && AllDigits(s)
    ensures DigitsValue(s) == DigitValue(s[0])
  {
    assert IsDigit(s[0]);
    assert s[..0] == [];
  }

  lemma {:induction false} TwoDigits(s: string)
    requires |s| == 2 && AllDigits(s)
    ensures DigitsValue(s) == DigitValue(s[0]) * 10 + DigitValue(s[1])
  {
    assert IsDigit(s[1]);
    OneDigit(s[..1]);
  }

  lemma ExampleHours()
    ensures ParseDuration(Some("1:02:30")) == 3750
  {
    var s := "1:02:30";
    HoursShape(s);
  }

  lemma ExampleHours2()
    ensures ParseDuration(Some("1:03:43")) == 3823
  {
    var s := "1:03:43";
    HoursShape(s);
  }

  /** `H:MM:SS` with one hours digit and two digits in each other field. */
  lemma {:induction false} HoursShape(s: string)
    requires |s| == 7 && s[1] == ':' && s[4] == ':'
    requires IsDigit(s[0]) && IsDigit(s[2]) && IsDigit(s[3]) && IsDigit(s[5]) && IsDigit(s[6])
    ensures ParseDuration(Some(s))
              == DigitValue(s[0]) * 3600 + (DigitValue(s[2]) * 10 + DigitValue(s[3])) * 60
                 + DigitValue(s[5]) * 10 + DigitValue(s[6])
  {
    var h, m, sec := s[..1], s[2..4], s[5..];
    assert s == h + ":" + m + ":" + sec;
    HoursExample(s, h, m, sec);
  }

  lemma {:induction false} HoursExample(s: string, h: string, m: string, sec: string)
    requires |h| == 1 && AllDigits(h) && |m| == 2 && AllDigits(m) && |sec| == 2 && AllDigits(sec)
    requires s == h + ":" + m + ":" + sec
    ensures ParseDuration(Some(s))
              == DigitValue(h[0]) * 3600 + (DigitValue(m[0]) * 10 + DigitValue(m[1])) * 60
                 + DigitValue(sec[0]) * 10 + DigitValue(sec[1])
  {
    ParseDigits(h);
    ParseDigits(m);
    ParseDigits(sec);
    NoColonInDigits(h);
    NoColonInDigits(m);
    NoColonInDigits(sec);
    ParseThreeFields(h, m, sec);
    OneDigit(h);
    TwoDigits(m);
    TwoDigits(sec);
  }

  /** The sign `int` accepts makes a negative duration. */
  lemma ExampleNegative()
    ensures ParseDuration(Some("-1:00")) == -60
  {
    var s := "-1:00";
    NegativeShape(s);
  }

  /** A negated minutes field does not make the result negative when the
      seconds outweigh it. */
  lemma ExampleNegatedZero()
    ensures ParseDuration(Some("-0:30")) == 30
  {
    var s := "-0:30";
    NegativeShape(s);
  }

  /** `-M:SS`: a signed minutes field. */
  lemma {:induction false} NegativeShape(s: string)
    requires |s| == 5 && s[0] == '-' && s[2] == ':' && IsDigit(s[1]) && IsDigit(s[3]) && IsDigit(s[4])
    ensures ParseDuration(Some(s)) == -(DigitValue(s[1]) as int) * 60 + DigitValue(s[3]) * 10 + DigitValue(s[4])
  {
    var m, sec := s[1..2], s[3..];
    assert s == "-" + m + ":" + sec;
    NegativeExample(m, sec);
  }

  lemma {:induction false} NegativeExample(m: string, sec: string)
    requires |m| == 1 && AllDigits(m) && |sec| == 2 && AllDigits(sec)
    ensures ParseDuration(Some("-" + m + ":" + sec))
              == -(DigitValue(m[0]) as int) * 60 + DigitValue(sec[0]) * 10 + DigitValue(sec[1])
  {
    ParseNegatedMinutes(m, sec);
    OneDigit(m);
    TwoDigits(sec);
  }

  lemma ExampleNotANumber()
    ensures ParseDuration(Some("3:xx")) == 0
  {
    var s := "3:xx";
    NotANumberShape(s);
  }

  /** `M:xx`: a seconds field that is not a number. */
  lemma {:induction false} NotANumberShape(s: string)
    requires |s| == 4 && s[1] == ':' && IsDigit(s[0]) && s[2] == 'x' && s[3] == 'x'
    ensures ParseDuration(Some(s)) == 0
  {
    var m, sec := s[..1], s[2..];
    assert s == m + ":" + sec;
    assert IsDigit(m[0]);
    NoColonInDigits(m);
    NotANumberExample(m, sec);
  }

  lemma {:induction false} NotANumberExample(m: string, sec: string)
    requires ':' !in m && ':' !in sec && sec != [] && !IsDigit(sec[0]) && Trimmed(CBlanks, sec)
    requires sec[0] != '+' && sec[0] != '-'
    ensures ParseDuration(Some(m + ":" + sec)) == 0
  {
    StripTrimmed(CBlanks, sec);
    assert ParseInt(sec).None?;
    ParseTwoFields(m, sec);
  }

  lemma ExampleNoColon()
    ensures ParseDuration(Some("invalid")) == 0
    ensures ParseDuration(Some("")) == 0
    ensures ParseDuration(Some("45")) == 0
    ensures ParseDuration(None) == 0
  {
    ParseOtherFieldCount("invalid");
    ParseOtherFieldCount("");
    ParseOtherFieldCount("45");
  }

  // ---------------------------------------------------------------------------
  // The M:SS rendering of a candidate's duration, and its round trip
  // ---------------------------------------------------------------------------

  /** `f"{n:02d}"` for 0 <= n < 100. */
  function Pad2(n: nat): (s: string)
    requires n < 100
    ensures |s| == 2 && AllDigits(s) && DigitsValue(s) == n
  {
    ShowNatValue(n);
    if n < 10 then
      var s := "0" + ShowNat(n);
      DigitsValueLeadingZero(ShowNat(n));
      s
    else ShowNat(n)
  }

  /** The label the resolution screen shows for a candidate of `d` seconds,
      `f"{d // 60}:{d % 60:02d}"`. */
  function FormatMinSec(d: nat): string {
    ShowNat(d / 60) + ":" + Pad2(d % 60)
  }

  /** Reading the label back with the parser gives the duration again. */
  lemma {:induction false} ParseFormatMinSec(d: nat)
    requires |ShowNat(d / 60)| <= MaxStrDigits
    ensures ParseDuration(Some(FormatMinSec(d))) == d
  {
    ShowNatValue(d / 60);
    ParseUnsignedMinutes(ShowNat(d / 60), Pad2(d % 60));
  }

  // ---------------------------------------------------------------------------
  // The shape pattern ^\d{1,2}:\d{2}(:\d{2})?$
  // ---------------------------------------------------------------------------

  /** Python's `$`: the end of the text, or just before a final newline. */
  predicate AtEnd(s: string, q: nat) {
    q == |s| || (q + 1 == |s| && s[q] == '\n')
  }

  predicate DigitAt(s: string, i: nat) {
    i < |s| && IsDigit(s[i])
  }

  /** How many leading digits `\d{1,2}` takes: as many as there are, up to
      two. */
  function LeadWidth(s: string): (n: nat)
    ensures n <= 2 && (forall i :: 0 <= i < n ==> DigitAt(s, i)) && !(n < 2 && DigitAt(s, n))
  {
    if DigitAt(s, 0) && DigitAt(s, 1) then 2 else if DigitAt(s, 0) then 1 else 0
  }

  /** The pattern as a left-to-right recogniser: one or two leading digits
      (greedy; giving one back never helps, as the next character would be a
      digit and not ':'), ':' and two digits, then either the end, or ':' and
      two more digits and the end. */
  predicate ShapeMatch(s: string) {
    var n := LeadWidth(s);
    && n > 0
    && n < |s| && s[n] == ':' && DigitAt(s, n + 1) && DigitAt(s, n + 2)
    && (AtEnd(s, n + 3)
        || (n + 3 < |s| && s[n + 3] == ':' && DigitAt(s, n + 4) && DigitAt(s, n + 5) && AtEnd(s, n + 6)))
  }

  /** The text the pattern has to match in full: `s` without one final
      newline. */
  function Body(s: string): string {
    if s != [] && s[|s| - 1] == '\n' then s[..|s| - 1] else s
  }

  /** The shape as fields: two or three ':'-separated all-digit fields, the
      first one or two digits long, the others exactly two. */
  predicate DurationFields(t: string) {
    var parts := Split(t, ':');
    && (|parts| == 2 || |parts| == 3)
    && 1 <= |parts[0]| <= 2 && AllDigits(parts[0])
    && forall i :: 1 <= i < |parts| ==> |parts[i]| == 2 && AllDigits(parts[i])
  }

  /** The recogniser accepts exactly the strings whose body is two or three
      digit fields of the pattern's widths. */
  lemma {:induction false} ShapeMatchIffFields(s: string)
    ensures ShapeMatch(s) <==> DurationFields(Body(s))
  {
    if ShapeMatch(s) {
      ShapeMatchFields(s);
    }
    if DurationFields(Body(s)) {
      FieldsShapeMatch(s);
    }
  }

  lemma {:induction false} ShapeMatchFields(s: string)
    requires ShapeMatch(s)
    ensures DurationFields(Body(s))
  {
    var n := LeadWidth(s);
    DigitSlice(s, 0, n);
    DigitSlice(s, n + 1, n + 3);
    var a, b := s[..n], s[n + 1..n + 3];
    if AtEnd(s, n + 3) {
      BodyAtEnd(s, n + 3);
      var u := s[..n + 3];
      ColonAt(u, n);
      assert u[..n] == a && u[n + 1..] == b;
      TwoFieldsShape(a, b);
    } else {
      DigitSlice(s, n + 4, n + 6);
      var c := s[n + 4..n + 6];
      BodyAtEnd(s, n + 6);
      var u := s[..n + 6];
      ColonAt(u, n);
      var v := u[n + 1..];
      ColonAt(v, 2);
      assert u[..n] == a && v[..2] == b && v[3..] == c;
      assert u == a + [':'] + (b + [':'] + c);
      ThreeFieldsShape(a, b, c);
    }
  }

  /** Two digit fields of the pattern's widths, joined by ':'. */
  lemma {:induction false} TwoFieldsShape(a: string, b: string)
    requires 1 <= |a| <= 2 && AllDigits(a) && ':' !in a
    requires |b| == 2 && AllDigits(b) && ':' !in b
    ensures DurationFields(a + [':'] + b)
  {
    SplitTwo(a, b, ':');
  }

  /** Three digit fields of the pattern's widths, joined by ':'. */
  lemma {:induction false} ThreeFieldsShape(a: string, b: string, c: string)
    requires 1 <= |a| <= 2 && AllDigits(a) && ':' !in a
    requires |b| == 2 && AllDigits(b) && ':' !in b
    requires |c| == 2 && AllDigits(c) && ':' !in c
    ensures DurationFields(a + [':'] + (b + [':'] + c))
  {
    assert a + [':'] + (b + [':'] + c) == a + [':'] + b + [':'] + c;
    SplitThree(a, b, c, ':');
  }

  /** A text cut at one of its ':' characters. */
  lemma {:induction false} ColonAt(x: string, n: nat)
    requires n < |x| && x[n] == ':'
    ensures x == x[..n] + [':'] + x[n + 1..]
  {
  }

  /** A stretch of digits is all digits and free of ':'. */
  lemma {:induction false} DigitSlice(s: string, i: nat, j: nat)
    requires i <= j <= |s|
    requires forall k :: i <= k < j ==> DigitAt(s, k)
    ensures AllDigits(s[i..j]) && ':' !in s[i..j]
  {
    var x := s[i..j];
    forall k | 0 <= k < |x| ensures IsDigit(x[k]) {
      assert x[k] == s[i + k] && DigitAt(s, i + k);
    }
    NoColonInDigits(x);
  }

  /** Where the pattern ends at a character other than a newline, the body
      is the text up to there. */
  lemma {:induction false} BodyAtEnd(s: string, e: nat)
    requires 0 < e <= |s| && AtEnd(s, e) && s[e - 1] != '\n'
    ensures Body(s) == s[..e]
  {
  }

  lemma {:induction false} FieldsShapeMatch(s: string)
    requires DurationFields(Body(s))
    ensures ShapeMatch(s)
  {
    var t := Body(s);
    var parts := Split(t, ':');
    JoinSplit(t, ':');
    var a := parts[0];
    var b := parts[1];
    assert |b| == 2 && AllDigits(b);
    assert IsDigit(a[0]) && IsDigit(b[0]) && IsDigit(b[1]);
    assert |a| == 2 ==> IsDigit(a[1]);
    if |parts| == 2 {
      assert parts[1..] == [b];
      assert t == a + [':'] + b;
    } else {
      var c := parts[2];
      assert |c| == 2 && AllDigits(c);
      assert IsDigit(c[0]) && IsDigit(c[1]);
      assert parts[1..] == [b, c];
      assert parts[1..][1..] == [c];
      assert Join(parts[1..], ':') == b + [':'] + c;
      assert t == a + [':'] + b + [':'] + c;
    }
    assert s == t || (s == t + "\n" && s[|s| - 1] == '\n');
  }

  /** Every accepted string takes the arithmetic path of the parser: its
      result is the fields' weighted sum, never negative, and bounded by
      99:99:99 because fields are not range-checked against 60. */
  lemma {:induction false} ShapedParse(s: string)
    requires ShapeMatch(s)
    ensures 0 <= ParseDuration(Some(s)) <= MaxShapedSeconds
    ensures ParseDuration(Some(s)) == ParseDuration(Some(Body(s)))
  {
    ShapeMatchFields(s);
    BodyParse(s);
  }

  lemma {:induction false} BodyParse(s: string)
    requires DurationFields(Body(s))
    ensures 0 <= ParseDuration(Some(s)) <= MaxShapedSeconds
    ensures ParseDuration(Some(s)) == ParseDuration(Some(Body(s)))
  {
    var t := Body(s);
    FieldsParseBounded(t);
    if s != t {
      BodyNewline(s);
      LastFieldNewline(t);
    }
  }

  /** A body that differs from its string lacks exactly the final newline. */
  lemma {:induction false} BodyNewline(s: string)
    requires Body(s) != s
    ensures s == Body(s) + "\n"
  {
    assert s == s[..|s| - 1] + [s[|s| - 1]];
  }

  lemma {:induction false} FieldsParseBounded(t: string)
    requires DurationFields(t)
    ensures 0 <= ParseDuration(Some(t)) <= MaxShapedSeconds
  {
    FieldsBounded(Split(t, ':'));
  }

  /** Two or three fields of one or two digits give at most 99:99:99. */
  lemma {:induction false} FieldsBounded(parts: seq<string>)
    requires |parts| == 2 || |parts| == 3
    requires forall i :: 0 <= i < |parts| ==> 1 <= |parts[i]| <= 2 && AllDigits(parts[i])
    ensures 0 <= FieldsValue(parts) <= MaxShapedSeconds
  {
    var v := Ints(parts);
    forall i | 0 <= i < |v| ensures v[i].Some? && 0 <= v[i].value <= 99 {
      ParseDigits(parts[i]);
      DigitsBound(parts[i]);
    }
    CombineBounded(v);
  }

  lemma {:induction false} CombineBounded(v: seq<Option<int>>)
    requires |v| == 2 || |v| == 3
    requires forall i :: 0 <= i < |v| ==> v[i].Some? && 0 <= v[i].value <= 99
    ensures 0 <= Combine(v) <= MaxShapedSeconds
  {
    assert v[0].Some? && v[1].Some?;
    if |v| == 3 {
      assert v[2].Some?;
    }
  }

  /** At most two digits make at most 99. */
  lemma {:induction false} DigitsBound(s: string)
    requires |s| <= 2 && AllDigits(s)
    ensures DigitsValue(s) <= 99
  {
    if |s| == 2 {
      TwoDigits(s);
    } else if |s| == 1 {
      OneDigit(s);
    }
  }

  /** A final newline after the last field changes nothing: `int` strips it. */
  lemma {:induction false} LastFieldNewline(t: string)
    requires DurationFields(t)
    ensures ParseDuration(Some(t + "\n")) == ParseDuration(Some(t))
  {
    var parts := Split(t, ':');
    var k := |parts| - 1;
    var last := parts[k];
    SplitAppend(t, "\n", ':');
    assert last != [] && AllDigits(last);
    DigitsNewline(last);
    FieldsValueLast(parts, last + "\n");
  }

  /** `int` skips a newline after digits. */
  lemma {:induction false} DigitsNewline(x: string)
    requires x != [] && AllDigits(x)
    ensures ParseInt(x + "\n") == ParseInt(x)
  {
    DigitsTrimmed(x);
    var pre: string, post: string := [], ['\n'];
    assert pre + x + post == x + "\n";
    ParsePadded(pre, x, post);
  }

  /** Replacing the last field by one `int` reads the same way keeps the
      value. */
  lemma {:induction false} FieldsValueLast(parts: seq<string>, x: string)
    requires |parts| >= 1 && ParseInt(x) == ParseInt(parts[|parts| - 1])
    ensures FieldsValue(parts[..|parts| - 1] + [x]) == FieldsValue(parts)
  {
    var k := |parts| - 1;
    IntsSnoc(parts[..k], x);
    IntsSnoc(parts[..k], parts[k]);
    assert parts[..k] + [parts[k]] == parts;
  }

  /** Appending a field appends its conversion. */
  lemma {:induction false} IntsSnoc(p: seq<string>, x: string)
    ensures Ints(p + [x]) == Ints(p) + [ParseInt(x)]
  {
    var q := p + [x];
    var u, v := Ints(q), Ints(p) + [ParseInt(x)];
    forall i | 0 <= i < |u| ensures u[i] == v[i] {
      if i < |p| {
        assert q[i] == p[i];
      } else {
        assert q[i] == x;
      }
    }
  }

  lemma ShapeAccepts()
    ensures ShapeMatch("3:43") && ShapeMatch("03:43") && ShapeMatch("1:03:43") && ShapeMatch("12:34")
    ensures ShapeMatch("3:43\n")
  {
  }

  lemma ShapeRejects()
    ensures !ShapeMatch("3 minutes 43 seconds") && !ShapeMatch("invalid")
    ensures !ShapeMatch("123:45") && !ShapeMatch("3:4")
  {
  }

  /** Surrounding spaces defeat the anchored pattern until stripped. */
  lemma {:induction false} ShapeStripped(s: string)
    requires s == "   3:43   "
    ensures !ShapeMatch(s) && ShapeMatch(Strip(s))
  {
    var pre, t, post := s[..3], s[3..7], s[7..];
    assert s == pre + t + post;
    assert Trimmed(PyBlanks, t) && t[0] == '3';
    StripPadded(PyBlanks, pre, t, post);
  }

  /** The testing loop over sample inputs: only inputs whose stripped text
      has the shape reach the parser, which is handed the stripped text. */
  function ScreenedDurations(inputs: seq<string>): (rows: seq<(string, int)>)
    ensures |rows| <= |inputs|
  {
    if inputs == [] then []
    else
      var rest := ScreenedDurations(inputs[1..]);
      var x := inputs[0];
      if ShapeMatch(Strip(x)) then [(x, ParseDuration(Some(Strip(x))))] + rest
      else rest
  }

  /** The rows are exactly the screened inputs, and every printed duration
      lies in the pattern's range. */
  lemma {:induction false} ScreenedSpec(inputs: seq<string>)
    ensures forall r :: r in ScreenedDurations(inputs) ==> r.0 in inputs && ShapeMatch(Strip(r.0))
    ensures forall r :: r in ScreenedDurations(inputs) ==> 0 <= r.1 <= MaxShapedSeconds
    ensures forall x :: x in inputs && ShapeMatch(Strip(x)) ==> exists r :: r in ScreenedDurations(inputs) && r.0 == x
  {
    ScreenedSound(inputs);
    ScreenedComplete(inputs);
  }

  lemma {:induction false} ScreenedSound(inputs: seq<string>)
    ensures forall r :: r in ScreenedDurations(inputs) ==>
              r.0 in inputs && ShapeMatch(Strip(r.0)) && 0 <= r.1 <= MaxShapedSeconds
    decreases |inputs|
  {
    if inputs != [] {
      var tail := inputs[1..];
      ScreenedSound(tail);
      var x := inputs[0];
      var rows, rest := ScreenedDurations(inputs), ScreenedDurations(tail);
      if ShapeMatch(Strip(x)) {
        ShapedParse(Strip(x));
        var row := (x, ParseDuration(Some(Strip(x))));
        assert rows == [row] + rest;
        forall r | r in rows ensures r.0 in inputs && ShapeMatch(Strip(r.0)) && 0 <= r.1 <= MaxShapedSeconds {
          if r != row {
            assert r in rest && r.0 in tail;
          }
        }
      } else {
        assert rows == rest;
        forall r | r in rows ensures r.0 in inputs {
          assert r.0 in tail;
        }
      }
    }
  }

  lemma {:induction false} ScreenedComplete(inputs: seq<string>)
    ensures forall x :: x in inputs && ShapeMatch(Strip(x)) ==> exists r :: r in ScreenedDurations(inputs) && r.0 == x
    decreases |inputs|
  {
    if inputs != [] {
      var tail := inputs[1..];
      ScreenedComplete(tail);
      var y := inputs[0];
      var rows, rest := ScreenedDurations(inputs), ScreenedDurations(tail);
      assert forall r :: r in rest ==> r in rows;
      forall x | x in inputs && ShapeMatch(Strip(x)) ensures exists r :: r in rows && r.0 == x {
        if x == y {
          var row := (y, ParseDuration(Some(Strip(y))));
          assert rows == [row] + rest;
          assert row in rows;
        } else {
          assert x in tail;
        }
      }
    }
  }
}

=== FILE: duration_text.dfy ===
/** The extended duration parser: colon-separated fields as before, and a
    free-text fallback matching the pattern
      `(\d+)\s*(?:minutes?|mins?)\s*(\d+)?\s*(?:seconds?|secs?)?`
    case-insensitively anywhere in the text (`re.search` with IGNORECASE).

    Differences from the plain parser: the colon branch is only taken when
    the text holds a ':', and a colon text with a field count other than two
    or three falls through to the free-text search instead of giving 0. A
    field that `int` refuses still gives 0 at once, through the `except`. */
module DurationText {
  import opened Wrappers
  import opened PyText
  import Duration

  /** What IGNORECASE does to an ASCII letter. */
  function Lower(c: char): char {
    if 'A' <= c <= 'Z' then (c as int + 32) as char else c
  }

  /** The lower-case word `w` occurs at position `k` of `s`, ignoring case. */
  predicate WordAt(s: string, k: nat, w: string) {
    k + |w| <= |s| && forall j :: 0 <= j < |w| ==> Lower(s[k + j]) == w[j]
  }

  /** The end of the run of digits starting at `i` (`\d+` and `\d*` are
      greedy, and giving digits back never lets the rest match, since the
      next character would then be a digit). */
  function SkipDigits(s: string, i: nat): (j: nat)
    requires i <= |s|
    ensures i <= j <= |s|
    ensures forall m :: i <= m < j ==> IsDigit(s[m])
    ensures j == |s| || !IsDigit(s[j])
    decreases |s| - i
  {
    if i < |s| && IsDigit(s[i]) then SkipDigits(s, i + 1) else i
  }

  /** The end of the run of whitespace starting at `i` (`\s*`). */
  function SkipSpaces(s: string, i: nat): (j: nat)
    requires i <= |s|
    ensures i <= j <= |s|
    ensures forall m :: i <= m < j ==> IsSpace(s[m])
    ensures j == |s| || !IsSpace(s[j])
    decreases |s| - i
  {
    if i < |s| && IsSpace(s[i]) then SkipSpaces(s, i + 1) else i
  }

  /** An optional trailing 's' (the `s?` of the unit words). */
  function OptionalS(s: string, k: nat): (r: nat)
    requires k <= |s|
    ensures k <= r <= |s|
  {
    if k < |s| && Lower(s[k]) == 's' then k + 1 else k
  }

  /** An ASCII letter in either case. */
  predicate IsLetter(c: char) {
    'a' <= Lower(c) <= 'z'
  }

  /** `s[k..e]` spells one of the unit words "min", "mins", "minute" or
      "minutes", in any case. */
  predicate Spelled(s: string, k: nat, e: nat) {
    || (e == k + 3 && WordAt(s, k, "min"))
    || (e == k + 4 && WordAt(s, k, "mins"))
    || (e == k + 6 && WordAt(s, k, "minute"))
    || (e == k + 7 && WordAt(s, k, "minutes"))
  }

  /** A whole string that is a unit word in some case. */
  predicate UnitWord(u: string) {
    Spelled(u, 0, |u|)
  }

  /** A word followed by the character `c` is the word extended by `c`. */
  lemma {:induction false} WordExtend(s: string, k: nat, w: string, c: char)
    requires WordAt(s, k, w) && k + |w| < |s| && Lower(s[k + |w|]) == c
    ensures WordAt(s, k, w + [c])
  {
  }

  /** `(?:minutes?|mins?)` at `k`: where the unit word ends. The alternation
      tries the long spelling first, and each `s?` takes an 's' when there
      is one. */
  function UnitEnd(s: string, k: nat): (r: Option<nat>)
    requires k <= |s|
    ensures r.Some? <==> WordAt(s, k, "min")
    ensures r.Some? ==> r.value <= |s| && Spelled(s, k, r.value)
    ensures WordAt(s, k, "minute") ==> r.Some? && r.value >= k + 6
    ensures r.Some? && (r.value == k + 3 || r.value == k + 6) ==> r.value == |s| || Lower(s[r.value]) != 's'
  {
    if WordAt(s, k, "minute") then
      assert forall j :: 0 <= j < 3 ==> "min"[j] == "minute"[j];
      var e := OptionalS(s, k + 6);
      if e == k + 7 then WordExtend(s, k, "minute", 's'); Some(e) else Some(e)
    else if WordAt(s, k, "min") then
      var e := OptionalS(s, k + 3);
      if e == k + 4 then WordExtend(s, k, "min", 's'); Some(e) else Some(e)
    else None
  }

  /** A unit word spelled out to a non-letter, or to the end, is where
      the alternation stops. */
  lemma {:induction false} UnitEndAt(s: string, k: nat, e: nat)
    requires k <= e <= |s| && Spelled(s, k, e)
    requires e < |s| ==> !IsLetter(s[e])
    ensures UnitEnd(s, k) == Some(e)
  {
    if e == k + 3 || e == k + 4 {
      assert !WordAt(s, k, "minute") by {
        if k + 6 <= |s| {
          if e == k + 4 { assert Lower(s[k + 3]) == "mins"[3]; }
          assert Lower(s[k + 3]) != "minute"[3];
        }
      }
      assert WordAt(s, k, "min") by {
        if e == k + 4 { assert forall j :: 0 <= j < 3 ==> "min"[j] == "mins"[j]; }
      }
      if e == k + 4 {
        assert Lower(s[k + 3]) == "mins"[3];
      } else if k + 3 < |s| {
        assert !IsLetter(s[k + 3]);
      }
      assert OptionalS(s, k + 3) == e;
    } else {
      assert WordAt(s, k, "minute") by {
        if e == k + 7 { assert forall j :: 0 <= j < 6 ==> "minute"[j] == "minutes"[j]; }
      }
      if e == k + 7 { assert Lower(s[k + 6]) == "minutes"[6]; }
    }
  }

  /** The two groups of one match, as the text they matched: the minutes,
      and the seconds if the optional group matched. */
  datatype FreeMatch = FreeMatch(mins: string, secs: Option<string>)

  /** The pattern matches at `i`: at least one digit, optional whitespace,
      and a unit word. */
  predicate Matches(s: string, i: nat)
    requires i <= |s|
  {
    var j := SkipDigits(s, i);
    j != i && WordAt(s, SkipSpaces(s, j), "min")
  }

  /** The pattern anchored at `i`. Everything after the unit word is
      optional, so once the unit word is found the match succeeds, with the
      greedy choices. The minutes group is all of the digits at `i`; the
      seconds group, when present, is digits too. */
  function MatchAt(s: string, i: nat): (r: Option<FreeMatch>)
    requires i <= |s|
    ensures r.Some? <==> Matches(s, i)
    ensures r.Some? ==> r.value.mins != [] && AllDigits(r.value.mins) && r.value.mins <= s[i..]
    ensures r.Some? ==> i + |r.value.mins| == |s| || !IsDigit(s[i + |r.value.mins|])
    ensures r.Some? && r.value.secs.Some? ==> r.value.secs.value != [] && AllDigits(r.value.secs.value)
  {
    var j := SkipDigits(s, i);
    if j == i then None
    else
      match UnitEnd(s, SkipSpaces(s, j))
      case None => None
      case Some(u) =>
        var p := SkipSpaces(s, u);
        var q := SkipDigits(s, p);
        assert s[i..j] <= s[i..];
        Some(FreeMatch(s[i..j], if q > p then Some(s[p..q]) else None))
  }

  /** Where the anchored pattern matches, for every start position
      0..|s|. */
  function Starts(s: string): (b: seq<bool>)
    ensures |b| == |s| + 1 && forall j :: 0 <= j <= |s| ==> b[j] == Matches(s, j)
  {
    seq(|s| + 1, j requires 0 <= j <= |s| => Matches(s, j))
  }

  /** The first set flag from `i` on. */
  function FirstSet(b: seq<bool>, i: nat): (r: Option<nat>)
    requires i <= |b|
    ensures r.Some? ==> i <= r.value < |b| && b[r.value]
    decreases |b| - i
  {
    if i == |b| then None
    else if b[i] then Some(i)
    else FirstSet(b, i + 1)
  }

  /** No flag before the first set one is set, and when none is found none
      is set. */
  lemma {:induction false} FirstSetLeftmost(b: seq<bool>, i: nat)
    requires i <= |b|
    ensures FirstSet(b, i).Some? ==> forall j :: i <= j < FirstSet(b, i).value ==> !b[j]
    ensures FirstSet(b, i).None? ==> forall j :: i <= j < |b| ==> !b[j]
    decreases |b| - i
  {
    if i < |b| && !b[i] {
      FirstSetLeftmost(b, i + 1);
    }
  }

  /** The first set flag depends only on the flags from `i` on. */
  lemma {:induction false} FirstSetDetermined(b: seq<bool>, c: seq<bool>, i: nat)
    requires i <= |b| == |c|
    requires forall j :: i <= j < |b| ==> b[j] == c[j]
    ensures FirstSet(b, i) == FirstSet(c, i)
    decreases |b| - i
  {
    if i < |b| && !b[i] {
      FirstSetDetermined(b, c, i + 1);
    }
  }

  /** `re.search`: the leftmost position from `i` on where the pattern
      matches. */
  function Search(s: string, i: nat): (r: Option<nat>)
    requires i <= |s|
    ensures r.Some? ==> i <= r.value <= |s| && Matches(s, r.value)
  {
    FirstSet(Starts(s), i)
  }

  /** `re.search` finds the leftmost match: none starts before the one it
      returns, and when it returns nothing no position matches. */
  lemma {:induction false} SearchLeftmost(s: string, i: nat)
    requires i <= |s|
    ensures Search(s, i).Some? ==> forall j :: i <= j < Search(s, i).value ==> !Matches(s, j)
    ensures Search(s, i).None? ==> forall j :: i <= j <= |s| ==> !Matches(s, j)
  {
    var b := Starts(s);
    FirstSetLeftmost(b, i);
    var r := FirstSet(b, i);
    assert Search(s, i) == r;
    if r.Some? {
      forall j | i <= j < r.value ensures !Matches(s, j) {
        assert !b[j];
      }
    } else {
      forall j | i <= j <= |s| ensures !Matches(s, j) {
        assert !b[j];
      }
    }
  }

  /** The free-text branch: `int` of the minutes group times 60 plus `int`
      of the seconds group, read as 0 when absent, at the leftmost match;
      0 when nothing matches or `int` raises on a group of more than 4300
      digits. Both groups are unsigned digits, so the result is never
      negative. */
  function FreeText(s: string): (r: int)
    ensures r >= 0
  {
    match Search(s, 0)
    case None => 0
    case Some(i) =>
      var m := MatchAt(s, i).value;
      var mins := ParseInt(m.mins);
      var secs := if m.secs.Some? then ParseInt(m.secs.value) else Some(0);
      ParseDigitsRange(m.mins);
      if m.secs.Some? then ParseDigitsRange(m.secs.value); (if mins.Some? && secs.Some? then mins.value * 60 + secs.value else 0)
      else (if mins.Some? && secs.Some? then mins.value * 60 + secs.value else 0)
  }

  /** The extended `parse_duration(d_str)`; `None` makes `":" in d_str`
      raise, which gives 0. */
  function ParseDurationExt(d: Option<string>): int {
    match d
    case None => 0
    case Some(s) =>
      if ':' in s then
        var parts := Split(s, ':');
        if |parts| == 2 || |parts| == 3 then Duration.FieldsValue(parts) else FreeText(s)
      else FreeText(s)
  }

  // ---------------------------------------------------------------------------
  // Relation to the plain parser
  // ---------------------------------------------------------------------------

  /** On a colon text with two or three fields both parsers agree. */
  lemma {:induction false} ExtAgreesOnFields(s: string)
    requires Count(s, ':') == 1 || Count(s, ':') == 2
    ensures ParseDurationExt(Some(s)) == Duration.ParseDuration(Some(s))
  {
    SplitCount(s, ':');
    CountIn(s, ':');
  }

  /** A colon text with any other field count is handed to the free-text
      search, where the plain parser gives 0. */
  lemma {:induction false} ExtFallsThrough(s: string)
    requires Count(s, ':') != 1 && Count(s, ':') != 2
    ensures ParseDurationExt(Some(s)) == FreeText(s)
    ensures Duration.ParseDuration(Some(s)) == 0
  {
    SplitCount(s, ':');
    Duration.ParseOtherFieldCount(s);
  }

  lemma {:induction false} CountIn(s: string, c: char)
    ensures Count(s, c) > 0 <==> c in s
    decreases |s|
  {
    if s != [] {
      CountIn(s[1..], c);
      assert s == [s[0]] + s[1..];
    }
  }

  /** Without a colon and without "min" in any case, the result is 0. */
  lemma {:induction false} NoUnitNoDuration(s: string)
    requires ':' !in s
    requires forall k :: 0 <= k <= |s| ==> !WordAt(s, k, "min")
    ensures ParseDurationExt(Some(s)) == 0
  {
    forall i | 0 <= i <= |s| ensures !Matches(s, i) {
      var j := SkipDigits(s, i);
      if j != i {
        var k := SkipSpaces(s, j);
        assert !WordAt(s, k, "min");
      }
    }
  }

  // ---------------------------------------------------------------------------
  // Case-insensitivity
  // ---------------------------------------------------------------------------

  function LowerAll(s: string): (r: string)
    ensures |r| == |s| && forall i :: 0 <= i < |s| ==> r[i] == Lower(s[i])
  {
    seq(|s|, i requires 0 <= i < |s| => Lower(s[i]))
  }

  lemma LowerKeeps(c: char)
    ensures Lower(Lower(c)) == Lower(c)
    ensures IsDigit(Lower(c)) == IsDigit(c) && IsSpace(Lower(c)) == IsSpace(c)
    ensures IsDigit(c) ==> Lower(c) == c
  {
  }

  /** Upper- and lower-case spellings of the text read the same. */
  lemma {:induction false} FreeTextIgnoresCase(s: string)
    ensures FreeText(LowerAll(s)) == FreeText(s)
  {
    SearchLower(s, 0);
    match Search(s, 0)
    case None =>
    case Some(i) => MatchAtLower(s, i);
  }

  lemma {:induction false} SearchLower(s: string, i: nat)
    requires i <= |s|
    ensures Search(LowerAll(s), i) == Search(s, i)
  {
    var t := LowerAll(s);
    forall j | i <= j <= |s| ensures Matches(t, j) == Matches(s, j) {
      MatchAtLower(s, j);
    }
    SearchDetermined(s, t, i);
  }

  /** The leftmost search depends only on where a match starts. */
  lemma {:induction false} SearchDetermined(s: string, t: string, i: nat)
    requires i <= |s| == |t|
    requires forall j :: i <= j <= |s| ==> Matches(t, j) == Matches(s, j)
    ensures Search(t, i) == Search(s, i)
  {
    var b, c := Starts(s), Starts(t);
    forall j | i <= j < |b| ensures b[j] == c[j] {
      assert b[j] == Matches(s, j) && c[j] == Matches(t, j);
    }
    FirstSetDetermined(b, c, i);
  }

  lemma {:induction false} MatchAtLower(s: string, i: nat)
    requires i <= |s|
    ensures MatchAt(LowerAll(s), i) == MatchAt(s, i)
  {
    SkipDigitsLower(s, i);
    var j := SkipDigits(s, i);
    if j != i {
      SkipSpacesLower(s, j);
      var k := SkipSpaces(s, j);
      UnitEndLower(s, k);
      DigitsSliceLower(s, i, j);
      match UnitEnd(s, k)
      case None =>
      case Some(u) =>
        SkipSpacesLower(s, u);
        var p := SkipSpaces(s, u);
        SkipDigitsLower(s, p);
        var q := SkipDigits(s, p);
        DigitsSliceLower(s, p, q);
    }
  }

  lemma {:induction false} UnitEndLower(s: string, k: nat)
    requires k <= |s|
    ensures UnitEnd(LowerAll(s), k) == UnitEnd(s, k)
  {
    WordAtLower(s, k, "minute");
    WordAtLower(s, k, "min");
    if k + 6 < |s| { LowerKeeps(s[k + 6]); }
    if k + 3 < |s| { LowerKeeps(s[k + 3]); }
  }

  lemma {:induction false} WordAtLower(s: string, k: nat, w: string)
    requires k <= |s|
    ensures WordAt(LowerAll(s), k, w) == WordAt(s, k, w)
  {
    var t := LowerAll(s);
    if k + |w| <= |s| {
      forall m | k <= m < k + |w| ensures Lower(t[m]) == Lower(s[m]) {
        LowerKeeps(s[m]);
      }
    }
  }

  lemma {:induction false} SkipDigitsLower(s: string, i: nat)
    requires i <= |s|
    ensures SkipDigits(LowerAll(s), i) == SkipDigits(s, i)
    decreases |s| - i
  {
    if i < |s| {
      LowerKeeps(s[i]);
      SkipDigitsLower(s, i + 1);
    }
  }

  lemma {:induction false} SkipSpacesLower(s: string, i: nat)
    requires i <= |s|
    ensures SkipSpaces(LowerAll(s), i) == SkipSpaces(s, i)
    decreases |s| - i
  {
    if i < |s| {
      LowerKeeps(s[i]);
      SkipSpacesLower(s, i + 1);
    }
  }

  lemma {:induction false} DigitsSliceLower(s: string, i: nat, j: nat)
    requires i <= j <= |s|
    requires forall m :: i <= m < j ==> IsDigit(s[m])
    ensures LowerAll(s)[i..j] == s[i..j]
  {
    forall m | i <= m < j ensures LowerAll(s)[m] == s[m] {
      LowerKeeps(s[m]);
    }
  }

  // ---------------------------------------------------------------------------
  // Examples
  // ---------------------------------------------------------------------------

  // ---------------------------------------------------------------------------
  // The value of a free-text duration
  // ---------------------------------------------------------------------------

  /** Minutes in digits, whitespace, a unit word, whitespace, optional
      seconds in digits, and any colon-free rest that cannot extend a part:
      the parser gives the minutes times 60 plus the seconds, in the case
      the unit word is spelled in. */
  lemma {:induction false} ParseWords(d: string, w1: string, u: string, w2: string, e: string, rest: string)
    requires d != [] && AllDigits(d) && |d| <= MaxStrDigits
    requires forall m :: 0 <= m < |w1| ==> IsSpace(w1[m])
    requires UnitWord(u)
    requires forall m :: 0 <= m < |w2| ==> IsSpace(w2[m])
    requires AllDigits(e) && |e| <= MaxStrDigits
    requires ':' !in rest
    requires rest != [] ==> !IsDigit(rest[0])
    requires rest != [] && e == [] ==> !IsSpace(rest[0])
    requires rest != [] && e == [] && w2 == [] ==> !IsLetter(rest[0])
    ensures ParseDurationExt(Some(d + w1 + u + w2 + e + rest)) == DigitsValue(d) * 60 + DigitsValue(e)
  {
    var s := d + w1 + u + w2 + e + rest;
    var a := |d|;
    var b := a + |w1|;
    var c := b + |u|;
    var p := c + |w2|;
    var q := p + |e|;
    assert c == b + 3 || c == b + 4 || c == b + 6 || c == b + 7;
    assert forall m :: 0 <= m < a ==> s[m] == d[m];
    assert forall m :: a <= m < b ==> s[m] == w1[m - a];
    assert forall m :: b <= m < c ==> s[m] == u[m - b];
    assert forall m :: c <= m < p ==> s[m] == w2[m - c];
    assert forall m :: p <= m < q ==> s[m] == e[m - p];
    assert q < |s| ==> s[q] == rest[0];
    assert s[..a] == d;
    assert s[p..q] == e;
    SpelledShift(u, s, b);
    assert ':' !in s by {
      forall m | 0 <= m < |s| ensures s[m] != ':' {
        if b <= m < c {
          SpelledNoColon(s, b, c, m);
        } else if q <= m {
          assert s[m] == rest[m - q];
        }
      }
    }
    FreeTextAt(s, a, b, c, p, q);
  }

  /** A unit word keeps its spelling when placed at `b` of a longer text. */
  lemma {:induction false} SpelledShift(u: string, s: string, b: nat)
    requires UnitWord(u) && b + |u| <= |s|
    requires forall m :: b <= m < b + |u| ==> s[m] == u[m - b]
    ensures Spelled(s, b, b + |u|)
  {
  }

  /** A unit word holds no colon. */
  lemma {:induction false} SpelledNoColon(s: string, k: nat, e: nat, m: nat)
    requires Spelled(s, k, e) && k <= m < e
    ensures s[m] != ':'
  {
    assert Lower(s[m]) != ':' by {
      if e == k + 3 { assert Lower(s[m]) == "min"[m - k]; }
      else if e == k + 4 { assert Lower(s[m]) == "mins"[m - k]; }
      else if e == k + 6 { assert Lower(s[m]) == "minute"[m - k]; }
      else { assert Lower(s[m]) == "minutes"[m - k]; }
    }
  }

  /** The same, with the parts given by the positions where they end:
      digits to `a`, whitespace to `b`, the unit word to `c`, whitespace to
      `p`, digits to `q`. */
  lemma {:induction false} FreeTextAt(s: string, a: nat, b: nat, c: nat, p: nat, q: nat)
    requires 0 < a <= b < c <= p <= q <= |s|
    requires a <= MaxStrDigits && q - p <= MaxStrDigits
    requires ':' !in s
    requires forall m :: 0 <= m < a ==> IsDigit(s[m])
    requires forall m :: a <= m < b ==> IsSpace(s[m])
    requires Spelled(s, b, c)
    requires forall m :: c <= m < p ==> IsSpace(s[m])
    requires forall m :: p <= m < q ==> IsDigit(s[m])
    requires q < |s| ==> !IsDigit(s[q]) && (q == p ==> !IsSpace(s[q])) && (q == c ==> !IsLetter(s[q]))
    ensures ParseDurationExt(Some(s)) == DigitsValue(s[..a]) * 60 + DigitsValue(s[p..q])
  {
    assert Lower(s[b]) == 'm' by {
      if c == b + 3 { assert Lower(s[b]) == "min"[0]; }
      else if c == b + 4 { assert Lower(s[b]) == "mins"[0]; }
      else if c == b + 6 { assert Lower(s[b]) == "minute"[0]; }
      else { assert Lower(s[b]) == "minutes"[0]; }
    }
    MatchParts(s, a, b, c, p, q);
    assert Starts(s)[0];
    assert Search(s, 0) == Some(0);
    assert AllDigits(s[..a]);
    assert AllDigits(s[p..q]);
    ParseDigits(s[..a]);
    if q > p {
      ParseDigits(s[p..q]);
    }
  }

  /** The groups of the match at 0 are the digits to `a` and those from
      `p` to `q`. */
  lemma {:induction false} MatchParts(s: string, a: nat, b: nat, c: nat, p: nat, q: nat)
    requires 0 < a <= b < c <= p <= q <= |s|
    requires forall m :: 0 <= m < a ==> IsDigit(s[m])
    requires forall m :: a <= m < b ==> IsSpace(s[m])
    requires Spelled(s, b, c) && Lower(s[b]) == 'm'
    requires forall m :: c <= m < p ==> IsSpace(s[m])
    requires forall m :: p <= m < q ==> IsDigit(s[m])
    requires q < |s| ==> !IsDigit(s[q]) && (q == p ==> !IsSpace(s[q])) && (q == c ==> !IsLetter(s[q]))
    ensures MatchAt(s, 0) == Some(FreeMatch(s[..a], if q > p then Some(s[p..q]) else None))
  {
    SkipDigitsTo(s, 0, a);
    SkipSpacesTo(s, a, b);
    UnitEndAt(s, b, c);
    SkipSpacesTo(s, c, p);
    SkipDigitsTo(s, p, q);
  }

  lemma {:induction false} SkipDigitsTo(s: string, i: nat, j: nat)
    requires i <= j <= |s|
    requires forall m :: i <= m < j ==> IsDigit(s[m])
    requires j == |s| || !IsDigit(s[j])
    ensures SkipDigits(s, i) == j
    decreases j - i
  {
    if i < j {
      SkipDigitsTo(s, i + 1, j);
    }
  }

  lemma {:induction false} SkipSpacesTo(s: string, i: nat, j: nat)
    requires i <= j <= |s|
    requires forall m :: i <= m < j ==> IsSpace(s[m])
    requires j == |s| || !IsSpace(s[j])
    ensures SkipSpaces(s, i) == j
    decreases j - i
  {
    if i < j {
      SkipSpacesTo(s, i + 1, j);
    }
  }

  // ---------------------------------------------------------------------------
  // Examples
  // ---------------------------------------------------------------------------

  lemma ExampleWords()
    ensures ParseDurationExt(Some("3 minutes 43 seconds")) == 223
  {
    var s := "3 minutes 43 seconds";
    assert WordAt(s, 2, "minutes");
    WordsShape(s, 9);
  }

  lemma ExampleShortWords()
    ensures ParseDurationExt(Some("3 mins 43 secs")) == 223
  {
    var s := "3 mins 43 secs";
    assert WordAt(s, 2, "mins");
    WordsShape(s, 6);
  }

  /** "3", a space, a unit word ending at `c`, a space, "43" and a space. */
  lemma {:induction false} WordsShape(s: string, c: nat)
    requires 2 < c && c + 4 <= |s| && ':' !in s
    requires s[0] == '3' && s[1] == ' ' && Spelled(s, 2, c)
    requires s[c] == ' ' && s[c + 1] == '4' && s[c + 2] == '3' && s[c + 3] == ' '
    ensures ParseDurationExt(Some(s)) == 223
  {
    FreeTextAt(s, 1, 2, c, c + 1, c + 3);
    ThreeFortyThree(s, c + 1);
  }

  /** "3" opens the text and "43" stands at `p`. */
  lemma {:induction false} ThreeFortyThree(s: string, p: nat)
    requires 0 < p && p + 2 <= |s| && s[0] == '3' && s[p] == '4' && s[p + 1] == '3'
    ensures DigitsValue(s[..1]) * 60 + DigitsValue(s[p..p + 2]) == 223
  {
    var m, sec := s[..1], s[p..p + 2];
    assert m[0] == '3' && sec[0] == '4' && sec[1] == '3';
    Duration.OneDigit(m);
    Duration.TwoDigits(sec);
  }

  /** Seconds are optional: the second group is absent and read as 0. */
  lemma ExampleMinutesOnly()
    ensures ParseDurationExt(Some("3 min")) == 180
  {
    var s := "3 min";
    assert WordAt(s, 2, "min");
    MinutesShape(s);
  }

  /** The unit word is recognised in upper case too. */
  lemma ExampleUpperCase()
    ensures ParseDurationExt(Some("3 MIN")) == 180
  {
    var s := "3 MIN";
    assert WordAt(s, 2, "min");
    MinutesShape(s);
  }

  /** "3", a space and "min" in some case. */
  lemma {:induction false} MinutesShape(s: string)
    requires |s| == 5 && s[0] == '3' && s[1] == ' ' && WordAt(s, 2, "min")
    ensures ParseDurationExt(Some(s)) == 180
  {
    assert ':' !in s by {
      forall m | 0 <= m < 5 ensures s[m] != ':' {
        if m >= 2 { assert Lower(s[m]) == "min"[m - 2]; }
      }
    }
    FreeTextAt(s, 1, 2, 5, 5, 5);
    ThreeMinutes(s);
  }

  /** "3" opens the text and there are no seconds. */
  lemma {:induction false} ThreeMinutes(s: string)
    requires |s| == 5 && s[0] == '3'
    ensures DigitsValue(s[..1]) * 60 + DigitsValue(s[5..5]) == 180
  {
    var m := s[..1];
    assert m[0] == '3';
    Duration.OneDigit(m);
    assert s[5..5] == [];
  }

  /** A colon field count of two or three goes the plain way. */
  lemma ExampleColonFields()
    ensures ParseDurationExt(Some("1:03:43")) == 3823
  {
    var s := "1:03:43";
    assert s == "1:03" + ":" + "43";
    assert "1:03" == "1" + ":" + "03";
    SplitThree("1", "03", "43", ':');
    Duration.ExampleHours2();
  }

  /** A label with a colon sends the text down the colon branch, where
      `int` refuses the label and the result is 0, although the text names
      a duration in words. */
  lemma ExampleLabelled()
    ensures ParseDurationExt(Some("Length: 3 min")) == 0
  {
    LabelledZero("Length", " 3 min");
    assert "Length: 3 min" == "Length" + ":" + " 3 min";
  }

  lemma {:induction false} LabelledZero(tag: string, rest: string)
    requires ':' !in tag && ':' !in rest
    requires tag != [] && Trimmed(CBlanks, tag) && !IsDigit(tag[0])
    requires tag[0] != '+' && tag[0] != '-'
    ensures ParseDurationExt(Some(tag + ":" + rest)) == 0
  {
    SplitTwo(tag, rest, ':');
    StripTrimmed(CBlanks, tag);
    assert ParseInt(tag).None?;
    assert ':' in tag + ":" + rest by { assert (tag + ":" + rest)[|tag|] == ':'; }
  }
}

=== FILE: filename.dfy ===
/** The filename sanitiser of the ingestion worker: every character of
    "<artist> - <title>.mp3" that is neither alphanumeric nor one of the four
    characters space, '-', '_' and '.' becomes '_'.

    `str.isalnum` is Unicode-aware and is left abstract: it is a parameter
    `isAlnum`, and only the facts the source relies on are required of it. */
module Filename {

  /** The four punctuation characters the sanitiser keeps. */
  const Kept: string := " -_."

  /** `c.isalnum() or c in " -_."` */
  predicate Allowed(isAlnum: char -> bool, c: char) {
    isAlnum(c) || c in Kept
  }

  /** A name made of allowed characters only. */
  predicate Clean(isAlnum: char -> bool, s: string) {
    forall i :: 0 <= i < |s| ==> Allowed(isAlnum, s[i])
  }

  /** The list comprehension joined back into a string, one character at a
      time from the front. */
  function Sanitise(isAlnum: char -> bool, s: string): (r: string)
    ensures |r| == |s|
    ensures Clean(isAlnum, r)
    ensures forall i :: 0 <= i < |s| && Allowed(isAlnum, s[i]) ==> r[i] == s[i]
    ensures forall i :: 0 <= i < |s| && !Allowed(isAlnum, s[i]) ==> r[i] == '_'
    decreases |s|
  {
    if s == [] then []
    else [if Allowed(isAlnum, s[0]) then s[0] else '_'] + Sanitise(isAlnum, s[1..])
  }

  /** The name the worker writes: `f"{artist} - {title}.mp3"`, sanitised. */
  function FinalName(isAlnum: char -> bool, artist: string, title: string): (r: string)
    ensures |r| == |artist| + |title| + 7
    ensures Clean(isAlnum, r)
  {
    Sanitise(isAlnum, artist + " - " + title + ".mp3")
  }

  /** Sanitising changes a name exactly when it holds a disallowed
      character. */
  lemma {:induction false} SanitiseFixed(isAlnum: char -> bool, s: string)
    ensures Sanitise(isAlnum, s) == s <==> Clean(isAlnum, s)
  {
    var r := Sanitise(isAlnum, s);
    if Clean(isAlnum, s) {
      assert forall i :: 0 <= i < |s| ==> r[i] == s[i];
    }
  }

  /** Applying the sanitiser twice is the same as applying it once. */
  lemma {:induction false} SanitiseIdempotent(isAlnum: char -> bool, s: string)
    ensures Sanitise(isAlnum, Sanitise(isAlnum, s)) == Sanitise(isAlnum, s)
  {
    SanitiseFixed(isAlnum, Sanitise(isAlnum, s));
  }

  /** The map works character by character, so it distributes over
      concatenation. */
  lemma {:induction false} SanitiseAppend(isAlnum: char -> bool, a: string, b: string)
    ensures Sanitise(isAlnum, a + b) == Sanitise(isAlnum, a) + Sanitise(isAlnum, b)
  {
    var l := Sanitise(isAlnum, a + b);
    var r := Sanitise(isAlnum, a) + Sanitise(isAlnum, b);
    forall i | 0 <= i < |l| ensures l[i] == r[i] {
      if i < |a| {
        assert (a + b)[i] == a[i];
      } else {
        assert (a + b)[i] == b[i - |a|];
      }
    }
  }

  /** The separator and the extension survive: the final name is the
      sanitised artist, " - ", the sanitised title and ".mp3", as long as the
      letters of "mp3" count as alphanumeric (they do for `str.isalnum`). */
  lemma {:induction false} FinalNameParts(isAlnum: char -> bool, artist: string, title: string)
    requires isAlnum('m') && isAlnum('p') && isAlnum('3')
    ensures FinalName(isAlnum, artist, title)
         == Sanitise(isAlnum, artist) + " - " + Sanitise(isAlnum, title) + ".mp3"
  {
    SanitiseAppend(isAlnum, artist + " - " + title, ".mp3");
    SanitiseAppend(isAlnum, artist + " - ", title);
    SanitiseAppend(isAlnum, artist, " - ");
    SanitiseFixed(isAlnum, " - ");
    SanitiseFixed(isAlnum, ".mp3");
  }

  /** The final name still ends in ".mp3". */
  lemma {:induction false} FinalNameExtension(isAlnum: char -> bool, artist: string, title: string)
    requires isAlnum('m') && isAlnum('p') && isAlnum('3')
    ensures var r := FinalName(isAlnum, artist, title); |r| >= 4 && r[|r| - 4..] == ".mp3"
  {
    FinalNameParts(isAlnum, artist, title);
  }

  /** A slash, which would otherwise leave the library directory, never
      reaches the file system. */
  lemma {:induction false} NoSeparator(isAlnum: char -> bool, artist: string, title: string)
    requires !isAlnum('/')
    ensures '/' !in FinalName(isAlnum, artist, title)
  {
    var r := FinalName(isAlnum, artist, title);
    forall i | 0 <= i < |r| ensures r[i] != '/' {
      assert Allowed(isAlnum, r[i]);
    }
  }
}

=== FILE: harvest.dfy ===
/** The row rule of the playlist harvest: each scroll pass re-reads the rows
    in view, and a row becomes a new track only when its key has not been
    seen. Browser access is outside the model: a row is given by the texts
    the harvest reads from it.

    The key is added to the seen set before the duration is read, so a row
    whose duration read raises (the `except Exception: continue` around the
    row) is seen but never becomes a track, and no later pass retries it. */
module Harvest {
  import opened Wrappers
  import opened PyText
  import opened Tracks
  import Duration

  /** What the harvest reads from one row: the title element's text (if
      there is one), the artist links' texts, the duration cell's text (if
      there is one), and the texts of the row's elements containing ':' that
      serve as a fallback; and whether reading the duration raises. A row
      whose title or artist read raises is skipped before its key is formed,
      which is the same as the row not being in view on that pass. */
  datatype RowView = RowView(
    title: Option<string>,
    artists: seq<string>,
    durationCell: Option<string>,
    colonTexts: seq<string>,
    durationRaises: bool)

  /** `", ".join(names)` */
  function Names(names: seq<string>): string
    decreases |names|
  {
    if names == [] then []
    else if |names| == 1 then names[0]
    else names[0] + ", " + Names(names[1..])
  }

  function TitleOf(r: RowView): string {
    r.title.GetOr("Unknown")
  }

  /** The dedup key of a track: `f"{artists}_{title}".strip()`. */
  function TrackKey(artist: string, title: string): string {
    Strip(artist + "_" + title)
  }

  function Key(r: RowView): string {
    TrackKey(Names(r.artists), TitleOf(r))
  }

  /** The first fallback text that has the duration shape once stripped, or
      "0:00". */
  function FallbackDuration(texts: seq<string>): (d: string)
    ensures d == "0:00" || exists i :: 0 <= i < |texts| && d == Strip(texts[i])
    decreases |texts|
  {
    if texts == [] then "0:00"
    else if Duration.ShapeMatch(Strip(texts[0])) then Strip(texts[0])
    else
      var d := FallbackDuration(texts[1..]);
      assert forall i :: 1 <= i < |texts| ==> texts[i] == texts[1..][i - 1];
      d
  }

  function DurationOf(r: RowView): string {
    match r.durationCell
    case Some(cell) => cell
    case None => FallbackDuration(r.colonTexts)
  }

  /** The tracks so far and `processed_ids`. */
  datatype Harvested = Harvested(tracks: seq<Track>, seen: set<string>)

  const Empty := Harvested([], {})

  /** The track a new row becomes: selected and waiting for propagation. */
  function NewTrack(r: RowView): Track {
    Track(Names(r.artists), TitleOf(r), DurationOf(r), true, Propagating, Unresolved)
  }

  /** One row: `if track_id and track_id not in processed_ids`, mark the
      key as seen, then read the duration and append. */
  function Visit(h: Harvested, r: RowView): Harvested {
    var k := Key(r);
    if k != [] && k !in h.seen then
      if r.durationRaises then Harvested(h.tracks, h.seen + {k})
      else Harvested(h.tracks + [NewTrack(r)], h.seen + {k})
    else h
  }

  /** The rows of all passes, in order. */
  function HarvestRows(h: Harvested, rows: seq<RowView>): Harvested
    decreases |rows|
  {
    if rows == [] then h else HarvestRows(Visit(h, rows[0]), rows[1..])
  }

  function KeyOf(t: Track): string {
    TrackKey(t.artist, t.title)
  }

  function KeysOf(tracks: seq<Track>): (ks: seq<string>)
    ensures |ks| == |tracks| && forall i :: 0 <= i < |tracks| ==> ks[i] == KeyOf(tracks[i])
  {
    seq(|tracks|, i requires 0 <= i < |tracks| => KeyOf(tracks[i]))
  }

  /** Every track's key has been seen, and no two tracks share a key. */
  predicate Inv(h: Harvested) {
    && (forall i :: 0 <= i < |h.tracks| ==> KeysOf(h.tracks)[i] in h.seen)
    && (forall i, j :: 0 <= i < j < |h.tracks| ==> KeysOf(h.tracks)[i] != KeysOf(h.tracks)[j])
  }

  /** Every seen key is a track's: true while no duration read has raised. */
  predicate NoneLost(h: Harvested) {
    forall k :: k in h.seen ==> k in KeysOf(h.tracks)
  }

  /** The `track_id` test never fails: '_' is not whitespace. */
  lemma {:induction false} KeyNonEmpty(r: RowView)
    ensures Key(r) != []
  {
    var s := Names(r.artists) + "_" + TitleOf(r);
    assert s[|Names(r.artists)|] == '_';
    StripNonBlank(PyBlanks, s, |Names(r.artists)|);
  }

  /** A row with an unseen key is marked seen and, unless its duration read
      raises, appends one selected, waiting track at the next index; a row
      with a seen key changes nothing. */
  lemma {:induction false} VisitSpec(h: Harvested, r: RowView)
    ensures Key(r) !in h.seen ==>
      Visit(h, r).seen == h.seen + {Key(r)}
      && Visit(h, r).tracks == h.tracks + (if r.durationRaises then [] else [NewTrack(r)])
    ensures Key(r) in h.seen ==> Visit(h, r) == h
  {
    KeyNonEmpty(r);
  }

  lemma {:induction false} VisitInv(h: Harvested, r: RowView)
    requires Inv(h)
    ensures Inv(Visit(h, r))
  {
    KeyNonEmpty(r);
    var k := Key(r);
    if k !in h.seen && !r.durationRaises {
      var ts := h.tracks + [NewTrack(r)];
      var h' := Harvested(ts, h.seen + {k});
      assert Visit(h, r) == h';
      var n := |h.tracks|;
      var ks, ks' := KeysOf(h.tracks), KeysOf(ts);
      assert ks'[n] == k by {
        assert ts[n] == NewTrack(r);
      }
      forall i | 0 <= i < n ensures ks'[i] == ks[i] {
        assert ts[i] == h.tracks[i];
      }
      forall i | 0 <= i < |ks'| ensures ks'[i] in h'.seen {
        if i < n {
          assert ks[i] in h.seen;
        }
      }
      forall i, j | 0 <= i < j < |ks'| ensures ks'[i] != ks'[j] {
        if j == n {
          assert ks[i] in h.seen;
        } else {
          assert ks[i] != ks[j];
        }
      }
    } else if k !in h.seen {
      assert Visit(h, r) == Harvested(h.tracks, h.seen + {k});
    } else {
      assert Visit(h, r) == h;
    }
  }

  /** Without a raising duration read, every seen key stays a track's. */
  lemma {:induction false} VisitNoneLost(h: Harvested, r: RowView)
    requires NoneLost(h) && !r.durationRaises
    ensures NoneLost(Visit(h, r))
  {
    KeyNonEmpty(r);
    var k := Key(r);
    if k !in h.seen {
      var ts := h.tracks + [NewTrack(r)];
      var h' := Harvested(ts, h.seen + {k});
      assert Visit(h, r) == h';
      var n := |h.tracks|;
      var ks, ks' := KeysOf(h.tracks), KeysOf(ts);
      assert ks'[n] == k by {
        assert ts[n] == NewTrack(r);
      }
      forall x | x in h'.seen ensures x in ks' {
        if x != k {
          assert x in ks;
          var i :| 0 <= i < n && ks[i] == x;
          assert ts[i] == h.tracks[i];
          assert ks'[i] == x;
        }
      }
    } else {
      assert Visit(h, r) == h;
    }
  }

  /** A harvest in which no duration read raises leaves no key seen
      without its track. */
  lemma {:induction false} HarvestNoneLost(h: Harvested, rows: seq<RowView>)
    requires NoneLost(h)
    requires forall i :: 0 <= i < |rows| ==> !rows[i].durationRaises
    ensures NoneLost(HarvestRows(h, rows))
    decreases |rows|
  {
    if rows != [] {
      VisitNoneLost(h, rows[0]);
      HarvestNoneLost(Visit(h, rows[0]), rows[1..]);
    }
  }

  /** A row whose duration read raises is lost for good: its key is seen,
      so no later pass appends it, and no track carries it. */
  lemma {:induction false} LostForever(h: Harvested, r: RowView, rows: seq<RowView>)
    requires Inv(h) && Key(r) !in h.seen && r.durationRaises
    ensures Key(r) in HarvestRows(Visit(h, r), rows).seen
    ensures Key(r) !in KeysOf(HarvestRows(Visit(h, r), rows).tracks)
  {
    KeyNonEmpty(r);
    var k := Key(r);
    assert k !in KeysOf(h.tracks);
    StaysLost(Visit(h, r), k, rows);
  }

  lemma {:induction false} StaysLost(h: Harvested, k: string, rows: seq<RowView>)
    requires k in h.seen && k !in KeysOf(h.tracks)
    ensures k in HarvestRows(h, rows).seen && k !in KeysOf(HarvestRows(h, rows).tracks)
    decreases |rows|
  {
    if rows != [] {
      VisitKeeps(h, k, rows[0]);
      StaysLost(Visit(h, rows[0]), k, rows[1..]);
    }
  }

  lemma {:induction false} VisitKeeps(h: Harvested, k: string, r: RowView)
    requires k in h.seen && k !in KeysOf(h.tracks)
    ensures k in Visit(h, r).seen && k !in KeysOf(Visit(h, r).tracks)
  {
    var kr := Key(r);
    if kr != [] && kr !in h.seen && !r.durationRaises {
      var ts := h.tracks + [NewTrack(r)];
      assert Visit(h, r) == Harvested(ts, h.seen + {kr});
      var n := |h.tracks|;
      var ks, ks' := KeysOf(h.tracks), KeysOf(ts);
      assert ks'[n] == kr by {
        assert ts[n] == NewTrack(r);
      }
      forall i | 0 <= i < |ks'| ensures ks'[i] != k {
        if i < n {
          assert ts[i] == h.tracks[i];
          assert ks'[i] == ks[i];
        }
      }
    } else if kr != [] && kr !in h.seen {
      assert Visit(h, r) == Harvested(h.tracks, h.seen + {kr});
    } else {
      assert Visit(h, r) == h;
    }
  }

  /** The harvest keeps the invariant and only ever appends. */
  lemma {:induction false} HarvestInv(h: Harvested, rows: seq<RowView>)
    requires Inv(h)
    ensures Inv(HarvestRows(h, rows))
    ensures h.tracks <= HarvestRows(h, rows).tracks
    ensures h.seen <= HarvestRows(h, rows).seen
    decreases |rows|
  {
    if rows != [] {
      VisitInv(h, rows[0]);
      KeyNonEmpty(rows[0]);
      HarvestInv(Visit(h, rows[0]), rows[1..]);
    }
  }

  /** After the harvest every row's key has been seen. */
  lemma {:induction false} HarvestCovers(h: Harvested, rows: seq<RowView>)
    ensures forall i :: 0 <= i < |rows| ==> Key(rows[i]) in HarvestRows(h, rows).seen
    decreases |rows|
  {
    if rows != [] {
      var r, tail := rows[0], rows[1..];
      KeyNonEmpty(r);
      var h1 := Visit(h, r);
      assert Key(r) in h1.seen;
      HarvestCovers(h1, tail);
      SeenGrows(h1, tail);
      var last := HarvestRows(h, rows);
      assert last == HarvestRows(h1, tail);
      forall i | 0 <= i < |rows| ensures Key(rows[i]) in last.seen {
        if i > 0 {
          assert rows[i] == tail[i - 1];
        }
      }
    }
  }

  lemma {:induction false} SeenGrows(h: Harvested, rows: seq<RowView>)
    ensures h.seen <= HarvestRows(h, rows).seen
    decreases |rows|
  {
    if rows != [] {
      SeenGrows(Visit(h, rows[0]), rows[1..]);
    }
  }

  /** Rows whose keys were all seen add nothing. */
  lemma {:induction false} HarvestSeen(h: Harvested, rows: seq<RowView>)
    requires forall i :: 0 <= i < |rows| ==> Key(rows[i]) in h.seen
    ensures HarvestRows(h, rows) == h
    decreases |rows|
  {
    if rows != [] {
      HarvestSeen(h, rows[1..]);
    }
  }

  /** Scrolling back over rows already read adds no duplicates: a second
      pass over the same rows changes nothing. */
  lemma {:induction false} HarvestAgain(h: Harvested, rows: seq<RowView>)
    ensures HarvestRows(HarvestRows(h, rows), rows) == HarvestRows(h, rows)
  {
    HarvestCovers(h, rows);
    HarvestSeen(HarvestRows(h, rows), rows);
  }

  /** The fallback only ever records a text of the duration shape ("0:00"
      has it too), so a row without a duration cell gets a duration the
      parser reads as a value from 0 to 99:99:99. */
  lemma {:induction false} FallbackShaped(texts: seq<string>)
    ensures Duration.ShapeMatch(FallbackDuration(texts))
    ensures 0 <= Duration.ParseDuration(Some(FallbackDuration(texts))) <= Duration.MaxShapedSeconds
    decreases |texts|
  {
    if texts != [] && !Duration.ShapeMatch(Strip(texts[0])) {
      FallbackShaped(texts[1..]);
    }
    Duration.ShapedParse(FallbackDuration(texts));
  }
}

=== FILE: ingest.dfy ===
/** The archivist screen as a transition system on the single event loop:
    harvesting rows, the selection keys, the start of an ingestion, and the
    steps of each worker up to its terminal status and the `finally` block
    that counts it down and, for the last one, saves the report.

    Each step is one stretch of code between two `await`s, so steps are
    atomic and any interleaving of workers is a sequence of steps. A worker
    holds the semaphore from its first step to the end of its `finally`
    block, and a spawned worker starts only while fewer than `threads`
    workers hold it. The screens pushed above the archivist form a stack:
    only the top one takes key presses. Three fields are bookkeeping of the
    model, not of the program: `runs` counts accepted starts,
    `finalisations` counts saved reports, and `doubled` counts the workers
    of the current mission counted twice (see `LogRaised`). */
module Ingest {
  import opened Wrappers
  import opened Tracks
  import Duration
  import Matching
  import Report
  import Harvest

  /** The settings the launch form passed on. */
  datatype Config = Config(url: string, library: string, threads: int, engine: string)

  /** Where a worker is: scheduled but not past the semaphore, searching,
      polling for the user's decision, or downloading its pick. */
  datatype Phase =
    | Spawned
    | Searching
    | Waiting
    | Downloading(pick: Matching.Pick)

  datatype Worker = Worker(index: nat, phase: Phase)

  /** A screen above the archivist: the resolution screen for one track with
      the results it offers, or the statistics screen of a finished
      mission. */
  datatype Screen = Resolve(index: nat, shown: seq<Matching.Entry>) | Summary

  /** How the download, tagging and metrics stretch ends: archived (with the
      elapsed time, and the file size when the file exists), archived but
      the completion log raised afterwards, or an exception before the
      metrics. */
  datatype Outcome =
    | Archived(elapsed: real, size: Option<nat>)
    | LogRaised(elapsed: real, size: Option<nat>)
    | Crashed

  datatype State = State(
    config: Config,
    tracks: seq<Track>,
    seen: set<string>,
    isScraping: bool,
    stats: Stats,
    pending: int,
    times: map<nat, real>,
    sizes: Report.Sizes,
    workers: seq<Worker>,
    screens: seq<Screen>,
    history: seq<Report.MissionReport>,
    runs: nat,
    finalisations: nat,
    doubled: nat)

  /** The screen as `__init__` leaves it, with the history already on
      disk. */
  function Init(config: Config, history: seq<Report.MissionReport>): State {
    State(config, [], {}, true, ZeroStats, 0, map[], [], [], [], history, 0, 0, 0)
  }

  // ---------------------------------------------------------------------------
  // Harvest and selection
  // ---------------------------------------------------------------------------

  /** One harvested row while the harvest runs. */
  function HarvestRow(s: State, r: Harvest.RowView): State {
    if s.isScraping then
      var h := Harvest.Visit(Harvest.Harvested(s.tracks, s.seen), r);
      s.(tracks := h.tracks, seen := h.seen)
    else s
  }

  function AllQueued(tracks: seq<Track>): (r: seq<Track>)
    ensures |r| == |tracks|
    ensures forall i :: 0 <= i < |tracks| ==> r[i] == tracks[i].(status := Queued)
  {
    seq(|tracks|, i requires 0 <= i < |tracks| => tracks[i].(status := Queued))
  }

  /** The harvest is over: ingestion may start, every track is queued. */
  function FinishHarvest(s: State): State {
    if s.isScraping then s.(isScraping := false, tracks := AllQueued(s.tracks)) else s
  }

  /** Space: flip the flag of the row under the cursor, if there is one. */
  function Toggle(s: State, i: int): (s': State)
    ensures |s'.tracks| == |s.tracks|
    ensures 0 <= i < |s.tracks| ==> s'.tracks[i] == s.tracks[i].(selected := !s.tracks[i].selected)
    ensures forall j :: 0 <= j < |s.tracks| && j != i ==> s'.tracks[j] == s.tracks[j]
    ensures s'.(tracks := s.tracks) == s
  {
    if 0 <= i < |s.tracks| then
      s.(tracks := s.tracks[i := s.tracks[i].(selected := !s.tracks[i].selected)])
    else s
  }

  function SetAll(tracks: seq<Track>, flag: bool): (r: seq<Track>)
    ensures |r| == |tracks|
    ensures forall i :: 0 <= i < |tracks| ==> r[i] == tracks[i].(selected := flag)
  {
    seq(|tracks|, i requires 0 <= i < |tracks| => tracks[i].(selected := flag))
  }

  /** 'a' and 'n': select or deselect every track. */
  function SelectAll(s: State, flag: bool): (s': State)
    ensures |s'.tracks| == |s.tracks|
    ensures forall i :: 0 <= i < |s.tracks| ==> s'.tracks[i] == s.tracks[i].(selected := flag)
    ensures s'.(tracks := s.tracks) == s
  {
    s.(tracks := SetAll(s.tracks, flag))
  }

  /** Toggling the same row twice restores the state. */
  lemma {:induction false} ToggleTwice(s: State, i: int)
    ensures Toggle(Toggle(s, i), i) == s
  {
    if 0 <= i < |s.tracks| {
      assert Toggle(Toggle(s, i), i).tracks == s.tracks;
    }
  }

  /** The flagged indices in ascending order, as the list comprehension
      over `enumerate(self.tracks)` gives them. */
  function SelectedUpTo(tracks: seq<Track>, n: nat): (sel: seq<nat>)
    requires n <= |tracks|
    ensures forall j :: 0 <= j < |sel| ==> sel[j] < n && tracks[sel[j]].selected
    ensures forall i :: 0 <= i < n && tracks[i].selected ==> i in sel
    ensures forall j, k :: 0 <= j < k < |sel| ==> sel[j] < sel[k]
  {
    if n == 0 then []
    else if tracks[n - 1].selected then SelectedUpTo(tracks, n - 1) + [n - 1]
    else SelectedUpTo(tracks, n - 1)
  }

  function Selected(tracks: seq<Track>): (sel: seq<nat>)
    ensures forall j :: 0 <= j < |sel| ==> sel[j] < |tracks| && tracks[sel[j]].selected
    ensures forall i :: 0 <= i < |tracks| && tracks[i].selected ==> i in sel
    ensures forall j, k :: 0 <= j < k < |sel| ==> sel[j] < sel[k]
  {
    SelectedUpTo(tracks, |tracks|)
  }

  // ---------------------------------------------------------------------------
  // Start
  // ---------------------------------------------------------------------------

  /** The start guard: the harvest is over and something is selected. */
  predicate StartAccepted(s: State) {
    !s.isScraping && Selected(s.tracks) != []
  }

  /** One spawned worker per index, in order. */
  function Spawn(sel: seq<nat>): (ws: seq<Worker>)
    ensures |ws| == |sel|
    ensures forall j :: 0 <= j < |sel| ==> ws[j] == Worker(sel[j], Spawned)
  {
    seq(|sel|, j requires 0 <= j < |sel| => Worker(sel[j], Spawned))
  }

  /** Enter or the GO button. A refused start changes nothing. An accepted
      one resets the counters to the selection and launches one worker per
      selected index; it does not look at workers still running, and it
      keeps `track_times` and `track_sizes` from earlier missions, which
      are set only in the archivist's constructor. */
  function StartIngest(s: State): (s': State)
    ensures !StartAccepted(s) ==> s' == s
    ensures StartAccepted(s) ==>
      && s'.stats == Stats(|Selected(s.tracks)|, 0, 0, 0)
      && s'.pending == |Selected(s.tracks)|
      && s'.workers == s.workers + Spawn(Selected(s.tracks))
      && s'.runs == s.runs + 1
    ensures StartAccepted(s) ==>
      s'.(stats := s.stats, pending := s.pending, workers := s.workers, runs := s.runs, doubled := s.doubled) == s
  {
    if StartAccepted(s) then
      var sel := Selected(s.tracks);
      s.(stats := Stats(|sel|, 0, 0, 0), pending := |sel|, workers := s.workers + Spawn(sel), runs := s.runs + 1, doubled := 0)
    else s
  }

  /** An accepted start launches exactly one worker for each selected track
      and none for any other. */
  lemma {:induction false} StartWorkers(s: State)
    requires StartAccepted(s)
    ensures var spawned := StartIngest(s).workers[|s.workers|..];
      (forall i :: 0 <= i < |s.tracks| ==>
         (s.tracks[i].selected <==> exists j :: 0 <= j < |spawned| && spawned[j].index == i))
      && (forall j, k :: 0 <= j < k < |spawned| ==> spawned[j].index < spawned[k].index)
      && (forall j :: 0 <= j < |spawned| ==> spawned[j].phase == Spawned)
  {
    var spawned := StartIngest(s).workers[|s.workers|..];
    assert spawned == Spawn(Selected(s.tracks));
    SpawnCovers(s.tracks);
  }

  lemma {:induction false} SpawnCovers(tracks: seq<Track>)
    ensures var spawned := Spawn(Selected(tracks));
      (forall i :: 0 <= i < |tracks| ==>
         (tracks[i].selected <==> exists j :: 0 <= j < |spawned| && spawned[j].index == i))
      && (forall j, k :: 0 <= j < k < |spawned| ==> spawned[j].index < spawned[k].index)
      && (forall j :: 0 <= j < |spawned| ==> spawned[j].phase == Spawned)
  {
    var sel := Selected(tracks);
    var spawned := Spawn(sel);
    forall i | 0 <= i < |tracks| && tracks[i].selected
      ensures exists j :: 0 <= j < |spawned| && spawned[j].index == i
    {
      var j :| 0 <= j < |sel| && sel[j] == i;
      assert spawned[j].index == i;
    }
  }

  // ---------------------------------------------------------------------------
  // Worker steps
  // ---------------------------------------------------------------------------

  function SetStatus(tracks: seq<Track>, i: nat, st: Status): (r: seq<Track>)
    ensures |r| == |tracks|
  {
    if i < |tracks| then tracks[i := tracks[i].(status := st)] else tracks
  }

  function SetPhase(s: State, p: nat, ph: Phase): State
    requires p < |s.workers|
  {
    s.(workers := s.workers[p := s.workers[p].(phase := ph)])
  }

  /** The counter a terminal status increments. */
  function Tally(st: Stats, status: Status): (r: Stats)
    ensures r.total == st.total
    ensures r.complete + r.noMatch + r.failed == st.complete + st.noMatch + st.failed
                                                 + (if status in {Complete, NoMatch, Failed} then 1 else 0)
  {
    match status
    case Complete => st.(complete := st.complete + 1)
    case NoMatch => st.(noMatch := st.noMatch + 1)
    case Failed => st.(failed := st.failed + 1)
    case _ => st
  }

  /** Set a terminal status on the worker's track and count it. */
  function Record(s: State, p: nat, status: Status): State
    requires p < |s.workers|
  {
    s.(tracks := SetStatus(s.tracks, s.workers[p].index, status), stats := Tally(s.stats, status))
  }

  /** The `finally` block: one worker fewer, and the report and statistics
      screen when that was the last one. The decrement and the test have no
      `await` between them, so they are one step; leaving the `async with`
      block right after it releases the semaphore. */
  function Finally(s: State, p: nat, totalTime: real): (s': State)
    requires p < |s.workers|
    ensures s'.pending == s.pending - 1
    ensures s'.workers == s.workers[..p] + s.workers[p + 1..]
    ensures s'.tracks == s.tracks && s'.stats == s.stats
    ensures s'.times == s.times && s'.sizes == s.sizes
    ensures s'.screens == s.screens + (if s.pending == 1 then [Summary] else [])
    ensures s'.(workers := s.workers, pending := s.pending, history := s.history,
                finalisations := s.finalisations, screens := s.screens) == s
    ensures s'.finalisations == s.finalisations + (if s.pending == 1 then 1 else 0)
    ensures s.pending != 1 ==> s'.history == s.history
    ensures s.pending == 1 ==>
      s'.history == s.history + [Report.BuildReport(s.config.url, s.config.library, s.config.engine,
                                                    totalTime, s.stats, s.tracks, s.times, s.sizes)]
  {
    var s1 := s.(workers := s.workers[..p] + s.workers[p + 1..], pending := s.pending - 1);
    if s1.pending == 0 then
      var report := Report.BuildReport(s.config.url, s.config.library, s.config.engine, totalTime,
                                       s.stats, s.tracks, s.times, s.sizes);
      s1.(history := Report.SaveReport(s.history, report), finalisations := s.finalisations + 1,
          screens := s.screens + [Summary])
    else s1
  }

  /** A terminal status, then `finally`. */
  function Conclude(s: State, p: nat, status: Status, totalTime: real): State
    requires p < |s.workers|
  {
    Finally(Record(s, p, status), p, totalTime)
  }

  /** Whether a worker holds the semaphore. */
  function Held(w: Worker): nat {
    if w.phase.Spawned? then 0 else 1
  }

  /** How many workers hold the semaphore. */
  function Holding(ws: seq<Worker>): nat
    decreases |ws|
  {
    if ws == [] then 0 else Held(ws[0]) + Holding(ws[1..])
  }

  /** A spawned worker acquires the semaphore, if a slot is free, and its
      track shows "ARCHIVING". */
  function Begin(s: State, p: nat): State {
    if p < |s.workers| && s.workers[p].phase.Spawned? && Holding(s.workers) < s.config.threads then
      SetPhase(s, p, Searching).(tracks := SetStatus(s.tracks, s.workers[p].index, Archiving))
    else s
  }

  /** Whether the outcomes are those of the four queries. */
  predicate FourQueries(outcomes: seq<Option<seq<Matching.Entry>>>) {
    |outcomes| == |Matching.Suffixes|
  }

  /** The query loop, the closest-duration choice and the routing, with the
      four queries' outcomes given. Routing to the user sets the status and
      pushes the resolution screen; a null duration among the results makes
      the scan raise, and the `except` block counts the track as failed. */
  function Search(s: State, p: nat, outcomes: seq<Option<seq<Matching.Entry>>>, totalTime: real): State {
    if p < |s.workers| && s.workers[p].phase.Searching? && s.workers[p].index < |s.tracks| && FourQueries(outcomes) then
      Routed(s, p, Matching.RouteOf(Matching.FirstHit(outcomes), Target(s.tracks[s.workers[p].index])), totalTime)
    else s
  }

  /** The seconds the candidates are compared against: the track's own
      duration text, parsed. */
  function Target(t: Track): int {
    Duration.ParseDuration(Some(t.duration))
  }

  /** What the worker does with the route its search chose. */
  function Routed(s: State, p: nat, route: Matching.Route, totalTime: real): (s': State)
    requires p < |s.workers| && s.workers[p].index < |s.tracks|
    ensures s'.times == s.times && s'.sizes == s.sizes
  {
    var i := s.workers[p].index;
    match route
    case Matched(e) =>
      var pick := Matching.EntryPick(e);
      if pick.Some? then SetPhase(s, p, Downloading(pick.value)) else Conclude(s, p, Failed, totalTime)
    case AwaitDecision(shown) =>
      SetPhase(s, p, Waiting).(tracks := SetStatus(s.tracks, i, Awaiting), screens := s.screens + [Resolve(i, shown)])
    case Unmatched => Conclude(s, p, NoMatch, totalTime)
    case Raised => Conclude(s, p, Failed, totalTime)
  }

  /** The user presses option `k` on the resolution screen on top: the
      handler writes the resolution keys of the screen's track, whatever its
      worker is doing or whether it still has one, and pops the screen. */
  function Answer(s: State, k: int): State {
    if s.screens != [] && s.screens[|s.screens| - 1].Resolve? && s.screens[|s.screens| - 1].index < |s.tracks| then
      var top := s.screens[|s.screens| - 1];
      var t := s.tracks[top.index];
      s.(tracks := s.tracks[top.index := t.(resolution := Matching.ApplyChoice(t.resolution, top.shown, k))],
         screens := s.screens[..|s.screens| - 1])
    else s
  }

  /** The button of the statistics screen on top pops it. */
  function CloseSummary(s: State): State {
    if s.screens != [] && s.screens[|s.screens| - 1].Summary? then s.(screens := s.screens[..|s.screens| - 1]) else s
  }

  /** One test of the waiting loop. While the track still awaits a decision
      and has no url, nothing happens. */
  function Poll(s: State, p: nat, totalTime: real): State {
    if p < |s.workers| && s.workers[p].phase.Waiting? && s.workers[p].index < |s.tracks|
       && Matching.WaitOver(s.tracks[s.workers[p].index]) then
      match Matching.Decided(s.tracks[s.workers[p].index].resolution)
      case Some(pick) => SetPhase(s, p, Downloading(pick))
      case None => Conclude(s, p, NoMatch, totalTime)
    else s
  }

  /** Record the metrics of an archived track. */
  function Metrics(s: State, i: nat, elapsed: real, size: Option<nat>): State {
    var s1 := s.(times := s.times[i := elapsed]);
    match size
    case Some(n) => s1.(sizes := Report.Store(s.sizes, i, n))
    case None => s1
  }

  /** The end of the download stretch. When the completion log raises after
      the track was counted as complete, the `except` block counts it as
      failed as well. */
  function Finish(s: State, p: nat, outcome: Outcome, totalTime: real): State {
    if p < |s.workers| && s.workers[p].phase.Downloading? then
      var i := s.workers[p].index;
      match outcome
      case Archived(elapsed, size) => Conclude(Metrics(s, i, elapsed, size), p, Complete, totalTime)
      case LogRaised(elapsed, size) =>
        var s1 := Record(Metrics(s, i, elapsed, size), p, Complete);
        Conclude(s1.(doubled := s1.doubled + 1), p, Failed, totalTime)
      case Crashed => Conclude(s, p, Failed, totalTime)
    else s
  }

  // ---------------------------------------------------------------------------
  // Steps and traces
  // ---------------------------------------------------------------------------

  datatype Step =
    | HarvestStep(row: Harvest.RowView)
    | FinishHarvestStep
    | ToggleStep(i: int)
    | SelectAllStep
    | SelectNoneStep
    | StartStep
    | BeginStep(p: nat)
    | SearchStep(p: nat, outcomes: seq<Option<seq<Matching.Entry>>>, totalTime: real)
    | AnswerStep(k: int)
    | CloseSummaryStep
    | PollStep(p: nat, totalTime: real)
    | FinishStep(p: nat, outcome: Outcome, totalTime: real)

  function Next(s: State, step: Step): State {
    match step
    case HarvestStep(r) => HarvestRow(s, r)
    case FinishHarvestStep => FinishHarvest(s)
    case ToggleStep(i) => Toggle(s, i)
    case SelectAllStep => SelectAll(s, true)
    case SelectNoneStep => SelectAll(s, false)
    case StartStep => StartIngest(s)
    case BeginStep(p) => Begin(s, p)
    case SearchStep(p, outcomes, t) => Search(s, p, outcomes, t)
    case AnswerStep(k) => Answer(s, k)
    case CloseSummaryStep => CloseSummary(s)
    case PollStep(p, t) => Poll(s, p, t)
    case FinishStep(p, outcome, t) => Finish(s, p, outcome, t)
  }

  function Run(s: State, steps: seq<Step>): State
    decreases |steps|
  {
    if steps == [] then s else Run(Next(s, steps[0]), steps[1..])
  }

  /** The program does not stop a start while workers run; the accounting
      below holds for starts made once the previous mission is over. */
  predicate Orderly(s: State, step: Step) {
    step.StartStep? && StartAccepted(s) ==> s.workers == []
  }

  predicate DistinctWorkers(ws: seq<Worker>) {
    forall a, b :: 0 <= a < b < |ws| ==> ws[a].index != ws[b].index
  }

  /** The accounting invariant:
      - `pending_tasks` is the number of live workers;
      - every selected track is complete, unmatched, failed or pending
        (with the workers counted twice added to the total);
      - every accepted start but the running one has produced exactly one
        report;
      - live workers belong to distinct tracks, none during the harvest;
      - recorded sizes belong to tracks. */
  predicate Inv(s: State) {
    && s.pending == |s.workers|
    && s.stats.complete + s.stats.noMatch + s.stats.failed + s.pending == s.stats.total + s.doubled
    && s.finalisations + (if s.pending > 0 then 1 else 0) == s.runs
    && DistinctWorkers(s.workers)
    && IndicesBelow(s.workers, |s.tracks|)
    && (s.isScraping ==> s.workers == [])
    && Report.KeysIndex(s.sizes, |s.tracks|)
  }

  lemma InitInv(config: Config, history: seq<Report.MissionReport>)
    ensures Inv(Init(config, history))
  {
  }

  predicate IndicesBelow(ws: seq<Worker>, n: nat) {
    forall a :: 0 <= a < |ws| ==> ws[a].index < n
  }

  lemma {:induction false} RemoveDistinct(ws: seq<Worker>, p: nat, n: nat)
    requires p < |ws| && DistinctWorkers(ws) && IndicesBelow(ws, n)
    ensures DistinctWorkers(ws[..p] + ws[p + 1..])
    ensures IndicesBelow(ws[..p] + ws[p + 1..], n)
  {
    var r := ws[..p] + ws[p + 1..];
    forall a | 0 <= a < |r| ensures r[a] == ws[if a < p then a else a + 1] {
    }
  }

  /** `finally` keeps the invariant once the terminal counter is in. */
  lemma {:induction false} FinallyInv(s: State, p: nat, totalTime: real)
    requires p < |s.workers|
    requires s.pending == |s.workers|
    requires s.stats.complete + s.stats.noMatch + s.stats.failed + s.pending - 1 == s.stats.total + s.doubled
    requires s.finalisations + 1 == s.runs
    requires DistinctWorkers(s.workers)
    requires IndicesBelow(s.workers, |s.tracks|)
    requires !s.isScraping
    requires Report.KeysIndex(s.sizes, |s.tracks|)
    ensures Inv(Finally(s, p, totalTime))
  {
    RemoveDistinct(s.workers, p, |s.tracks|);
  }

  lemma {:induction false} MetricsKeys(s: State, i: nat, elapsed: real, size: Option<nat>)
    requires i < |s.tracks| && Report.KeysIndex(s.sizes, |s.tracks|)
    ensures Report.KeysIndex(Metrics(s, i, elapsed, size).sizes, |s.tracks|)
    ensures Metrics(s, i, elapsed, size).(times := s.times, sizes := s.sizes) == s
  {
    if size.Some? {
      StoreWithin(s.sizes, i, size.value, |s.tracks|);
    }
  }

  lemma {:induction false} StoreWithin(d: Report.Sizes, k: nat, v: nat, count: nat)
    requires k < count && Report.KeysIndex(d, count)
    ensures Report.KeysIndex(Report.Store(d, k, v), count)
    decreases |d|
  {
    if d != [] && d[0].0 != k {
      StoreWithin(d[1..], k, v, count);
    }
  }

  /** A step that keeps the workers' tracks, the counters and the sizes,
      and does not shrink the track list, keeps the invariant. */
  lemma {:induction false} FrameInv(s: State, s': State)
    requires Inv(s)
    requires |s'.workers| == |s.workers|
    requires forall a :: 0 <= a < |s.workers| ==> s'.workers[a].index == s.workers[a].index
    requires |s.tracks| <= |s'.tracks|
    requires s'.pending == s.pending && s'.stats == s.stats && s'.doubled == s.doubled
    requires s'.finalisations == s.finalisations && s'.runs == s.runs && s'.sizes == s.sizes
    requires s'.isScraping ==> s'.workers == []
    ensures Inv(s')
  {
    assert DistinctWorkers(s'.workers) by {
      forall a, b | 0 <= a < b < |s'.workers| ensures s'.workers[a].index != s'.workers[b].index {
        assert s.workers[a].index != s.workers[b].index;
      }
    }
    assert IndicesBelow(s'.workers, |s'.tracks|) by {
      forall a | 0 <= a < |s'.workers| ensures s'.workers[a].index < |s'.tracks| {
        assert s.workers[a].index < |s.tracks|;
      }
    }
    assert Report.KeysIndex(s'.sizes, |s'.tracks|) by {
      forall j | 0 <= j < |s'.sizes| ensures s'.sizes[j].0 < |s'.tracks| {
        assert s.sizes[j].0 < |s.tracks|;
      }
    }
  }

  /** Every step keeps the invariant, provided a start waits for the
      previous mission to end. */
  lemma {:induction false} StepInv(s: State, step: Step)
    requires Inv(s) && Orderly(s, step)
    ensures Inv(Next(s, step))
  {
    match step
    case HarvestStep(r) => HarvestRowInv(s, r);
    case FinishHarvestStep => FrameInv(s, FinishHarvest(s));
    case ToggleStep(i) => FrameInv(s, Toggle(s, i));
    case SelectAllStep => FrameInv(s, SelectAll(s, true));
    case SelectNoneStep => FrameInv(s, SelectAll(s, false));
    case StartStep => StartInv(s);
    case BeginStep(p) => FrameInv(s, Begin(s, p));
    case SearchStep(p, outcomes, t) => SearchInv(s, p, outcomes, t);
    case AnswerStep(k) => FrameInv(s, Answer(s, k));
    case CloseSummaryStep => FrameInv(s, CloseSummary(s));
    case PollStep(p, t) => PollInv(s, p, t);
    case FinishStep(p, outcome, t) => FinishInv(s, p, outcome, t);
  }

  lemma {:induction false} HarvestRowInv(s: State, r: Harvest.RowView)
    requires Inv(s)
    ensures Inv(HarvestRow(s, r))
  {
    if s.isScraping {
      Harvest.VisitSpec(Harvest.Harvested(s.tracks, s.seen), r);
    }
    FrameInv(s, HarvestRow(s, r));
  }

  lemma {:induction false} StartInv(s: State)
    requires Inv(s) && Orderly(s, StartStep)
    ensures Inv(StartIngest(s))
  {
    if StartAccepted(s) {
      var sel := Selected(s.tracks);
      assert StartIngest(s).workers == Spawn(sel);
      assert DistinctWorkers(Spawn(sel)) by {
        forall a, b | 0 <= a < b < |sel| ensures Spawn(sel)[a].index != Spawn(sel)[b].index {
          assert sel[a] < sel[b];
        }
      }
    }
  }

  lemma {:induction false} SearchInv(s: State, p: nat, outcomes: seq<Option<seq<Matching.Entry>>>, totalTime: real)
    requires Inv(s)
    ensures Inv(Search(s, p, outcomes, totalTime))
  {
    if p < |s.workers| && s.workers[p].phase.Searching? && s.workers[p].index < |s.tracks| && FourQueries(outcomes) {
      var route := Matching.RouteOf(Matching.FirstHit(outcomes), Target(s.tracks[s.workers[p].index]));
      assert Search(s, p, outcomes, totalTime) == Routed(s, p, route, totalTime);
      RoutedInv(s, p, route, totalTime);
    }
  }

  lemma {:induction false} RoutedInv(s: State, p: nat, route: Matching.Route, totalTime: real)
    requires Inv(s) && p < |s.workers| && s.workers[p].index < |s.tracks|
    ensures Inv(Routed(s, p, route, totalTime))
  {
    var i := s.workers[p].index;
    match route
    case Matched(e) =>
      var pick := Matching.EntryPick(e);
      if pick.Some? {
        FrameInv(s, SetPhase(s, p, Downloading(pick.value)));
      } else {
        FinallyInv(Record(s, p, Failed), p, totalTime);
      }
    case AwaitDecision(shown) =>
      FrameInv(s, SetPhase(s, p, Waiting).(tracks := SetStatus(s.tracks, i, Awaiting),
                                            screens := s.screens + [Resolve(i, shown)]));
    case Unmatched => FinallyInv(Record(s, p, NoMatch), p, totalTime);
    case Raised => FinallyInv(Record(s, p, Failed), p, totalTime);
  }

  lemma {:induction false} PollInv(s: State, p: nat, totalTime: real)
    requires Inv(s)
    ensures Inv(Poll(s, p, totalTime))
  {
    if p < |s.workers| && s.workers[p].phase.Waiting? && s.workers[p].index < |s.tracks|
       && Matching.WaitOver(s.tracks[s.workers[p].index]) {
      match Matching.Decided(s.tracks[s.workers[p].index].resolution)
      case Some(pick) => FrameInv(s, Poll(s, p, totalTime));
      case None => FinallyInv(Record(s, p, NoMatch), p, totalTime);
    }
  }

  lemma {:induction false} FinishInv(s: State, p: nat, outcome: Outcome, totalTime: real)
    requires Inv(s)
    ensures Inv(Finish(s, p, outcome, totalTime))
  {
    if p < |s.workers| && s.workers[p].phase.Downloading? {
      var i := s.workers[p].index;
      match outcome
      case Archived(elapsed, size) =>
        MetricsKeys(s, i, elapsed, size);
        FinallyInv(Record(Metrics(s, i, elapsed, size), p, Complete), p, totalTime);
      case LogRaised(elapsed, size) =>
        MetricsKeys(s, i, elapsed, size);
        var s1 := Record(Metrics(s, i, elapsed, size), p, Complete);
        FinallyInv(Record(s1.(doubled := s1.doubled + 1), p, Failed), p, totalTime);
      case Crashed =>
        FinallyInv(Record(s, p, Failed), p, totalTime);
    }
  }

  /** From `s` to `s'` the history grows by the reports saved, and a report
      is saved exactly when the last live worker goes away, then exactly
      one. */
  predicate ReportsOnce(s: State, s': State) {
    && s.history <= s'.history
    && |s'.history| - |s.history| == s'.finalisations - s.finalisations
    && (s'.finalisations == s.finalisations + 1 <==> s.pending > 0 && s'.pending == 0)
    && (s'.finalisations == s.finalisations || s'.finalisations == s.finalisations + 1)
  }

  /** Every step saves at most one report, exactly when it counts the last
      worker down. */
  lemma {:induction false} StepReports(s: State, step: Step)
    ensures ReportsOnce(s, Next(s, step))
  {
    match step
    case HarvestStep(r) =>
    case FinishHarvestStep =>
    case ToggleStep(i) =>
    case SelectAllStep =>
    case SelectNoneStep =>
    case StartStep =>
    case BeginStep(p) =>
    case SearchStep(p, outcomes, t) => SearchReports(s, p, outcomes, t);
    case AnswerStep(k) =>
    case CloseSummaryStep =>
    case PollStep(p, t) => PollReports(s, p, t);
    case FinishStep(p, outcome, t) => FinishReports(s, p, outcome, t);
  }

  /** `finally`, after bookkeeping that left the history, the reports and
      `pending` alone. */
  lemma {:induction false} ConcludeReports(s: State, s1: State, p: nat, status: Status, totalTime: real)
    requires p < |s1.workers|
    requires s1.history == s.history && s1.finalisations == s.finalisations && s1.pending == s.pending
    ensures ReportsOnce(s, Conclude(s1, p, status, totalTime))
  {
  }

  lemma {:induction false} SearchReports(s: State, p: nat, outcomes: seq<Option<seq<Matching.Entry>>>, totalTime: real)
    ensures ReportsOnce(s, Search(s, p, outcomes, totalTime))
  {
    if p < |s.workers| && s.workers[p].phase.Searching? && s.workers[p].index < |s.tracks| && FourQueries(outcomes) {
      var route := Matching.RouteOf(Matching.FirstHit(outcomes), Target(s.tracks[s.workers[p].index]));
      assert Search(s, p, outcomes, totalTime) == Routed(s, p, route, totalTime);
      RoutedReports(s, p, route, totalTime);
    }
  }

  lemma {:induction false} RoutedReports(s: State, p: nat, route: Matching.Route, totalTime: real)
    requires p < |s.workers| && s.workers[p].index < |s.tracks|
    ensures ReportsOnce(s, Routed(s, p, route, totalTime))
  {
    match route
    case Matched(e) =>
      if Matching.EntryPick(e).None? {
        ConcludeReports(s, s, p, Failed, totalTime);
      }
    case AwaitDecision(shown) =>
    case Unmatched => ConcludeReports(s, s, p, NoMatch, totalTime);
    case Raised => ConcludeReports(s, s, p, Failed, totalTime);
  }

  lemma {:induction false} PollReports(s: State, p: nat, totalTime: real)
    ensures ReportsOnce(s, Poll(s, p, totalTime))
  {
    if p < |s.workers| && s.workers[p].phase.Waiting? && s.workers[p].index < |s.tracks|
       && Matching.WaitOver(s.tracks[s.workers[p].index])
       && Matching.Decided(s.tracks[s.workers[p].index].resolution).None? {
      ConcludeReports(s, s, p, NoMatch, totalTime);
    }
  }

  lemma {:induction false} FinishReports(s: State, p: nat, outcome: Outcome, totalTime: real)
    ensures ReportsOnce(s, Finish(s, p, outcome, totalTime))
  {
    if p < |s.workers| && s.workers[p].phase.Downloading? {
      var i := s.workers[p].index;
      match outcome
      case Archived(elapsed, size) =>
        ConcludeReports(s, Metrics(s, i, elapsed, size), p, Complete, totalTime);
      case LogRaised(elapsed, size) =>
        var s1 := Record(Metrics(s, i, elapsed, size), p, Complete);
        ConcludeReports(s, s1.(doubled := s1.doubled + 1), p, Failed, totalTime);
      case Crashed =>
        ConcludeReports(s, s, p, Failed, totalTime);
    }
  }

  predicate OrderlyRun(s: State, steps: seq<Step>)
    decreases |steps|
  {
    steps == [] || (Orderly(s, steps[0]) && OrderlyRun(Next(s, steps[0]), steps[1..]))
  }

  /** Over any interleaving, every mission that has ended produced exactly
      one report, and the history only grows by those reports. */
  lemma {:induction false} RunReports(s: State, steps: seq<Step>)
    requires Inv(s) && OrderlyRun(s, steps)
    ensures var s' := Run(s, steps);
      && Inv(s')
      && s.history <= s'.history
      && |s'.history| == |s.history| + (s'.finalisations - s.finalisations)
      && s'.finalisations + (if s'.pending > 0 then 1 else 0) == s'.runs
    decreases |steps|
  {
    if steps != [] {
      StepInv(s, steps[0]);
      StepReports(s, steps[0]);
      RunReports(Next(s, steps[0]), steps[1..]);
    }
  }

  // ---------------------------------------------------------------------------
  // The semaphore
  // ---------------------------------------------------------------------------

  lemma {:induction false} HoldingConcat(a: seq<Worker>, b: seq<Worker>)
    ensures Holding(a + b) == Holding(a) + Holding(b)
    decreases |a|
  {
    if a != [] {
      assert (a + b)[1..] == a[1..] + b;
      HoldingConcat(a[1..], b);
    } else {
      assert a + b == b;
    }
  }

  lemma {:induction false} HoldingSplit(ws: seq<Worker>, p: nat)
    requires p < |ws|
    ensures Holding(ws) == Holding(ws[..p]) + Held(ws[p]) + Holding(ws[p + 1..])
  {
    var r := [ws[p]] + ws[p + 1..];
    assert ws == ws[..p] + r;
    HoldingConcat(ws[..p], r);
    assert r[1..] == ws[p + 1..];
  }

  /** Changing one worker's phase changes the count by that worker alone. */
  lemma {:induction false} HoldingSet(ws: seq<Worker>, p: nat, w: Worker)
    requires p < |ws|
    ensures Holding(ws[p := w]) == Holding(ws) - Held(ws[p]) + Held(w)
  {
    HoldingSplit(ws, p);
    HoldingSplit(ws[p := w], p);
    assert ws[p := w][..p] == ws[..p] && ws[p := w][p + 1..] == ws[p + 1..];
  }

  /** Removing a worker releases its slot, if it held one. */
  lemma {:induction false} HoldingRemove(ws: seq<Worker>, p: nat)
    requires p < |ws|
    ensures Holding(ws[..p] + ws[p + 1..]) == Holding(ws) - Held(ws[p])
  {
    HoldingSplit(ws, p);
    HoldingConcat(ws[..p], ws[p + 1..]);
  }

  lemma {:induction false} HoldingSpawn(sel: seq<nat>)
    ensures Holding(Spawn(sel)) == 0
    decreases |sel|
  {
    if sel != [] {
      assert Spawn(sel)[1..] == Spawn(sel[1..]);
      HoldingSpawn(sel[1..]);
    }
  }

  /** The semaphore's promise: at most `threads` workers are past it, and
      none when `threads` is not positive. */
  predicate Bounded(s: State) {
    Holding(s.workers) == 0 || Holding(s.workers) <= s.config.threads
  }

  /** A worker's `finally`, after bookkeeping that left the workers and the
      settings alone, keeps the bound. */
  lemma {:induction false} ConcludeBounded(s: State, s1: State, p: nat, status: Status, totalTime: real)
    requires Bounded(s) && p < |s.workers|
    requires s1.workers == s.workers && s1.config == s.config
    ensures Bounded(Conclude(s1, p, status, totalTime)) && Conclude(s1, p, status, totalTime).config == s.config
  {
    var s' := Conclude(s1, p, status, totalTime);
    assert s'.workers == s.workers[..p] + s.workers[p + 1..];
    HoldingRemove(s.workers, p);
  }

  /** Every step keeps the bound: a worker starts only into a free slot,
      and a phase change after the start keeps its slot. */
  lemma {:induction false} StepBounded(s: State, step: Step)
    requires Bounded(s)
    ensures Bounded(Next(s, step)) && Next(s, step).config == s.config
  {
    match step
    case HarvestStep(r) =>
    case FinishHarvestStep =>
    case ToggleStep(i) =>
    case SelectAllStep =>
    case SelectNoneStep =>
    case StartStep =>
      if StartAccepted(s) {
        HoldingConcat(s.workers, Spawn(Selected(s.tracks)));
        HoldingSpawn(Selected(s.tracks));
      }
    case BeginStep(p) =>
      if p < |s.workers| && s.workers[p].phase.Spawned? && Holding(s.workers) < s.config.threads {
        HoldingSet(s.workers, p, s.workers[p].(phase := Searching));
      }
    case SearchStep(p, outcomes, t) => SearchBounded(s, p, outcomes, t);
    case AnswerStep(k) =>
    case CloseSummaryStep =>
    case PollStep(p, t) => PollBounded(s, p, t);
    case FinishStep(p, outcome, t) => FinishBounded(s, p, outcome, t);
  }

  lemma {:induction false} SearchBounded(s: State, p: nat, outcomes: seq<Option<seq<Matching.Entry>>>, totalTime: real)
    requires Bounded(s)
    ensures Bounded(Search(s, p, outcomes, totalTime)) && Search(s, p, outcomes, totalTime).config == s.config
  {
    if p < |s.workers| && s.workers[p].phase.Searching? && s.workers[p].index < |s.tracks| && FourQueries(outcomes) {
      var route := Matching.RouteOf(Matching.FirstHit(outcomes), Target(s.tracks[s.workers[p].index]));
      assert Search(s, p, outcomes, totalTime) == Routed(s, p, route, totalTime);
      RoutedBounded(s, p, route, totalTime);
    }
  }

  /** A searching worker holds a slot, and whatever the route it keeps it
      or gives it back. */
  lemma {:induction false} RoutedBounded(s: State, p: nat, route: Matching.Route, totalTime: real)
    requires Bounded(s) && p < |s.workers| && s.workers[p].index < |s.tracks| && s.workers[p].phase.Searching?
    ensures Bounded(Routed(s, p, route, totalTime)) && Routed(s, p, route, totalTime).config == s.config
  {
    match route
    case Matched(e) =>
      var pick := Matching.EntryPick(e);
      if pick.Some? {
        HoldingSet(s.workers, p, s.workers[p].(phase := Downloading(pick.value)));
      } else {
        ConcludeBounded(s, s, p, Failed, totalTime);
      }
    case AwaitDecision(shown) => HoldingSet(s.workers, p, s.workers[p].(phase := Waiting));
    case Unmatched => ConcludeBounded(s, s, p, NoMatch, totalTime);
    case Raised => ConcludeBounded(s, s, p, Failed, totalTime);
  }

  lemma {:induction false} PollBounded(s: State, p: nat, totalTime: real)
    requires Bounded(s)
    ensures Bounded(Poll(s, p, totalTime)) && Poll(s, p, totalTime).config == s.config
  {
    if p < |s.workers| && s.workers[p].phase.Waiting? && s.workers[p].index < |s.tracks|
       && Matching.WaitOver(s.tracks[s.workers[p].index]) {
      match Matching.Decided(s.tracks[s.workers[p].index].resolution)
      case Some(pick) => HoldingSet(s.workers, p, s.workers[p].(phase := Downloading(pick)));
      case None => ConcludeBounded(s, s, p, NoMatch, totalTime);
    }
  }

  lemma {:induction false} FinishBounded(s: State, p: nat, outcome: Outcome, totalTime: real)
    requires Bounded(s)
    ensures Bounded(Finish(s, p, outcome, totalTime)) && Finish(s, p, outcome, totalTime).config == s.config
  {
    if p < |s.workers| && s.workers[p].phase.Downloading? {
      var i := s.workers[p].index;
      match outcome
      case Archived(elapsed, size) =>
        ConcludeBounded(s, Metrics(s, i, elapsed, size), p, Complete, totalTime);
      case LogRaised(elapsed, size) =>
        var s1 := Record(Metrics(s, i, elapsed, size), p, Complete);
        ConcludeBounded(s, s1.(doubled := s1.doubled + 1), p, Failed, totalTime);
      case Crashed =>
        ConcludeBounded(s, s, p, Failed, totalTime);
    }
  }

  /** Over any interleaving, no more than `threads` workers run at once. */
  lemma {:induction false} RunBounded(s: State, steps: seq<Step>)
    requires Bounded(s)
    ensures Bounded(Run(s, steps))
    decreases |steps|
  {
    if steps != [] {
      StepBounded(s, steps[0]);
      RunBounded(Next(s, steps[0]), steps[1..]);
    }
  }

  /** With a thread count of 0 (or less) no worker ever gets past the
      semaphore: once a mission has started, no orderly step changes the
      workers, `pending` stays positive and no report is saved. */
  lemma {:induction false} ZeroThreadsStall(s: State, steps: seq<Step>)
    requires Inv(s) && OrderlyRun(s, steps)
    requires s.config.threads <= 0 && s.workers != [] && Holding(s.workers) == 0
    ensures Run(s, steps).workers == s.workers
    ensures Run(s, steps).pending == s.pending > 0
    ensures Run(s, steps).finalisations == s.finalisations
    decreases |steps|
  {
    if steps != [] {
      ZeroThreadsStep(s, steps[0]);
      StepInv(s, steps[0]);
      ZeroThreadsStall(Next(s, steps[0]), steps[1..]);
    }
  }

  lemma {:induction false} ZeroThreadsStep(s: State, step: Step)
    requires Inv(s) && Orderly(s, step)
    requires s.config.threads <= 0 && s.workers != [] && Holding(s.workers) == 0
    ensures var s' := Next(s, step);
      s'.workers == s.workers && s'.pending == s.pending && s'.finalisations == s.finalisations
      && s'.config == s.config
  {
    match step
    case HarvestStep(r) =>
    case FinishHarvestStep =>
    case ToggleStep(i) =>
    case SelectAllStep =>
    case SelectNoneStep =>
    case StartStep =>
    case BeginStep(p) =>
    case SearchStep(p, outcomes, t) => NoneHeld(s.workers, p);
    case AnswerStep(k) =>
    case CloseSummaryStep =>
    case PollStep(p, t) => NoneHeld(s.workers, p);
    case FinishStep(p, outcome, t) => NoneHeld(s.workers, p);
  }

  /** With no slot taken, every worker is still spawned. */
  lemma {:induction false} NoneHeld(ws: seq<Worker>, p: nat)
    requires Holding(ws) == 0
    ensures p < |ws| ==> ws[p].phase.Spawned?
  {
    if p < |ws| {
      HoldingSplit(ws, p);
    }
  }

  // ---------------------------------------------------------------------------
  // The resolution screen and the waiting loop
  // ---------------------------------------------------------------------------

  /** The press writes the resolution keys of the top screen's track and
      pops that screen; it looks at no worker, and changes no other track. */
  lemma {:induction false} AnswerWrites(s: State, k: int)
    requires s.screens != [] && s.screens[|s.screens| - 1].Resolve?
    requires s.screens[|s.screens| - 1].index < |s.tracks|
    ensures var top := s.screens[|s.screens| - 1];
      var s' := Answer(s, k);
      && s'.tracks[top.index].resolution == Matching.ApplyChoice(s.tracks[top.index].resolution, top.shown, k)
      && s'.tracks[top.index].(resolution := s.tracks[top.index].resolution) == s.tracks[top.index]
      && (forall j :: 0 <= j < |s.tracks| && j != top.index ==> s'.tracks[j] == s.tracks[j])
      && |s'.tracks| == |s.tracks|
      && s'.screens == s.screens[..|s.screens| - 1]
      && s'.workers == s.workers && s'.pending == s.pending
  {
  }

  /** A url left on the track by an answer in an earlier mission ends the
      wait at once: the worker that has just pushed a new resolution screen
      downloads the old pick at its first poll, while the screen stays up. */
  lemma {:induction false} StaleUrlReused(s: State, p: nat, outcomes: seq<Option<seq<Matching.Entry>>>, totalTime: real)
    requires p < |s.workers| && s.workers[p].phase.Searching? && FourQueries(outcomes)
    requires s.workers[p].index < |s.tracks|
    requires Matching.RouteOf(Matching.FirstHit(outcomes), Target(s.tracks[s.workers[p].index])).AwaitDecision?
    requires s.tracks[s.workers[p].index].resolution.url.Some?
    requires s.tracks[s.workers[p].index].resolution.url.value != []
    ensures var i := s.workers[p].index;
      var s1 := Search(s, p, outcomes, totalTime);
      var s2 := Poll(s1, p, totalTime);
      && s1.screens == s.screens + [Resolve(i, s1.screens[|s1.screens| - 1].shown)]
      && s2.screens == s1.screens
      && s2.workers[p] == Worker(i, Downloading(Matching.Decided(s.tracks[i].resolution).value))
  {
  }

  /** No resolution screen for the track is on the stack. */
  predicate NoScreenFor(screens: seq<Screen>, idx: nat) {
    forall j :: 0 <= j < |screens| ==> !(screens[j].Resolve? && screens[j].index == idx)
  }

  /** A worker stuck after a skip: it polls, its track still awaits a
      decision and has no url, and no screen for the track is left. */
  predicate Stuck(s: State, idx: nat) {
    && idx < |s.tracks|
    && s.tracks[idx].status == Awaiting
    && s.tracks[idx].resolution.url.None?
    && NoScreenFor(s.screens, idx)
    && exists a :: 0 <= a < |s.workers| && s.workers[a] == Worker(idx, Waiting)
  }

  /** Skipping on the last resolution screen of a waiting worker's track
      stalls the worker: polling changes nothing, and it is stuck. */
  lemma {:induction false} SkipStalls(s: State, p: nat, totalTime: real)
    requires p < |s.workers| && s.workers[p].phase.Waiting?
    requires s.workers[p].index < |s.tracks| && s.tracks[s.workers[p].index].status == Awaiting
    requires s.screens != [] && s.screens[|s.screens| - 1].Resolve?
    requires s.screens[|s.screens| - 1].index == s.workers[p].index
    requires NoScreenFor(s.screens[..|s.screens| - 1], s.workers[p].index)
    ensures var s' := Answer(s, 0);
      Poll(s', p, totalTime) == s' && s'.pending == s.pending && Stuck(s', s.workers[p].index)
  {
    var s' := Answer(s, 0);
    assert s'.workers[p] == Worker(s.workers[p].index, Waiting);
  }

  /** Once a worker is stuck, no orderly step frees it: `pending` stays
      positive and the mission never produces its report. */
  lemma {:induction false} StuckForever(s: State, idx: nat, steps: seq<Step>)
    requires Inv(s) && OrderlyRun(s, steps) && Stuck(s, idx)
    ensures Stuck(Run(s, steps), idx)
    ensures Run(s, steps).pending > 0
    ensures Run(s, steps).finalisations == s.finalisations
    decreases |steps|
  {
    if steps != [] {
      StuckStep(s, idx, steps[0]);
      StepInv(s, steps[0]);
      StepReports(s, steps[0]);
      StuckForever(Next(s, steps[0]), idx, steps[1..]);
    }
  }

  lemma {:induction false} StuckStep(s: State, idx: nat, step: Step)
    requires Inv(s) && Orderly(s, step) && Stuck(s, idx)
    ensures Stuck(Next(s, step), idx)
    ensures Next(s, step).pending > 0
  {
    var a :| 0 <= a < |s.workers| && s.workers[a] == Worker(idx, Waiting);
    match step
    case HarvestStep(r) =>
    case FinishHarvestStep =>
    case ToggleStep(i) =>
      assert Toggle(s, i).workers[a] == s.workers[a];
    case SelectAllStep =>
      assert SelectAll(s, true).workers[a] == s.workers[a];
    case SelectNoneStep =>
      assert SelectAll(s, false).workers[a] == s.workers[a];
    case StartStep =>
    case BeginStep(p) => BeginStuck(s, idx, a, p);
    case SearchStep(p, outcomes, t) => SearchStuck(s, idx, a, p, outcomes, t);
    case AnswerStep(k) => AnswerStuck(s, idx, a, k);
    case CloseSummaryStep =>
      assert CloseSummary(s).workers[a] == s.workers[a];
    case PollStep(p, t) => PollStuck(s, idx, a, p, t);
    case FinishStep(p, outcome, t) => FinishStuck(s, idx, a, p, outcome, t);
  }

  /** Another live worker belongs to another track. */
  lemma {:induction false} StuckOther(s: State, idx: nat, a: nat, p: nat)
    requires Inv(s) && a < |s.workers| && s.workers[a].index == idx
    ensures p < |s.workers| && p != a ==> s.workers[p].index != idx
  {
  }

  lemma {:induction false} BeginStuck(s: State, idx: nat, a: nat, p: nat)
    requires Inv(s) && Stuck(s, idx)
    requires a < |s.workers| && s.workers[a] == Worker(idx, Waiting)
    ensures Stuck(Begin(s, p), idx) && Begin(s, p).pending > 0
  {
    if p < |s.workers| && s.workers[p].phase.Spawned? && Holding(s.workers) < s.config.threads {
      StuckOther(s, idx, a, p);
      assert Begin(s, p).workers[a] == s.workers[a];
    }
  }

  lemma {:induction false} AnswerStuck(s: State, idx: nat, a: nat, k: int)
    requires Inv(s) && Stuck(s, idx)
    requires a < |s.workers| && s.workers[a] == Worker(idx, Waiting)
    ensures Stuck(Answer(s, k), idx) && Answer(s, k).pending > 0
  {
    if s.screens != [] && s.screens[|s.screens| - 1].Resolve? && s.screens[|s.screens| - 1].index < |s.tracks| {
      var n := |s.screens| - 1;
      assert s.screens[n].index != idx;
      assert Answer(s, k).workers[a] == s.workers[a];
    }
  }

  /** The stuck worker survives the removal of worker `p != a`. */
  lemma {:induction false} ConcludeOther(s: State, idx: nat, a: nat, p: nat, status: Status, totalTime: real)
    requires Inv(s) && Stuck(s, idx)
    requires a < |s.workers| && s.workers[a] == Worker(idx, Waiting)
    requires p < |s.workers| && p != a
    ensures Stuck(Conclude(s, p, status, totalTime), idx)
    ensures Conclude(s, p, status, totalTime).pending > 0
  {
    var s' := Conclude(s, p, status, totalTime);
    StuckOther(s, idx, a, p);
    var a' := if a < p then a else a - 1;
    assert s'.workers == s.workers[..p] + s.workers[p + 1..];
    assert s'.workers[a'] == s.workers[a];
    assert NoScreenFor(s'.screens, idx);
  }

  lemma {:induction false} SearchStuck(s: State, idx: nat, a: nat, p: nat,
                                       outcomes: seq<Option<seq<Matching.Entry>>>, totalTime: real)
    requires Inv(s) && Stuck(s, idx)
    requires a < |s.workers| && s.workers[a] == Worker(idx, Waiting)
    ensures Stuck(Search(s, p, outcomes, totalTime), idx)
    ensures Search(s, p, outcomes, totalTime).pending > 0
  {
    if p < |s.workers| && s.workers[p].phase.Searching? && s.workers[p].index < |s.tracks| && FourQueries(outcomes) {
      var route := Matching.RouteOf(Matching.FirstHit(outcomes), Target(s.tracks[s.workers[p].index]));
      assert Search(s, p, outcomes, totalTime) == Routed(s, p, route, totalTime);
      RoutedStuck(s, idx, a, p, route, totalTime);
    }
  }

  /** A searching worker is not the stuck one, so no route frees it. */
  lemma {:induction false} RoutedStuck(s: State, idx: nat, a: nat, p: nat, route: Matching.Route, totalTime: real)
    requires Inv(s) && Stuck(s, idx)
    requires a < |s.workers| && s.workers[a] == Worker(idx, Waiting)
    requires p < |s.workers| && s.workers[p].phase.Searching? && s.workers[p].index < |s.tracks|
    ensures Stuck(Routed(s, p, route, totalTime), idx)
    ensures Routed(s, p, route, totalTime).pending > 0
  {
    StuckOther(s, idx, a, p);
    var s' := Routed(s, p, route, totalTime);
    var i := s.workers[p].index;
    match route
    case Matched(e) =>
      if Matching.EntryPick(e).Some? {
        assert s'.workers[a] == s.workers[a];
      } else {
        ConcludeOther(s, idx, a, p, Failed, totalTime);
      }
    case AwaitDecision(shown) =>
      assert s'.workers[a] == s.workers[a];
      assert s'.screens == s.screens + [Resolve(i, shown)];
    case Unmatched =>
      ConcludeOther(s, idx, a, p, NoMatch, totalTime);
    case Raised =>
      ConcludeOther(s, idx, a, p, Failed, totalTime);
  }

  lemma {:induction false} PollStuck(s: State, idx: nat, a: nat, p: nat, totalTime: real)
    requires Inv(s) && Stuck(s, idx)
    requires a < |s.workers| && s.workers[a] == Worker(idx, Waiting)
    ensures Stuck(Poll(s, p, totalTime), idx)
    ensures Poll(s, p, totalTime).pending > 0
  {
    if p < |s.workers| && s.workers[p].phase.Waiting? && s.workers[p].index < |s.tracks|
       && Matching.WaitOver(s.tracks[s.workers[p].index]) {
      StuckOther(s, idx, a, p);
      assert p != a;
      var s' := Poll(s, p, totalTime);
      match Matching.Decided(s.tracks[s.workers[p].index].resolution)
      case Some(pick) =>
        assert s'.workers[a] == s.workers[a];
      case None =>
        ConcludeOther(s, idx, a, p, NoMatch, totalTime);
    }
  }

  lemma {:induction false} FinishStuck(s: State, idx: nat, a: nat, p: nat, outcome: Outcome, totalTime: real)
    requires Inv(s) && Stuck(s, idx)
    requires a < |s.workers| && s.workers[a] == Worker(idx, Waiting)
    ensures Stuck(Finish(s, p, outcome, totalTime), idx)
    ensures Finish(s, p, outcome, totalTime).pending > 0
  {
    if p < |s.workers| && s.workers[p].phase.Downloading? {
      StuckOther(s, idx, a, p);
      var i := s.workers[p].index;
      match outcome
      case Archived(elapsed, size) =>
        MetricsKeys(s, i, elapsed, size);
        ConcludeOther(Metrics(s, i, elapsed, size), idx, a, p, Complete, totalTime);
      case LogRaised(elapsed, size) =>
        MetricsKeys(s, i, elapsed, size);
        var s1 := Record(Metrics(s, i, elapsed, size), p, Complete);
        ConcludeOther(s1.(doubled := s1.doubled + 1), idx, a, p, Failed, totalTime);
      case Crashed =>
        ConcludeOther(s, idx, a, p, Failed, totalTime);
    }
  }

  /** A worker that ends sets one terminal status on its own track, counts
      exactly the matching counter, and counts down `pending` once. */
  lemma {:induction false} ConcludeSpec(s: State, p: nat, status: Status, totalTime: real)
    requires p < |s.workers| && s.workers[p].index < |s.tracks|
    requires status in {Complete, NoMatch, Failed}
    ensures var s' := Conclude(s, p, status, totalTime);
      && s'.tracks[s.workers[p].index].status == status
      && (forall j :: 0 <= j < |s.tracks| && j != s.workers[p].index ==> s'.tracks[j] == s.tracks[j])
      && s'.stats == Tally(s.stats, status)
      && s'.pending == s.pending - 1
      && s'.workers == s.workers[..p] + s.workers[p + 1..]
  {
  }

  /** An automatic match downloads the entry's url under its id (`None`
      for a null id) when both keys are there and the url is not null;
      otherwise the worker raises and the track is counted as failed. */
  lemma {:induction false} MatchedKeys(s: State, p: nat, e: Matching.Entry, totalTime: real)
    requires p < |s.workers| && s.workers[p].index < |s.tracks|
    ensures var s' := Routed(s, p, Matching.Matched(e), totalTime);
      && (!e.id.Absent? && e.url.Given? ==>
            s'.workers[p] == Worker(s.workers[p].index, Downloading(Matching.Pick(e.url.value, Matching.Get(e.id))))
            && s'.tracks == s.tracks && s'.stats == s.stats)
      && (e.id.Absent? || !e.url.Given? ==>
            s'.tracks[s.workers[p].index].status == Failed
            && s'.stats == s.stats.(failed := s.stats.failed + 1)
            && s'.pending == s.pending - 1)
  {
    if e.id.Absent? || !e.url.Given? {
      ConcludeSpec(s, p, Failed, totalTime);
    }
  }

  /** The report saved by the last worker lists every track with the time
      and size recorded for it so far, and its largest size bounds every
      recorded size, whichever mission recorded them. */
  lemma {:induction false} ReportCarriesMetrics(s: State, p: nat, totalTime: real)
    requires p < |s.workers| && s.pending == 1
    ensures var h := Finally(s, p, totalTime).history;
      && |h| == |s.history| + 1
      && |h[|s.history|].rows| == |s.tracks|
      && (forall i :: 0 <= i < |s.tracks| ==>
            h[|s.history|].rows[i].time == Report.TimeOf(s.times, i)
            && h[|s.history|].rows[i].size == Report.Lookup(s.sizes, i, 0))
      && (forall j :: 0 <= j < |s.sizes| ==> s.sizes[j].1 <= h[|s.history|].largestSize)
  {
  }

  /** Nothing in a run forgets a recorded metric: every index with a time
      or a size keeps one, so a track archived in an earlier mission and
      not again shows its old time and size in every later report. */
  lemma {:induction false} MetricsPersist(s: State, steps: seq<Step>)
    ensures s.times.Keys <= Run(s, steps).times.Keys
    ensures forall k :: k in Report.Keys(s.sizes) ==> k in Report.Keys(Run(s, steps).sizes)
    decreases |steps|
  {
    if steps != [] {
      StepMetrics(s, steps[0]);
      MetricsPersist(Next(s, steps[0]), steps[1..]);
    }
  }

  lemma {:induction false} StepMetrics(s: State, step: Step)
    ensures s.times.Keys <= Next(s, step).times.Keys
    ensures forall k :: k in Report.Keys(s.sizes) ==> k in Report.Keys(Next(s, step).sizes)
  {
    match step
    case FinishStep(p, outcome, t) => FinishMetrics(s, p, outcome, t);
    case SearchStep(p, outcomes, t) =>
    case PollStep(p, t) =>
    case _ =>
  }

  lemma {:induction false} FinishMetrics(s: State, p: nat, outcome: Outcome, totalTime: real)
    ensures s.times.Keys <= Finish(s, p, outcome, totalTime).times.Keys
    ensures forall k :: k in Report.Keys(s.sizes) ==> k in Report.Keys(Finish(s, p, outcome, totalTime).sizes)
  {
    if p < |s.workers| && s.workers[p].phase.Downloading? && !outcome.Crashed? {
      var i := s.workers[p].index;
      var s1 := Metrics(s, i, outcome.elapsed, outcome.size);
      if outcome.size.Some? {
        Report.StoreKeys(s.sizes, i, outcome.size.value);
      }
      assert s.times.Keys <= s1.times.Keys;
      assert forall k :: k in Report.Keys(s.sizes) ==> k in Report.Keys(s1.sizes);
      var s2 := Record(s1, p, Complete);
      assert s2.times == s1.times && s2.sizes == s1.sizes;
    }
  }

  /** A start while workers still run resets `pending` to the new selection
      although the old workers will still count down: afterwards `pending`
      is below the number of live workers. */
  lemma {:induction false} RestartUndercounts(s: State)
    requires Inv(s) && StartAccepted(s) && s.workers != []
    ensures StartIngest(s).pending < |StartIngest(s).workers|
  {
  }
}

=== FILE: launch.dfy ===
/** The launch form: the mission starts only with a source url, and the
    thread count falls back to 36 when `int` refuses it. The count becomes
    the value of the archivist's `asyncio.Semaphore`, which refuses a
    negative value. */
module Launch {
  import opened Wrappers
  import opened PyText

  /** The worker count used when the field is not an integer. */
  const DefaultThreads := 36

  /** What pressing "INITIALIZE MISSION" does: refuse with the error
      notification "CRITICAL: SOURCE URL MISSING"; raise ValueError from the
      archivist's constructor, where `asyncio.Semaphore(threads)` refuses a
      negative count, so that no screen opens; or open the archivist screen
      with these settings. A count of 0 opens the screen, but no worker ever
      gets past the semaphore (see `Ingest.ZeroThreadsStall`). */
  datatype Launch =
    | Rejected
    | Raises
    | Open(url: string, library: string, threads: nat, engine: string)

  function ThreadCount(field: string): int {
    ParseInt(field).GetOr(DefaultThreads)
  }

  function StartArchivist(url: string, threads: string, engine: string, library: string): (r: Launch)
    ensures r.Rejected? <==> url == []
    ensures r.Open? ==> r.url == url && r.library == library && r.engine == engine
  {
    if url == [] then Rejected
    else
      var n := ThreadCount(threads);
      if n < 0 then Raises else Open(url, library, n, engine)
  }

  /** Any integer typed into the field in `int`'s own spelling, up to the
      4300-digit limit, reaches the archivist unchanged. */
  lemma {:induction false} ThreadsPassThrough(url: string, n: int, engine: string, library: string)
    requires url != [] && Showable(n)
    ensures n >= 0 ==> StartArchivist(url, ShowInt(n), engine, library) == Open(url, library, n, engine)
    ensures n < 0 ==> StartArchivist(url, ShowInt(n), engine, library) == Raises
  {
    ParseShowInt(n);
  }

  /** With a url, a field `int` refuses opens the screen with 36 workers, a
      non-negative integer opens it with that many, and a negative one
      raises. */
  lemma {:induction false} ThreadsFallback(url: string, threads: string, engine: string, library: string)
    requires url != []
    ensures ParseInt(threads).None? ==>
              StartArchivist(url, threads, engine, library) == Open(url, library, DefaultThreads, engine)
    ensures ParseInt(threads).Some? && ParseInt(threads).value >= 0 ==>
              StartArchivist(url, threads, engine, library) == Open(url, library, ParseInt(threads).value, engine)
    ensures ParseInt(threads).Some? && ParseInt(threads).value < 0 ==>
              StartArchivist(url, threads, engine, library) == Raises
  {
  }

  /** Spaces, tabs or a newline around the number are accepted. */
  lemma {:induction false} ThreadsPadded(url: string, n: nat, engine: string, library: string)
    requires url != [] && Showable(n)
    ensures StartArchivist(url, " " + ShowNat(n) + "\n", engine, library) == Open(url, library, n, engine)
  {
    var d := ShowNat(n);
    DigitsTrimmed(d);
    ParsePadded(" ", d, "\n");
    ShowNatValue(n);
    ParseDigits(d);
  }

  /** A count of more than 4300 digits is refused by `int` like any other
      non-integer, so the screen opens with 36 workers, however large or
      negative the number. */
  lemma {:induction false} ThreadsTooLong(url: string, d: string, engine: string, library: string)
    requires url != [] && AllDigits(d) && |d| > MaxStrDigits
    ensures StartArchivist(url, d, engine, library) == Open(url, library, DefaultThreads, engine)
    ensures StartArchivist(url, "-" + d, engine, library) == Open(url, library, DefaultThreads, engine)
  {
    ParseTooLong(d);
  }

  /** A negative count raises instead of opening the screen. */
  lemma ExampleNegativeThreads()
    ensures StartArchivist("http://valid.url", "-1", "cpu", "MyLib") == Raises
  {
    assert ShowInt(-1) == "-1";
    ThreadsPassThrough("http://valid.url", -1, "cpu", "MyLib");
  }

  /** An empty url is refused whatever the other fields hold. */
  lemma ExampleEmptyUrl()
    ensures StartArchivist("", "10", "cpu", "MyLib") == Rejected
  {
  }

  lemma ExampleBadThreads()
    ensures StartArchivist("http://valid.url", "not_a_number", "cpu", "MyLib")
         == Open("http://valid.url", "MyLib", 36, "cpu")
  {
    var f := "not_a_number";
    StripTrimmed(CBlanks, f);
    assert !DigitRun(f) by { assert !IsDigit(f[0]); }
  }

  lemma ExampleGoodThreads()
    ensures StartArchivist("http://valid.url", "42", "gpu", "MyLib")
         == Open("http://valid.url", "MyLib", 42, "gpu")
  {
    assert ShowInt(42) == "42";
    ThreadsPassThrough("http://valid.url", 42, "gpu", "MyLib");
  }
}

=== FILE: matching.dfy ===
/** Match selection in the ingestion worker: the four fallback queries, the
    choice of the entry closest in duration, the routing of a track without
    a match, and the answer the user gives on the resolution screen.

    The search collaborator is abstract: the outcome of each query is
    `None` when the search raised and `Some(entries)` otherwise. */
module Matching {
  import opened Wrappers
  import opened PyText
  import opened Tracks

  /** One key of a JSON object: absent, present with JSON null, or present
      with a value. `entry.get(key)` tells the first two apart only by a
      default; `entry[key]` raises KeyError on the first. */
  datatype Field<T> = Absent | Null | Given(value: T)

  /** `entry.get(key)` without a default. */
  function Get<T>(f: Field<T>): (r: Option<T>)
    ensures r.Some? <==> f.Given?
    ensures r.Some? ==> r.value == f.value
  {
    if f.Given? then Some(f.value) else None
  }

  /** One search hit as the flat JSON dump gives it. The `duration` is a
      number of seconds, possibly fractional; `get` reads an absent one as
      0 and a null one as `None`. */
  datatype Entry = Entry(id: Field<string>, url: Field<string>, title: Field<string>, duration: Field<real>)

  // ---------------------------------------------------------------------------
  // The fallback queries
  // ---------------------------------------------------------------------------

  /** The query suffixes, in the order they are tried. */
  const Suffixes: seq<string> := [" official audio", " official video", " lyrics", ""]

  /** The four queries for a track. */
  function Queries(artist: string, title: string): (qs: seq<string>)
    ensures |qs| == |Suffixes|
  {
    seq(|Suffixes|, i requires 0 <= i < |Suffixes| => artist + " " + title + Suffixes[i])
  }

  /** Every query names the track first and the last one names nothing
      else; no query is tried twice. */
  lemma {:induction false} QueriesShape(artist: string, title: string)
    ensures var qs := Queries(artist, title);
      (forall i :: 0 <= i < |qs| ==> artist + " " + title <= qs[i])
      && qs[3] == artist + " " + title
      && forall i, j :: 0 <= i < j < |qs| ==> qs[i] != qs[j]
  {
    var qs := Queries(artist, title);
    var bare := artist + " " + title;
    forall i, j | 0 <= i < j < |qs| ensures qs[i] != qs[j] {
      assert qs[i] == bare + Suffixes[i] && qs[j] == bare + Suffixes[j];
      if qs[i] == qs[j] {
        assert qs[i][|bare|..] == Suffixes[i];
        assert qs[j][|bare|..] == Suffixes[j];
        DistinctSuffixes(i, j);
      }
    }
    assert qs[3] == bare + "";
  }

  lemma {:induction false} DistinctSuffixes(i: nat, j: nat)
    requires i < j < |Suffixes|
    ensures Suffixes[i] != Suffixes[j]
  {
    if i == 0 && j == 1 {
      assert Suffixes[0][10] != Suffixes[1][10];
    }
  }

  /** A query that did not raise and found something. */
  predicate Hit(outcome: Option<seq<Entry>>) {
    outcome.Some? && outcome.value != []
  }

  /** The results the worker goes on with: those of the first query that
      found something, or nothing. */
  function FirstHit(outcomes: seq<Option<seq<Entry>>>): (r: seq<Entry>)
    ensures r == [] <==> forall k :: 0 <= k < |outcomes| ==> !Hit(outcomes[k])
    ensures r != [] ==> exists k :: 0 <= k < |outcomes| && outcomes[k] == Some(r)
                          && forall j :: 0 <= j < k ==> !Hit(outcomes[j])
    decreases |outcomes|
  {
    if outcomes == [] then []
    else if Hit(outcomes[0]) then outcomes[0].value
    else
      var r := FirstHit(outcomes[1..]);
      assert forall k :: 1 <= k < |outcomes| ==> outcomes[k] == outcomes[1..][k - 1];
      r
  }

  /** The query loop as written: stop before the next query once `results`
      is non-empty; a raising query leaves `results` as it was; a query that
      returns an empty list overwrites it with the empty list. `issued`
      counts the queries run. */
  method RunQueries(outcomes: seq<Option<seq<Entry>>>) returns (results: seq<Entry>, issued: nat)
    ensures results == FirstHit(outcomes)
    ensures issued <= |outcomes|
    ensures forall j :: 0 <= j < issued - 1 ==> !Hit(outcomes[j])
    ensures issued < |outcomes| ==> issued > 0 && Hit(outcomes[issued - 1])
    ensures results != [] ==> issued > 0 && outcomes[issued - 1] == Some(results)
  {
    results := [];
    issued := 0;
    while issued < |outcomes|
      invariant issued <= |outcomes|
      invariant results == [] <==> forall j :: 0 <= j < issued ==> !Hit(outcomes[j])
      invariant results != [] ==> issued > 0 && outcomes[issued - 1] == Some(results)
      invariant forall j :: 0 <= j < issued - 1 ==> !Hit(outcomes[j])
    {
      if results != [] {
        break;
      }
      match outcomes[issued] {
        case None =>
        case Some(found) => results := found;
      }
      issued := issued + 1;
    }
    var expected := FirstHit(outcomes);
    if results != [] {
      var k :| 0 <= k < |outcomes| && outcomes[k] == Some(expected)
               && forall j :: 0 <= j < k ==> !Hit(outcomes[j]);
      assert Hit(outcomes[issued - 1]);
      assert k == issued - 1;
    }
  }

  // ---------------------------------------------------------------------------
  // The closest-duration choice
  // ---------------------------------------------------------------------------

  /** `abs(duration - spotify_dur)` */
  function Gap(d: real, target: int): (g: real)
    ensures g >= 0.0 && (g == d - target as real || g == target as real - d)
  {
    if d >= target as real then d - target as real else target as real - d
  }

  /** The entry's duration is JSON null: `None > 0` raises TypeError. */
  predicate IsNull(e: Entry) {
    e.duration.Null?
  }

  /** An entry with a positive duration within 30 seconds of the target. */
  predicate Qualifies(e: Entry, target: int) {
    e.duration.Given? && e.duration.value > 0.0 && Gap(e.duration.value, target) < 30.0
  }

  function GapOf(e: Entry, target: int): real
    requires e.duration.Given?
  {
    Gap(e.duration.value, target)
  }

  /** How the scan ends: it raised on a null duration, or it left `best` at
      an index or at `None`. */
  datatype Scan = TypeError | Chose(best: Option<nat>)

  /** The scan of lines 351-360 from position `i` on, with the running
      `min_diff` and the index of the running `best`. An absent duration
      reads as 0 and is passed over. */
  function BestFrom(results: seq<Entry>, target: int, i: nat, minDiff: real, best: Option<nat>): (r: Scan)
    requires i <= |results|
    requires best.Some? ==> best.value < i
    ensures r.Chose? && r.best.Some? ==> r.best.value < |results|
    decreases |results| - i
  {
    if i == |results| then Chose(best)
    else
      match results[i].duration
      case Null => TypeError
      case Absent => BestFrom(results, target, i + 1, minDiff, best)
      case Given(d) =>
        if d > 0.0 && Gap(d, target) < 30.0 && Gap(d, target) < minDiff then
          BestFrom(results, target, i + 1, Gap(d, target), Some(i))
        else
          BestFrom(results, target, i + 1, minDiff, best)
  }

  /** The scan from `min_diff = 999` and no best. */
  function Best(results: seq<Entry>, target: int): (r: Scan)
    ensures r.Chose? && r.best.Some? ==> r.best.value < |results|
  {
    BestFrom(results, target, 0, 999.0, None)
  }

  /** What the scan keeps true after looking at the first `i` entries. */
  predicate ScanInv(results: seq<Entry>, target: int, i: nat, minDiff: real, best: Option<nat>)
    requires i <= |results|
  {
    (forall j :: 0 <= j < i ==> !IsNull(results[j]))
    && (best.None? ==> minDiff == 999.0 && forall j :: 0 <= j < i ==> !Qualifies(results[j], target))
    && (best.Some? ==>
          best.value < i
          && Qualifies(results[best.value], target)
          && minDiff == GapOf(results[best.value], target)
          && (forall j :: 0 <= j < i && Qualifies(results[j], target) ==> minDiff <= GapOf(results[j], target))
          && (forall j :: 0 <= j < best.value && Qualifies(results[j], target) ==> minDiff < GapOf(results[j], target)))
  }

  /** The choice among entries none of which is null: the chosen entry
      qualifies, no qualifying entry is strictly closer, every earlier
      qualifying entry is strictly farther (ties go to the first), and there
      is no choice exactly when nothing qualifies. */
  predicate ChoiceSpec(results: seq<Entry>, target: int, r: Option<nat>) {
    (r.None? <==> forall j :: 0 <= j < |results| ==> !Qualifies(results[j], target))
    && (r.Some? ==>
          r.value < |results|
          && Qualifies(results[r.value], target)
          && (forall j :: 0 <= j < |results| && Qualifies(results[j], target) ==>
                GapOf(results[r.value], target) <= GapOf(results[j], target))
          && (forall j :: 0 <= j < r.value && Qualifies(results[j], target) ==>
                GapOf(results[r.value], target) < GapOf(results[j], target)))
  }

  /** The scan raises exactly when some entry has a null duration, and
      otherwise makes the specified choice. */
  predicate BestSpec(results: seq<Entry>, target: int, r: Scan) {
    (r.TypeError? <==> exists j :: 0 <= j < |results| && IsNull(results[j]))
    && (r.Chose? ==> ChoiceSpec(results, target, r.best))
  }

  lemma {:induction false} BestFromSpec(results: seq<Entry>, target: int, i: nat, minDiff: real, best: Option<nat>)
    requires i <= |results|
    requires ScanInv(results, target, i, minDiff, best)
    ensures BestSpec(results, target, BestFrom(results, target, i, minDiff, best))
    decreases |results| - i
  {
    if i < |results| {
      match results[i].duration
      case Null =>
      case Absent =>
        BestFromSpec(results, target, i + 1, minDiff, best);
      case Given(d) =>
        if d > 0.0 && Gap(d, target) < 30.0 && Gap(d, target) < minDiff {
          BestFromSpec(results, target, i + 1, Gap(d, target), Some(i));
        } else {
          BestFromSpec(results, target, i + 1, minDiff, best);
        }
    }
  }

  /** The scan meets the specification. */
  lemma {:induction false} BestCorrect(results: seq<Entry>, target: int)
    ensures BestSpec(results, target, Best(results, target))
  {
    BestFromSpec(results, target, 0, 999.0, None);
  }

  /** The specification leaves no freedom: any outcome meeting it is the
      scan's. */
  lemma {:induction false} BestUnique(results: seq<Entry>, target: int, r: Scan)
    requires BestSpec(results, target, r)
    ensures r == Best(results, target)
  {
    BestCorrect(results, target);
  }

  /** A fractional duration takes part in the choice like any other: 29.5
      seconds off the target qualifies. */
  lemma FractionalQualifies(id: Field<string>, url: Field<string>)
    ensures Qualifies(Entry(id, url, Absent, Given(229.5)), 200)
    ensures !Qualifies(Entry(id, url, Absent, Given(230.0)), 200)
  {
  }

  // ---------------------------------------------------------------------------
  // Routing
  // ---------------------------------------------------------------------------

  /** Where the worker goes after the choice: download the best entry, ask
      the user about the first three results, give up, or fail on the
      scan's TypeError. */
  datatype Route = Matched(entry: Entry) | AwaitDecision(shown: seq<Entry>) | Unmatched | Raised

  function Min(a: int, b: int): int {
    if a <= b then a else b
  }

  function RouteOf(results: seq<Entry>, target: int): Route {
    match Best(results, target)
    case TypeError => Raised
    case Chose(Some(i)) => Matched(results[i])
    case Chose(None) => if results != [] then AwaitDecision(results[..Min(3, |results|)]) else Unmatched
  }

  /** The worker fails exactly when some result has a null duration. Other
      than that, a match is made exactly when some entry qualifies, and it
      is the best one; otherwise the user sees the first (at most three)
      results in their original order, or, when there were none, the track
      is unmatched. */
  lemma {:induction false} RouteSpec(results: seq<Entry>, target: int)
    ensures var r := RouteOf(results, target);
      var nulls := exists j :: 0 <= j < |results| && IsNull(results[j]);
      (r.Raised? <==> nulls)
      && (r.Matched? <==> !nulls && exists j :: 0 <= j < |results| && Qualifies(results[j], target))
      && (r.Matched? ==> exists i :: 0 <= i < |results| && r.entry == results[i]
                           && ChoiceSpec(results, target, Some(i)))
      && (r.AwaitDecision? <==> results != [] && !nulls
                                && forall j :: 0 <= j < |results| ==> !Qualifies(results[j], target))
      && (r.AwaitDecision? ==> 1 <= |r.shown| <= 3 && r.shown <= results
                               && |r.shown| == Min(3, |results|))
      && (r.Unmatched? <==> results == [])
  {
    BestCorrect(results, target);
  }

  // ---------------------------------------------------------------------------
  // The resolution screen
  // ---------------------------------------------------------------------------

  /** How a press on the resolution screen reads: not an option button,
      option `k`, or an option id whose number `int` refuses (the handler
      raises). */
  datatype Press = Ignored | Choice(k: int) | Raises

  /** `btn_id and btn_id.startswith("opt-")`, then
      `int(btn_id.split("-")[1])`. */
  function ReadPress(btnId: Option<string>): Press {
    match btnId
    case None => Ignored
    case Some(b) =>
      if !("opt-" <= b) then Ignored
      else
        var parts := Split(b, '-');
        if |parts| < 2 then Raises
        else
          match ParseInt(parts[1])
          case None => Raises
          case Some(k) => Choice(k)
  }

  /** The button ids the screen generates, `opt-0` to `opt-n`. */
  function OptionId(k: nat): string {
    "opt-" + ShowNat(k)
  }

  /** Every generated button reads back as its own option number. */
  lemma {:induction false} ReadOptionId(k: nat)
    requires Showable(k)
    ensures ReadPress(Some(OptionId(k))) == Choice(k)
  {
    var d := ShowNat(k);
    assert forall i :: 0 <= i < |d| ==> IsDigit(d[i]);
    assert '-' !in d;
    assert OptionId(k) == "opt" + ['-'] + d;
    SplitTwo("opt", d, '-');
    ParseShowInt(k);
  }

  /** The effect of option `k` on the track's resolution keys, given the
      results the screen shows. */
  function ApplyChoice(res: Resolution, shown: seq<Entry>, k: int): (r: Resolution)
    ensures k == 0 ==> r == res.(url := None)
    ensures 1 <= k <= |shown| ==> r == Resolution(Get(shown[k - 1].url), Some(Get(shown[k - 1].id)))
    ensures (k < 0 || k > |shown|) ==> r == res
  {
    if k == 0 then res.(url := None)
    else if 1 <= k <= |shown| then
      var picked := shown[k - 1];
      Resolution(Get(picked.url), Some(Get(picked.id)))
    else res
  }

  /** What the worker downloads: a url and the id for the temporary file
      (`tmp_None.mp3` when the id is `None`). */
  datatype Pick = Pick(url: string, id: Option<string>)

  /** The worker's wait ends once a url is set or the status changed. */
  predicate WaitOver(t: Track) {
    t.resolution.url.Some? || t.status != Awaiting
  }

  /** After the wait: a non-empty url becomes the pick, with the id
      defaulting to "manual"; anything else is a no-match. */
  function Decided(res: Resolution): Option<Pick> {
    match res.url
    case Some(u) =>
      if u != [] then Some(Pick(u, res.id.GetOr(Some("manual")))) else None
    case None => None
  }

  /** The pick an automatic match makes: `best['id']` for the temporary
      file, then `best['url']` for the download command. `None` when the
      worker raises instead: KeyError when either key is absent, TypeError
      from the subprocess call when the url is null. A null id is kept. */
  function EntryPick(e: Entry): (r: Option<Pick>)
    ensures r.Some? <==> !e.id.Absent? && e.url.Given?
    ensures r.Some? ==> r.value.url == e.url.value && r.value.id == Get(e.id)
  {
    if e.id.Absent? || !e.url.Given? then None else Some(Pick(e.url.value, Get(e.id)))
  }

  /** Picking a shown result with a url ends the wait and downloads that
      result's url, with its id or `None`. Where the automatic match would
      have worked on that entry, the manual pick is the same download; it
      also works on an entry without an `id` key, where the automatic match
      raises. */
  lemma {:induction false} ChoosingEndsWait(t: Track, shown: seq<Entry>, k: int)
    requires 1 <= k <= |shown|
    requires shown[k - 1].url.Given? && shown[k - 1].url.value != []
    ensures var t' := t.(resolution := ApplyChoice(t.resolution, shown, k));
      && WaitOver(t')
      && Decided(t'.resolution) == Some(Pick(shown[k - 1].url.value, Get(shown[k - 1].id)))
      && (!shown[k - 1].id.Absent? ==> Decided(t'.resolution) == EntryPick(shown[k - 1]))
      && (shown[k - 1].id.Absent? ==> EntryPick(shown[k - 1]).None?)
  {
  }

  /** Choosing a shown result without a url, or with a null one, stores no
      url: the wait goes on. */
  lemma {:induction false} ChoosingNoUrl(t: Track, shown: seq<Entry>, k: int)
    requires 1 <= k <= |shown| && !shown[k - 1].url.Given? && t.status == Awaiting
    ensures var t' := t.(resolution := ApplyChoice(t.resolution, shown, k));
      !WaitOver(t') && EntryPick(shown[k - 1]).None?
  {
  }

  /** Skipping clears the url and leaves the status at "AWAITING USER
      DECISION", so the wait never ends. */
  lemma {:induction false} SkipKeepsWaiting(t: Track, shown: seq<Entry>)
    requires t.status == Awaiting
    ensures var t' := t.(resolution := ApplyChoice(t.resolution, shown, 0));
      !WaitOver(t') && t'.status == Awaiting
  {
  }

  /** An option number outside the shown range leaves the track as it was. */
  lemma {:induction false} OutOfRangeNoEffect(t: Track, shown: seq<Entry>, k: int)
    requires k < 0 || k > |shown|
    ensures t.(resolution := ApplyChoice(t.resolution, shown, k)) == t
  {
  }
}

=== FILE: pytext.dfy ===
/** The Python string and integer primitives the archivist leans on:
    `str.isspace`, `str.strip`, `str.split(sep)` and the built-in `int(text)`.

    Only the ASCII part of each is modelled; digits are '0'..'9'. Two sets of
    whitespace are in play: `str.isspace` (and so `str.strip` and the
    pattern `\s`) accepts tab, line feed, vertical tab, form feed, carriage
    return, the separators 0x1C..0x1F and space, while `int` skips only C's
    `isspace` set around the literal, which lacks 0x1C..0x1F. `int` then
    accepts an optional '+' or '-' and decimal digits with single
    underscores between them (Python 3.6 and later), at most 4300 digits of
    them (Python 3.11 and later, by default). */
module PyText {
  import opened Wrappers

  /** `c.isspace()` for characters below 128: tab, line feed, vertical tab,
      form feed, carriage return, the four separators 0x1C..0x1F and space. */
  predicate IsSpace(c: char) {
    c == ' ' || (9 <= c as int <= 13) || (28 <= c as int <= 31)
  }

  /** C's `isspace`: tab, line feed, vertical tab, form feed, carriage return
      and space. */
  predicate IsCSpace(c: char) {
    c == ' ' || (9 <= c as int <= 13)
  }

  /** Which whitespace a strip removes: `str.isspace`'s or C's. */
  datatype Blanks = PyBlanks | CBlanks

  predicate Blank(ws: Blanks, c: char) {
    match ws
    case PyBlanks => IsSpace(c)
    case CBlanks => IsCSpace(c)
  }

  /** C's whitespace is part of Python's. */
  lemma CSpaceIsSpace(c: char)
    ensures IsCSpace(c) ==> IsSpace(c)
    ensures Blank(CBlanks, c) ==> Blank(PyBlanks, c)
  {
  }

  predicate IsDigit(c: char) {
    '0' <= c <= '9'
  }

  function DigitValue(c: char): (d: nat)
    requires IsDigit(c)
    ensures d < 10
  {
    c as int - '0' as int
  }

  function DigitChar(d: nat): (c: char)
    requires d < 10
    ensures IsDigit(c) && DigitValue(c) == d
  {
    ('0' as int + d) as char
  }

  // ---------------------------------------------------------------------------
  // Stripping: str.strip() and the whitespace int() skips
  // ---------------------------------------------------------------------------

  /** Drop the leading whitespace of class `ws` and nothing else
      (`s.lstrip()` for `PyBlanks`). */
  function StripLeft(ws: Blanks, s: string): (r: string)
    ensures |r| <= |s| && r == s[|s| - |r|..]
    ensures r == [] || !Blank(ws, r[0])
  {
    if s != [] && Blank(ws, s[0]) then StripLeft(ws, s[1..]) else s
  }

  /** What the left strip cuts is whitespace. */
  lemma {:induction false} StripLeftCut(ws: Blanks, s: string)
    ensures forall i :: 0 <= i < |s| - |StripLeft(ws, s)| ==> Blank(ws, s[i])
  {
    forall i | 0 <= i < |s| - |StripLeft(ws, s)| ensures Blank(ws, s[i]) {
      StripLeftCutAt(ws, s, i);
    }
  }

  /** The character at `i`, inside the cut, is whitespace. */
  lemma {:induction false} StripLeftCutAt(ws: Blanks, s: string, i: nat)
    requires i < |s| - |StripLeft(ws, s)|
    ensures Blank(ws, s[i])
    decreases i
  {
    assert s != [] && Blank(ws, s[0]);
    if i > 0 {
      var t := s[1..];
      assert StripLeft(ws, s) == StripLeft(ws, t);
      StripLeftCutAt(ws, t, i - 1);
      assert s[i] == t[i - 1];
    }
  }

  /** Drop the trailing whitespace of class `ws` and nothing else
      (`s.rstrip()` for `PyBlanks`). */
  function StripRight(ws: Blanks, s: string): (r: string)
    ensures |r| <= |s| && r == s[..|r|]
    ensures r == [] || !Blank(ws, r[|r| - 1])
  {
    if s != [] && Blank(ws, s[|s| - 1]) then StripRight(ws, s[..|s| - 1]) else s
  }

  /** What the right strip cuts is whitespace. */
  lemma {:induction false} StripRightCut(ws: Blanks, s: string)
    ensures forall i :: |StripRight(ws, s)| <= i < |s| ==> Blank(ws, s[i])
    decreases |s|
  {
    if s != [] && Blank(ws, s[|s| - 1]) {
      StripRightCut(ws, s[..|s| - 1]);
    }
  }

  function StripBlanks(ws: Blanks, s: string): string {
    StripRight(ws, StripLeft(ws, s))
  }

  /** `s.strip()`. */
  function Strip(s: string): string {
    StripBlanks(PyBlanks, s)
  }

  /** A string that neither starts nor ends with whitespace of class `ws`. */
  predicate Trimmed(ws: Blanks, s: string) {
    s == [] || (!Blank(ws, s[0]) && !Blank(ws, s[|s| - 1]))
  }

  /** Stripping removes exactly the surrounding whitespace: the result is a
      contiguous piece of the input, trimmed, and only whitespace was cut on
      either side. */
  lemma {:induction false} StripSpec(ws: Blanks, s: string)
    ensures Trimmed(ws, StripBlanks(ws, s))
    ensures StripBlanks(ws, s) <= StripLeft(ws, s) == s[|s| - |StripLeft(ws, s)|..]
    ensures forall i :: 0 <= i < |s| - |StripLeft(ws, s)| ==> Blank(ws, s[i])
    ensures forall i :: |StripBlanks(ws, s)| <= i < |StripLeft(ws, s)| ==> Blank(ws, StripLeft(ws, s)[i])
  {
    StripShape(ws, s);
    StripLeftCut(ws, s);
    StripRightCut(ws, StripLeft(ws, s));
  }

  /** The strip is trimmed and a prefix of the left strip. */
  lemma {:induction false} StripShape(ws: Blanks, s: string)
    ensures Trimmed(ws, StripBlanks(ws, s)) && StripBlanks(ws, s) <= StripLeft(ws, s)
  {
    var l := StripLeft(ws, s);
    var r := StripRight(ws, l);
    assert StripBlanks(ws, s) == r;
    assert r == l[..|r|];
    if r != [] {
      assert r[0] == l[0] && !Blank(ws, r[0]);
    }
  }

  /** A string holding a non-whitespace character does not strip to empty. */
  lemma {:induction false} StripNonBlank(ws: Blanks, s: string, i: int)
    requires 0 <= i < |s| && !Blank(ws, s[i])
    ensures StripBlanks(ws, s) != []
  {
    StripSpec(ws, s);
    var l := StripLeft(ws, s);
    var j := i - (|s| - |l|);
    assert 0 <= j < |l| && l[j] == s[i];
  }

  /** A trimmed string is its own strip; hence strip is idempotent. */
  lemma {:induction false} StripTrimmed(ws: Blanks, s: string)
    requires Trimmed(ws, s)
    ensures StripBlanks(ws, s) == s
  {
  }

  lemma {:induction false} StripIdempotent(s: string)
    ensures Strip(Strip(s)) == Strip(s)
  {
    StripSpec(PyBlanks, s);
    StripTrimmed(PyBlanks, Strip(s));
  }

  /** Whitespace around a trimmed string is exactly what strip removes. */
  lemma {:induction false} StripPadded(ws: Blanks, pre: string, t: string, post: string)
    requires forall i :: 0 <= i < |pre| ==> Blank(ws, pre[i])
    requires forall i :: 0 <= i < |post| ==> Blank(ws, post[i])
    requires t != [] && Trimmed(ws, t)
    ensures StripBlanks(ws, pre + t + post) == t
  {
    var u := t + post;
    var s := pre + t + post;
    assert s == pre + u && u[0] == t[0];
    StripLeftPadded(ws, pre, u);
    StripRightPadded(ws, t, post);
    assert StripBlanks(ws, s) == StripRight(ws, u);
  }

  lemma {:induction false} StripLeftPadded(ws: Blanks, pre: string, u: string)
    requires forall i :: 0 <= i < |pre| ==> Blank(ws, pre[i])
    requires u != [] && !Blank(ws, u[0])
    ensures StripLeft(ws, pre + u) == u
    decreases |pre|
  {
    if pre != [] {
      var s := pre + u;
      assert s[0] == pre[0];
      assert s[1..] == pre[1..] + u;
      assert forall i :: 0 <= i < |pre| - 1 ==> pre[1..][i] == pre[i + 1];
      StripLeftPadded(ws, pre[1..], u);
    } else {
      assert pre + u == u;
    }
  }

  lemma {:induction false} StripRightPadded(ws: Blanks, t: string, post: string)
    requires forall i :: 0 <= i < |post| ==> Blank(ws, post[i])
    requires t != [] && !Blank(ws, t[|t| - 1])
    ensures StripRight(ws, t + post) == t
    decreases |post|
  {
    if post != [] {
      var q := post[..|post| - 1];
      assert (t + post)[..|t + post| - 1] == t + q;
      StripRightPadded(ws, t, q);
    } else {
      assert t + post == t;
    }
  }

  // ---------------------------------------------------------------------------
  // str.split(sep) with a one-character separator
  // ---------------------------------------------------------------------------

  /** `s.split(sep)`: the pieces between separators, always one more piece
      than there are separators; an empty string gives `[""]`. */
  function Split(s: string, sep: char): (parts: seq<string>)
    ensures |parts| >= 1
    ensures forall i :: 0 <= i < |parts| ==> sep !in parts[i]
    decreases |s|
  {
    if s == [] then [[]]
    else
      var rest := Split(s[1..], sep);
      assert s == [s[0]] + s[1..];
      if s[0] == sep then [[]] + rest
      else [[s[0]] + rest[0]] + rest[1..]
  }

  /** The number of occurrences of `c` in `s`. */
  function Count(s: string, c: char): nat {
    if s == [] then 0 else (if s[0] == c then 1 else 0) + Count(s[1..], c)
  }

  /** There is one more piece than there are separators. */
  lemma {:induction false} SplitCount(s: string, sep: char)
    ensures |Split(s, sep)| == Count(s, sep) + 1
    decreases |s|
  {
    if s != [] {
      SplitCount(s[1..], sep);
    }
  }

  /** `sep.join(parts)`. */
  function Join(parts: seq<string>, sep: char): string
    requires |parts| >= 1
  {
    if |parts| == 1 then parts[0] else parts[0] + [sep] + Join(parts[1..], sep)
  }

  /** Splitting loses nothing: joining the pieces gives the input back. */
  lemma {:induction false} JoinSplit(s: string, sep: char)
    ensures Join(Split(s, sep), sep) == s
    decreases |s|
  {
    if s != [] {
      var rest := Split(s[1..], sep);
      JoinSplit(s[1..], sep);
      if s[0] != sep {
        if |rest| == 1 {
        } else {
          assert ([[s[0]] + rest[0]] + rest[1..])[1..] == rest[1..];
          assert Join(rest, sep) == rest[0] + [sep] + Join(rest[1..], sep);
        }
      } else {
        assert ([[]] + rest)[1..] == rest;
      }
    }
  }

  /** Pieces free of the separator come back unchanged from a split of
      their join. */
  lemma {:induction false} SplitJoin(parts: seq<string>, sep: char)
    requires |parts| >= 1
    requires forall i :: 0 <= i < |parts| ==> sep !in parts[i]
    ensures Split(Join(parts, sep), sep) == parts
    decreases |parts|
  {
    if |parts| == 1 {
      SplitFree(parts[0], sep);
    } else {
      SplitJoin(parts[1..], sep);
      SplitCons(parts[0], Join(parts[1..], sep), sep);
      assert Join(parts, sep) == parts[0] + [sep] + Join(parts[1..], sep);
      assert parts == [parts[0]] + parts[1..];
    }
  }

  lemma {:induction false} SplitFree(s: string, sep: char)
    requires sep !in s
    ensures Split(s, sep) == [s]
    decreases |s|
  {
    if s != [] {
      assert sep !in s[1..];
      SplitFree(s[1..], sep);
      assert [s[0]] + s[1..] == s;
    }
  }

  lemma {:induction false} SplitCons(a: string, b: string, sep: char)
    requires sep !in a
    ensures Split(a + [sep] + b, sep) == [a] + Split(b, sep)
    decreases |a|
  {
    if a == [] {
      assert a + [sep] + b == [sep] + b;
      assert ([sep] + b)[1..] == b;
    } else {
      var s := a + [sep] + b;
      assert s[1..] == a[1..] + [sep] + b;
      assert sep !in a[1..];
      SplitCons(a[1..], b, sep);
      assert [a[0]] + a[1..] == a;
    }
  }

  /** The two- and three-field shapes `a:b` and `a:b:c`. */
  lemma {:induction false} SplitTwo(a: string, b: string, sep: char)
    requires sep !in a && sep !in b
    ensures Split(a + [sep] + b, sep) == [a, b]
  {
    SplitJoin([a, b], sep);
    assert Join([a, b], sep) == a + [sep] + Join([b], sep);
  }

  lemma {:induction false} SplitThree(a: string, b: string, c: string, sep: char)
    requires sep !in a && sep !in b && sep !in c
    ensures Split(a + [sep] + b + [sep] + c, sep) == [a, b, c]
  {
    SplitJoin([a, b, c], sep);
    assert [a, b, c][1..] == [b, c];
    assert [b, c][1..] == [c];
    assert Join([b, c], sep) == b + [sep] + c;
    assert Join([a, b, c], sep) == a + [sep] + (b + [sep] + c);
    assert a + [sep] + b + [sep] + c == a + [sep] + (b + [sep] + c);
  }

  /** Appending separator-free text to a string appends it to the last
      piece of the split. */
  lemma {:induction false} SplitAppend(t: string, x: string, sep: char)
    requires sep !in x
    ensures var parts := Split(t, sep);
            Split(t + x, sep) == parts[..|parts| - 1] + [parts[|parts| - 1] + x]
  {
    var parts := Split(t, sep);
    var k := |parts| - 1;
    var q := parts[..k] + [parts[k] + x];
    JoinSplit(t, sep);
    JoinLast(parts, x, sep);
    forall i | 0 <= i < |q| ensures sep !in q[i] {
      if i < k {
        assert q[i] == parts[i];
      } else {
        assert q[i] == parts[k] + x;
      }
    }
    SplitJoin(q, sep);
  }

  /** Appending to the last piece appends to the join. */
  lemma {:induction false} JoinLast(parts: seq<string>, x: string, sep: char)
    requires |parts| >= 1
    ensures Join(parts[..|parts| - 1] + [parts[|parts| - 1] + x], sep) == Join(parts, sep) + x
    decreases |parts|
  {
    var k := |parts| - 1;
    var q := parts[..k] + [parts[k] + x];
    if |parts| > 1 {
      assert q[0] == parts[0];
      assert q[1..] == parts[1..][..k - 1] + [parts[1..][k - 1] + x];
      JoinLast(parts[1..], x, sep);
    }
  }

  // ---------------------------------------------------------------------------
  // int(text)
  // ---------------------------------------------------------------------------

  /** The digit part `int` accepts: ASCII digits, possibly grouped by single
      underscores, starting and ending with a digit. */
  predicate DigitRun(s: string) {
    && |s| > 0
    && IsDigit(s[0]) && IsDigit(s[|s| - 1])
    && (forall i :: 0 <= i < |s| ==> IsDigit(s[i]) || s[i] == '_')
    && (forall i :: 0 <= i < |s| - 1 ==> s[i] == '_' ==> s[i + 1] != '_')
  }

  /** Only digits, no underscore. */
  predicate AllDigits(s: string) {
    forall i :: 0 <= i < |s| ==> IsDigit(s[i])
  }

  lemma AllDigitsRun(s: string)
    requires s != [] && AllDigits(s)
    ensures DigitRun(s)
  {
    forall i | 0 <= i < |s| - 1 ensures s[i] != '_' {
      assert IsDigit(s[i]);
    }
  }

  /** The decimal value of the digits of `s`, underscores ignored. */
  function DigitsValue(s: string): nat
    requires forall i :: 0 <= i < |s| ==> IsDigit(s[i]) || s[i] == '_'
  {
    if s == [] then 0
    else if s[|s| - 1] == '_' then DigitsValue(s[..|s| - 1])
    else DigitsValue(s[..|s| - 1]) * 10 + DigitValue(s[|s| - 1])
  }

  /** CPython's default `sys.get_int_max_str_digits()`: `int` raises
      ValueError on a decimal literal of more digits than this, and `str`
      raises on an integer that would need more. */
  const MaxStrDigits := 4300

  /** The digits of a run, its underscores not counted, are within the
      limit. */
  predicate WithinLimit(s: string) {
    |s| - Count(s, '_') <= MaxStrDigits
  }

  /** A literal with its surrounding whitespace gone: an optional sign, then
      a digit run of at most `MaxStrDigits` digits. */
  function Literal(t: string): Option<int> {
    if |t| > 0 && (t[0] == '+' || t[0] == '-') then
      if DigitRun(t[1..]) && WithinLimit(t[1..]) then
        Some(if t[0] == '-' then -(DigitsValue(t[1..]) as int) else DigitsValue(t[1..]))
      else None
    else if DigitRun(t) && WithinLimit(t) then Some(DigitsValue(t))
    else None
  }

  /** `int(text)`: Some(value) when Python returns a value, None when it
      raises ValueError. Only C's whitespace is skipped. */
  function ParseInt(text: string): (r: Option<int>)
    ensures r.Some? ==> StripBlanks(CBlanks, text) != []
  {
    Literal(StripBlanks(CBlanks, text))
  }

  /** A digit is not whitespace of either class. */
  lemma {:induction false} DigitsTrimmed(s: string)
    requires s != [] && AllDigits(s)
    ensures Trimmed(CBlanks, s) && Trimmed(PyBlanks, s)
  {
    assert IsDigit(s[0]) && IsDigit(s[|s| - 1]);
  }

  /** A string of digits holds no underscore. */
  lemma {:induction false} DigitsCount(s: string)
    requires AllDigits(s)
    ensures Count(s, '_') == 0
    decreases |s|
  {
    if s != [] {
      assert s[0] != '_' by { assert IsDigit(s[0]); }
      assert AllDigits(s[1..]) by {
        forall i | 0 <= i < |s| - 1 ensures IsDigit(s[1..][i]) {
          assert s[1..][i] == s[i + 1];
        }
      }
      DigitsCount(s[1..]);
    }
  }

  /** Digits alone, at most `MaxStrDigits` of them, parse to their value,
      which is never negative. */
  lemma {:induction false} ParseDigits(s: string)
    requires s != [] && AllDigits(s) && |s| <= MaxStrDigits
    ensures ParseInt(s) == Some(DigitsValue(s))
  {
    DigitsTrimmed(s);
    StripTrimmed(CBlanks, s);
    AllDigitsRun(s);
    DigitsCount(s);
    assert !(s[0] == '+' || s[0] == '-') by { assert IsDigit(s[0]); }
  }

  /** More digits than `MaxStrDigits` make `int` raise, with or without a
      sign in front, whatever their value. */
  lemma {:induction false} ParseTooLong(s: string)
    requires AllDigits(s) && |s| > MaxStrDigits
    ensures ParseInt(s) == None
    ensures ParseInt("-" + s) == None
  {
    TooLongLiteral(s);
    NegativeTooLong(s);
    if s == [] {
    } else {
      DigitsTrimmed(s);
      StripTrimmed(CBlanks, s);
      NegativeTrimmed(s);
      StripTrimmed(CBlanks, "-" + s);
    }
  }

  lemma {:induction false} TooLongLiteral(s: string)
    requires AllDigits(s) && |s| > MaxStrDigits
    ensures Literal(s) == None
  {
    DigitsCount(s);
    assert !WithinLimit(s);
    assert !(s[0] == '+' || s[0] == '-') by { assert IsDigit(s[0]); }
  }

  lemma {:induction false} NegativeTooLong(s: string)
    requires AllDigits(s) && |s| > MaxStrDigits
    ensures Literal("-" + s) == None
  {
    var t := "-" + s;
    assert t[1..] == s;
    DigitsCount(s);
    assert !WithinLimit(t[1..]);
  }

  /** On unsigned digits `int` either returns their value or raises, as the
      digit count decides. */
  lemma {:induction false} ParseDigitsRange(s: string)
    requires s != [] && AllDigits(s)
    ensures |s| <= MaxStrDigits ==> ParseInt(s) == Some(DigitsValue(s))
    ensures |s| > MaxStrDigits ==> ParseInt(s) == None
  {
    if |s| <= MaxStrDigits {
      ParseDigits(s);
    } else {
      ParseTooLong(s);
    }
  }

  /** A leading '-' before digits negates their value. */
  lemma {:induction false} ParseNegative(s: string, v: nat)
    requires s != [] && AllDigits(s) && |s| <= MaxStrDigits && DigitsValue(s) == v
    ensures ParseInt("-" + s) == Some(-(v as int))
  {
    var t := "-" + s;
    NegativeTrimmed(s);
    StripTrimmed(CBlanks, t);
    NegativeLiteral(s, v);
  }

  lemma {:induction false} NegativeTrimmed(s: string)
    requires s != [] && AllDigits(s)
    ensures Trimmed(CBlanks, "-" + s)
  {
    var t := "-" + s;
    assert t[|t| - 1] == s[|s| - 1];
    assert IsDigit(s[|s| - 1]);
  }

  lemma {:induction false} NegativeLiteral(s: string, v: nat)
    requires s != [] && AllDigits(s) && |s| <= MaxStrDigits && DigitsValue(s) == v
    ensures Literal("-" + s) == Some(-(v as int))
  {
    var t := "-" + s;
    assert t[1..] == s;
    AllDigitsRun(s);
    DigitsCount(s);
  }

  /** Whitespace on either side does not change what `int` returns. */
  lemma {:induction false} ParsePadded(pre: string, t: string, post: string)
    requires forall i :: 0 <= i < |pre| ==> IsCSpace(pre[i])
    requires forall i :: 0 <= i < |post| ==> IsCSpace(post[i])
    requires t != [] && Trimmed(CBlanks, t)
    ensures ParseInt(pre + t + post) == ParseInt(t)
  {
    StripPadded(CBlanks, pre, t, post);
    StripTrimmed(CBlanks, t);
  }

  /** The separators 0x1C..0x1F are whitespace to `str.strip` but not to
      `int`: `int("\x1c5")` raises, although the text strips to "5". */
  lemma ParseRejectsSeparator()
    ensures Strip([28 as char] + "5") == "5"
    ensures ParseInt([28 as char] + "5") == None
  {
    var s := [28 as char] + "5";
    assert s[1..] == "5";
    assert StripLeft(PyBlanks, s) == "5";
    assert StripLeft(CBlanks, s) == s;
    assert StripRight(CBlanks, s) == s;
    assert !DigitRun(s) by { assert !IsDigit(s[0]); }
  }

  // ---------------------------------------------------------------------------
  // str(n), the inverse of int(text)
  // ---------------------------------------------------------------------------

  /** `str(n)` for n >= 0: shortest decimal digits. */
  function ShowNat(n: nat): (s: string)
    ensures s != [] && AllDigits(s)
    ensures n > 0 ==> s[0] != '0'
  {
    if n < 10 then [DigitChar(n)] else ShowNat(n / 10) + [DigitChar(n % 10)]
  }

  /** `str(n)`. */
  function ShowInt(n: int): string {
    if n < 0 then "-" + ShowNat(-n) else ShowNat(n)
  }

  /** `str(n)` returns rather than raising: the magnitude of `n` needs at
      most `MaxStrDigits` digits. */
  predicate Showable(n: int) {
    |ShowNat(if n < 0 then -n else n)| <= MaxStrDigits
  }

  lemma {:induction false} ShowNatValue(n: nat)
    ensures DigitsValue(ShowNat(n)) == n
  {
    if n >= 10 {
      var s := ShowNat(n);
      ShowNatValue(n / 10);
      assert s[..|s| - 1] == ShowNat(n / 10);
    }
  }

  /** Round trip: `int(str(n)) == n` for every integer `str` can spell. */
  lemma {:induction false} ParseShowInt(n: int)
    requires Showable(n)
    ensures ParseInt(ShowInt(n)) == Some(n)
  {
    if n < 0 {
      var m: nat := -n;
      assert ShowInt(n) == "-" + ShowNat(m);
      ParseShowNegative(m);
    } else {
      ParseShowNat(n);
    }
  }

  lemma {:induction false} ParseShowNat(n: nat)
    requires |ShowNat(n)| <= MaxStrDigits
    ensures ParseInt(ShowNat(n)) == Some(n)
  {
    ShowNatValue(n);
    ParseDigits(ShowNat(n));
  }

  lemma {:induction false} ParseShowNegative(m: nat)
    requires m > 0 && |ShowNat(m)| <= MaxStrDigits
    ensures ParseInt("-" + ShowNat(m)) == Some(-(m as int))
  {
    ShowNatValue(m);
    ParseNegative(ShowNat(m), m);
  }

  /** Leading zeros are accepted: a zero-padded digit string has the value of
      its digits. */
  lemma {:induction false} DigitsValueLeadingZero(s: string)
    requires AllDigits(s)
    ensures DigitsValue("0" + s) == DigitsValue(s)
    decreases |s|
  {
    if s != [] {
      var t := "0" + s;
      assert t[..|t| - 1] == "0" + s[..|s| - 1];
      DigitsValueLeadingZero(s[..|s| - 1]);
    } else {
      assert DigitsValue("0") == DigitsValue("") * 10 + DigitValue('0');
    }
  }
}

=== FILE: report.dfy ===
/** The mission report written when the last worker finishes: averages and
    the largest download over the recorded metrics, one row per track, and
    the report appended to the history. File access, the md5 playlist id,
    the timestamp and rounding are outside the model. */
module Report {
  import opened Wrappers
  import opened Tracks

  // ---------------------------------------------------------------------------
  // `track_sizes`: a dictionary that remembers insertion order
  // ---------------------------------------------------------------------------

  /** A dictionary from track index to size, as its (key, value) pairs in
      insertion order. */
  type Sizes = seq<(nat, nat)>

  function Keys(d: Sizes): (ks: seq<nat>)
    ensures |ks| == |d| && forall i :: 0 <= i < |d| ==> ks[i] == d[i].0
  {
    seq(|d|, i requires 0 <= i < |d| => d[i].0)
  }

  /** A dictionary never holds a key twice. */
  predicate DistinctKeys(d: Sizes) {
    forall i, j :: 0 <= i < j < |d| ==> Keys(d)[i] != Keys(d)[j]
  }

  /** `d.get(k, default)` */
  function Lookup(d: Sizes, k: nat, default: nat): (v: nat)
    ensures (exists i :: 0 <= i < |d| && d[i].0 == k) || v == default
    ensures forall i :: 0 <= i < |d| && d[i].0 == k && (forall j :: 0 <= j < i ==> d[j].0 != k) ==> v == d[i].1
    decreases |d|
  {
    if d == [] then default
    else if d[0].0 == k then d[0].1
    else
      var v := Lookup(d[1..], k, default);
      assert forall i :: 1 <= i < |d| ==> d[i] == d[1..][i - 1];
      v
  }

  /** `d[k] = v`: an existing key keeps its place and takes the new value;
      a new key goes to the end. */
  function Store(d: Sizes, k: nat, v: nat): (r: Sizes)
    decreases |d|
  {
    if d == [] then [(k, v)]
    else if d[0].0 == k then [(k, v)] + d[1..]
    else [d[0]] + Store(d[1..], k, v)
  }

  /** After storing, the key reads as the new value. */
  lemma {:induction false} StoreLookupSame(d: Sizes, k: nat, v: nat, dflt: nat)
    ensures Lookup(Store(d, k, v), k, dflt) == v
    decreases |d|
  {
    if d != [] && d[0].0 != k {
      StoreLookupSame(d[1..], k, v, dflt);
    }
  }

  /** Storing leaves every other key's value alone. */
  lemma {:induction false} StoreLookupOther(d: Sizes, k: nat, v: nat, k': nat, dflt: nat)
    requires k' != k
    ensures Lookup(Store(d, k, v), k', dflt) == Lookup(d, k', dflt)
    decreases |d|
  {
    if d != [] && d[0].0 != k {
      StoreLookupOther(d[1..], k, v, k', dflt);
    } else if d != [] {
      assert Store(d, k, v)[1..] == d[1..];
    }
  }

  /** Storing an existing key keeps the keys and their order; a new key is
      added at the end. */
  lemma {:induction false} StoreKeys(d: Sizes, k: nat, v: nat)
    ensures k in Keys(d) ==> Keys(Store(d, k, v)) == Keys(d)
    ensures k !in Keys(d) ==> Keys(Store(d, k, v)) == Keys(d) + [k]
    decreases |d|
  {
    var r := Store(d, k, v);
    if d == [] {
    } else if d[0].0 == k {
      assert Keys(r) == [k] + Keys(d[1..]);
      assert Keys(d) == [k] + Keys(d[1..]);
    } else {
      StoreKeys(d[1..], k, v);
      assert Keys(r) == [d[0].0] + Keys(Store(d[1..], k, v));
      assert Keys(d) == [d[0].0] + Keys(d[1..]);
    }
  }

  /** Storing keeps the keys distinct. */
  lemma {:induction false} StoreDistinct(d: Sizes, k: nat, v: nat)
    requires DistinctKeys(d)
    ensures DistinctKeys(Store(d, k, v))
  {
    StoreKeys(d, k, v);
  }

  // ---------------------------------------------------------------------------
  // Aggregates
  // ---------------------------------------------------------------------------

  function Max1(n: int): (m: int)
    ensures m >= 1 && m >= n
  {
    if n >= 1 then n else 1
  }

  /** `total_time / max(stats["complete"], 1)`, never a division by zero. */
  function AverageTime(totalTime: real, complete: int): (avg: real)
    ensures avg * (Max1(complete) as real) == totalTime
    ensures complete <= 1 ==> avg == totalTime
  {
    totalTime / (Max1(complete) as real)
  }

  /** `max(track_sizes.values())`, or 0 with no sizes. */
  function LargestSize(d: Sizes): (m: nat)
    ensures forall i :: 0 <= i < |d| ==> d[i].1 <= m
    ensures d == [] ==> m == 0
    ensures d != [] ==> exists i :: 0 <= i < |d| && d[i].1 == m
    decreases |d|
  {
    if d == [] then 0
    else
      var rest := LargestSize(d[1..]);
      assert forall i :: 1 <= i < |d| ==> d[i] == d[1..][i - 1];
      if d[0].1 >= rest then d[0].1 else rest
  }

  /** The position of the first pair holding `size`, the scan with `break`. */
  function FirstWithSize(d: Sizes, size: nat): (r: Option<nat>)
    ensures r.Some? ==> r.value < |d| && d[r.value].1 == size
                        && forall j :: 0 <= j < r.value ==> d[j].1 != size
    ensures r.None? ==> forall j :: 0 <= j < |d| ==> d[j].1 != size
    decreases |d|
  {
    if d == [] then None
    else if d[0].1 == size then Some(0)
    else
      match FirstWithSize(d[1..], size)
      case None => None
      case Some(i) => Some(i + 1)
  }

  /** Every recorded index names a track. */
  predicate KeysIndex(d: Sizes, count: nat) {
    forall i :: 0 <= i < |d| ==> d[i].0 < count
  }

  /** `largest_song`: with a positive largest size, the title of the track
      recorded first with that size; otherwise `None`. Recorded indices
      always name tracks (see `KeysIndex`); an index beyond the list, which
      would raise, reads as `None` here. */
  function LargestSong(tracks: seq<Track>, d: Sizes): Option<string> {
    var largest := LargestSize(d);
    if largest > 0 then
      match FirstWithSize(d, largest)
      case Some(i) => if d[i].0 < |tracks| then Some(tracks[d[i].0].title) else None
      case None => None
    else None
  }

  /** There is a largest song exactly when some size is positive, and it is
      the title of the first recorded track with the largest size. */
  lemma {:induction false} LargestSongSpec(tracks: seq<Track>, d: Sizes)
    requires KeysIndex(d, |tracks|)
    ensures var song := LargestSong(tracks, d);
      (song.None? <==> forall i :: 0 <= i < |d| ==> d[i].1 == 0)
      && (song.Some? ==> exists i :: 0 <= i < |d| && song == Some(tracks[d[i].0].title)
                            && d[i].1 == LargestSize(d)
                            && forall j :: 0 <= j < i ==> d[j].1 < d[i].1)
  {
    var largest := LargestSize(d);
    if largest > 0 {
      var i := FirstWithSize(d, largest).value;
      assert forall j :: 0 <= j < i ==> d[j].1 < d[i].1;
    }
  }

  // ---------------------------------------------------------------------------
  // The report
  // ---------------------------------------------------------------------------

  /** One entry of the report's `tracks` list. */
  datatype Row = Row(title: string, artist: string, status: Status, time: real, size: nat)

  /** `track_times.get(i, 0)` */
  function TimeOf(times: map<nat, real>, i: nat): real {
    if i in times then times[i] else 0.0
  }

  /** The rows for tracks `0` to `n - 1`, built from the back. */
  function RowsUpTo(tracks: seq<Track>, times: map<nat, real>, d: Sizes, n: nat): (rows: seq<Row>)
    requires n <= |tracks|
    ensures |rows| == n
    ensures forall i :: 0 <= i < n ==>
      rows[i].title == tracks[i].title && rows[i].artist == tracks[i].artist
      && rows[i].status == tracks[i].status
      && rows[i].time == TimeOf(times, i) && rows[i].size == Lookup(d, i, 0)
  {
    if n == 0 then []
    else
      var t := tracks[n - 1];
      RowsUpTo(tracks, times, d, n - 1) + [Row(t.title, t.artist, t.status, TimeOf(times, n - 1), Lookup(d, n - 1, 0))]
  }

  /** The report, without the timestamp and the md5 playlist id. */
  datatype MissionReport = MissionReport(
    playlistUrl: string,
    library: string,
    engine: string,
    totalTime: real,
    avgTime: real,
    stats: Stats,
    largestSong: Option<string>,
    largestSize: nat,
    rows: seq<Row>)

  function BuildReport(url: string, library: string, engine: string, totalTime: real,
                       stats: Stats, tracks: seq<Track>, times: map<nat, real>, d: Sizes): MissionReport
  {
    MissionReport(url, library, engine, totalTime, AverageTime(totalTime, stats.complete), stats,
                  LargestSong(tracks, d), LargestSize(d), RowsUpTo(tracks, times, d, |tracks|))
  }

  /** `history.append(report)` on the loaded history. */
  function SaveReport(history: seq<MissionReport>, report: MissionReport): (h: seq<MissionReport>)
    ensures |h| == |history| + 1
    ensures h[..|history|] == history
    ensures h[|history|] == report
  {
    history + [report]
  }

  // ---------------------------------------------------------------------------
  // Worked example: three archived tracks of five, 7 MB the largest
  // ---------------------------------------------------------------------------

  function ExampleTrack(title: string, artist: string, status: Status): Track {
    Track(artist, title, "0:00", true, status, Unresolved)
  }

  const ExampleTracks: seq<Track> := [
    ExampleTrack("Track 1", "Artist 1", Complete),
    ExampleTrack("Track 2", "Artist 2", Complete),
    ExampleTrack("Track 3", "Artist 3", Complete),
    ExampleTrack("Track 4", "Artist 4", NoMatch),
    ExampleTrack("Track 5", "Artist 5", Failed)]

  const ExampleSizes: Sizes := [(0, 5000000), (1, 7000000), (2, 6000000)]

  lemma ExampleReport()
    ensures var r := BuildReport("u", "Test_Library", "cpu", 600.0, Stats(5, 3, 1, 1),
                                 ExampleTracks, map[0 := 120.5, 1 := 180.2, 2 := 150.0], ExampleSizes);
      r.avgTime == 200.0 && r.largestSize == 7000000 && r.largestSong == Some("Track 2")
      && |r.rows| == 5
  {
    ExampleLargest(ExampleSizes);
    assert ExampleTracks[1].title == "Track 2";
    assert AverageTime(600.0, 3) == 200.0;
  }

  lemma {:induction false} ExampleLargest(d: Sizes)
    requires d == ExampleSizes
    ensures LargestSize(d) == 7000000 && FirstWithSize(d, 7000000) == Some(1)
  {
    assert d[1..] == [(1, 7000000), (2, 6000000)];
    assert d[1..][1..] == [(2, 6000000)];
    assert d[1..][1..][1..] == [];
  }

  /** With nothing archived the whole time counts as one track's. */
  lemma ExampleNothingArchived()
    ensures AverageTime(100.0, 0) == 100.0
  {
  }
}

=== FILE: tracks.dfy ===
/** The records the archivist keeps per playlist row and per mission. */
module Tracks {
  import opened Wrappers

  /** The `status` strings a track moves through: "WAITING FOR PROPAGATION
      OF PLAYLIST ITEMS", "QUEUED", "ARCHIVING", "AWAITING USER DECISION",
      "NO MATCH", "COMPLETE" and "FAILED". */
  datatype Status = Propagating | Queued | Archiving | Awaiting | NoMatch | Complete | Failed

  /** What the resolution screen leaves on a track: the `youtube_url` and
      `youtube_id` keys. The worker reads the url with `.get`, so an absent
      key and a stored `None` both read as `None`. The id is read with a
      default, so an absent key (outer `None`) differs from a stored `None`
      (`Some(None)`). */
  datatype Resolution = Resolution(url: Option<string>, id: Option<Option<string>>)

  const Unresolved := Resolution(None, None)

  /** One harvested playlist row. */
  datatype Track = Track(
    artist: string,
    title: string,
    duration: string,
    selected: bool,
    status: Status,
    resolution: Resolution)

  /** The mission counters `total`, `complete`, `no_match` and `failed`. */
  datatype Stats = Stats(total: int, complete: int, noMatch: int, failed: int)

  /** The counters of `__init__`, and of a start before any worker ran. */
  const ZeroStats := Stats(0, 0, 0, 0)
}

=== FILE: wrappers.dfy ===
/** The optional-value datatype used throughout the model: `None` stands for
    Python's `None`, for a missing dictionary key, or for a raised exception,
    as each use site documents. */
module Wrappers {

  datatype Option<+T> = None | Some(value: T) {

    /** Returns the value held in Some, or `default` for None. */
    function GetOr(default: T): T {
      match this
      case Some(v) => v
      case None => default
    }
  }
}
